=== FILE: README.md ===
# alumni_connect in Dafny

A model of the rule code of alumni_connect. The model has two halves.

The backend half is registration verification and account issuance:
- `register` normalises the emails, refuses admin self-signup and duplicate emails, then dispatches by role. A student is verified by matching the ID-card OCR text. An alumnus is verified by a lexical test of the work-email domain, with an ID-card fallback. Exactly one account is created, then a token is issued.
- `login` looks the user up and checks the password.
- The Mongoose schema rules for users.
- The bearer-token guard and role gate.
- The admin list / delete / verify routes, over an in-memory user table.

The frontend half is the client-side rule code:
- the mock verification API;
- the `DynamicAuth` check → password view state machine;
- the multipart field serialiser of `registerUser`;
- the `useAuth` hooks;
- the list handlers and derived statistics of the explorer, workshop, registration, journey, request and profile-builder pages;
- the layout arithmetic and SVG path text of the journey roadmap.

Layout:
- `js.dfy` (module `Js`) models the JavaScript built-ins the sources rely on: truthiness, ASCII `toLowerCase`/`toUpperCase`, the `\s` set, `trim`, `split` on one character, `includes`/`startsWith`/`endsWith`, `padStart(2, '0')`, decimal number text, decimal `parseInt` (no `0x` prefix) and `Number`.
- `stable_sort.dfy` models `Array.prototype.sort` with a numeric comparator.
- `http.dfy` holds the reply, profile and token datatypes the backend handlers share.
- Every other file models one source file.

How the code takes form:
- Pure code is functions and lemmas.
- The user table is a class whose methods change its rows.
- Each React component's state is a class. Each handler is a method that states the whole new state, including that every other field is unchanged.

Foreign calls are parameters:
- Tesseract is an oracle `recognize` that returns text or a failure message;
- `jwt.sign`/`jwt.verify` are an opaque pair of functions;
- bcrypt hash and compare are opaque functions;
- `Math.random()` becomes an explicit random argument;
- `new Date()` becomes an explicit `today` argument;
- `window.confirm` becomes a boolean argument.

## Model

| member | source | states |
|---|---|---|
| UserModel.RoleOf | backend/models/User.js:12-16 | an absent role becomes "student"; a given role is kept as given |
| UserModel.CastGraduationYear | backend/models/User.js:32-37 | an absent or empty graduation year casts to no value; any value that casts is the `Number` reading of the text |
| UserModel.Validate | backend/models/User.js:4-63 | an accepted document has a non-empty name, email and password, and a role in {student, alumni, admin} after the default. A student has a roll number and an alumnus a graduation year. The graduation year is the cast value. isVerified is false unless given as true. Name, email, password, roll number, work email and both card URLs are kept as given |
| UserModel.ValidateAccepts | backend/models/User.js:6-59 | a draft meeting every rule is accepted; an absent role is stored as "student" and an absent isVerified as false |
| UserModel.StudentNeedsRollNumber | backend/models/User.js:19-24 | a student draft without a roll number is refused whatever else it holds |
| UserModel.AlumniNeedsGraduationYear | backend/models/User.js:32-37 | an alumni draft without a graduation year is refused whatever else it holds |
| UserModel.RoleOutsideEnumRefused | backend/models/User.js:12-16 | a role outside the enum is refused |
| UserModel.UserDocument.Create | backend/models/User.js:66-67 | a new document counts its password as modified |
| UserModel.UserDocument.Load | backend/models/User.js:66-67 | a loaded document counts nothing as modified |
| UserModel.UserDocument.MarkVerified | backend/routes/adminRoutes.js:40 | only isVerified changes, to true; the modified flag of the password is untouched |
| UserModel.UserDocument.PreSave | backend/models/User.js:66-70 | a modified password is replaced by its hash; otherwise the stored hash is kept; afterwards nothing counts as modified |
| UserModel.FindByEmail | backend/controllers/User.js:43-44 | the result is a stored row with that email, and there is none exactly when no row has the email |
| UserModel.FindByEmailOfStored | backend/controllers/User.js:43-44 | in a well-formed collection, looking up a stored user's email finds exactly that user (emails are unique) |
| UserModel.IndexOfId | backend/routes/adminRoutes.js:37 | a found index holds a row with that id; no index means no row has the id |
| UserModel.ObjectIdDigits | backend/routes/adminRoutes.js:37 | text casts to an ObjectId exactly when it has 24 characters, each a hex digit once lower-cased |
| UserModel.ObjectIdIgnoresCase | backend/routes/adminRoutes.js:37 | text casts exactly when its lower-cased text does, and then the lower-cased text is the stored (lower-case hex) form of the id |
| UserModel.FindById | backend/routes/adminRoutes.js:37-38 | an id that is not a 24-hex ObjectId throws; otherwise the row whose id is the lower-cased request id, or none exactly when no row has it |
| UserModel.FindByIdIgnoresCase | backend/routes/adminRoutes.js:37-38 | in a well-formed table any spelling of a stored id, upper- or lower-case, finds that row |
| UserModel.RemoveId | backend/routes/adminRoutes.js:25 | removing an id shrinks the table by one exactly when some row has the id; no row is added, and every row with another id stays |
| UserModel.RemoveAtKeeps | backend/routes/adminRoutes.js:25 | dropping one row keeps ids and emails unique and createdAt increasing, and loses exactly the rows with that id |
| UserModel.AppendKeeps | backend/models/User.js:8 | appending a conforming row with a fresh id, an unused email and the current clock keeps the table well formed |
| UserModel.NewRowConforms | backend/models/User.js:6-37 | the row built from an accepted draft satisfies every schema rule, whatever hash is stored |
| UserModel.Collection.constructor | backend/models/User.js:77 | the collection starts empty and well formed |
| UserModel.Collection.Create | backend/models/User.js:4-70 | a refused draft throws the validation message and changes nothing. A taken email throws. Otherwise exactly one row is appended: the validated draft with the hashed password, stamped with the clock. The table stays well formed |
| UserModel.Collection.Insert | backend/models/User.js:62 | the row is appended and the clock moves on by one; the table stays well formed |
| UserModel.Collection.DeleteById | backend/routes/adminRoutes.js:25 | a malformed id throws and changes nothing. Otherwise exactly the row holding the id, written in either case, goes if there is one; the rest keep their order and the table stays well formed |
| UserModel.Collection.Save | backend/models/User.js:66-70 | the row at the document's place becomes the document's row after the pre-save hook (hash only when modified); nothing else changes |
| UserController.CleanEmail | backend/controllers/User.js:35 | the cleaned email is lower-case, no longer than the input, and neither starts nor ends with whitespace |
| UserController.CleanWorkEmail | backend/controllers/User.js:36 | the cleaned work email is absent exactly when the work email is absent |
| UserController.LoginEmailIsCleanEmail | backend/controllers/User.js:144 | login's lower-then-trim equals register's trim-then-lower, so login looks up the email registration stored |
| UserController.IsCorporateEmail | backend/controllers/User.js:81-90 | only a present, non-empty work email can count as corporate |
| UserController.GeneratedTokenCarriesUser | backend/controllers/User.js:6-10 | a token from `generateToken` verifies back to the user's id and role (given that verify inverts sign) |
| UserController.CorporateIffDomainNotGeneric | backend/controllers/User.js:81-90 | for an address with one '@', it is corporate iff the domain is not gmail.com, yahoo.com, hotmail.com or outlook.com; the corporate suffix list plays no part |
| UserController.NoAtSignIsCorporate | backend/controllers/User.js:85-89 | a non-empty work email with no '@' counts as corporate |
| UserController.SecondAtSignHidesTail | backend/controllers/User.js:86 | only the piece between the first and second '@' is tested: a generic domain followed by another '@' stays generic |
| UserController.Register | backend/controllers/User.js:15-130 | the checks answer in the handler's order: 400 missing fields, 403 admin, 400 duplicate cleaned email, 400 roll number/card missing, 400 graduation year, 400 no alumni evidence. A refusal leaves the table unchanged. Otherwise exactly one account is created and the reply is 201 with the welcome text, the session user and the token signed over {id, role} for "7d"; a sign failure answers 500 |
| UserController.CreatedAccount | backend/controllers/User.js:100-111 | the created account stores the cleaned email and the hashed password. Its role is student or alumni. isVerified is the OCR match for a student and the corporate test for an alumnus. A student's card URL is recorded |
| UserController.FailedMatchStillRegisters | backend/controllers/User.js:60-67 | a student whose card does not match is still accepted by the schema, unverified |
| UserController.BlankEmailFailsCreate | backend/controllers/User.js:31-35 | an all-whitespace email passes the presence check but cleans to "", which the schema refuses |
| UserController.CardAloneLeavesAlumnusUnverified | backend/controllers/User.js:92-96 | an alumnus without a corporate work email is stored with isVerified false, even with an ID card |
| UserController.NoPublicAdmin | backend/controllers/User.js:39-41 | the role that reaches the table is never "admin" |
| UserController.Login | backend/controllers/User.js:135-176 | 400 when email or password is missing; 404 when no row has the cleaned email; 400 "Invalid credentials." when the found user's hash refuses the password; 500 "Server error." when signing fails. 200 exactly when the hash accepts the password and a token is signed, answering that user (with email) and the token |
| UserController.RegisteredUserLogsIn | backend/controllers/User.js:143-170 | an account registered under an email logs in with that email, in any spacing and case, and its password, getting its own user and token |
| OcrService.CollapseSpaces | backend/utils/ocrService.js:12 | the result is no longer than the text; a leading non-space is kept, and a leading whitespace run becomes one space |
| OcrService.CollapseSpacesIsCollapsed | backend/utils/ocrService.js:12 | after collapsing, every whitespace character is a plain space and no two are adjacent |
| OcrService.CollapseSpacesOfCollapsed | backend/utils/ocrService.js:12 | collapsed text is left unchanged |
| OcrService.CollapseSpacesKeepsLower | backend/utils/ocrService.js:12 | collapsing keeps text free of upper-case letters |
| OcrService.CollapseSpacesKeepsText | backend/utils/ocrService.js:12 | collapsing keeps every non-space character, in order, and adds none |
| OcrService.AllSpacesCollapse | backend/utils/ocrService.js:12 | a non-empty run made only of whitespace becomes exactly one space |
| OcrService.CollapseSpacesAppend | backend/utils/ocrService.js:12 | text cut after a non-space character collapses as its two parts do; with the two lemmas above this fixes the result run by run (a single non-space character is kept) |
| OcrService.CleanText | backend/utils/ocrService.js:12 | the cleaned text is lower-case, collapsed, and no longer than the input (no trimming) |
| OcrService.CleanTextIdempotent | backend/utils/ocrService.js:12 | cleaning twice equals cleaning once |
| OcrService.NonSpacesOfLower | backend/utils/ocrService.js:12 | lower-casing neither makes nor removes whitespace |
| OcrService.CleanTextKeepsText | backend/utils/ocrService.js:12 | the cleaned text's non-space characters are the text's own non-space characters lower-cased, in order |
| OcrService.NameParts | backend/utils/ocrService.js:24 | splitting the lower-cased name gives at least one part |
| OcrService.RollMatches | backend/utils/ocrService.js:14-19 | the roll check holds exactly when the lower-cased roll number occurs at some position of the cleaned text |
| OcrService.NameMatches | backend/utils/ocrService.js:24-25 | the name check holds exactly when some part of the lower-cased name occurs in the cleaned text |
| OcrService.VerifyStudentOcr | backend/utils/ocrService.js:4-35 | a recognition failure gives the error message; otherwise the result carries the cleaned text, and success implies both checks hold |
| OcrService.SomeIncludedIff | backend/utils/ocrService.js:25 | `some(part => text.includes(part))` holds iff some part occurs in the text |
| OcrService.OcrOutcome | backend/utils/ocrService.js:4-35 | a recognition failure gives {success:false, error} and is not rethrown. Otherwise the cleaned text is returned, and success holds iff the lower-cased roll number occurs in it and some name part occurs in it |
| OcrService.DoubleSeparatorGivesEmptyPiece | backend/utils/ocrService.js:24 | two separators in a row give an empty piece |
| OcrService.DoubleSpaceNameMatchesAnyText | backend/utils/ocrService.js:24-25 | a name with a double space passes the name check against any text |
| OcrService.RollMatchesInsideLongerNumber | backend/utils/ocrService.js:19 | the roll number matches wherever it occurs, even inside a longer number (no word boundary) |
| OcrService.EmptyRollNumberAlwaysMatches | backend/utils/ocrService.js:14-19 | an empty roll number matches every text |
| AuthMiddleware.ExtractBearer | backend/middleware/authMiddleware.js:9-14 | a token is taken only from a header starting with exactly "Bearer ", and contains no space |
| AuthMiddleware.BearerRoundTrip | backend/middleware/authMiddleware.js:12-13 | "Bearer " followed by a space-free token gives back that token |
| AuthMiddleware.SchemeIsCaseSensitive | backend/middleware/authMiddleware.js:12 | a header whose first letter is not 'B' gives no token |
| AuthMiddleware.Authenticate | backend/middleware/authMiddleware.js:5-36 | no token gives "Authentication required.". A token that fails verification, an uncastable id or an unknown id gives "Authentication failed.". Success happens exactly when the token's id, read in either case, has a stored user, and yields that user without the password |
| AuthMiddleware.IssuedTokenAuthenticates | backend/middleware/authMiddleware.js:21-30 | a token issued for a stored user, presented as "Bearer <token>", authenticates that user (given that verify inverts sign) |
| AuthMiddleware.Protect | backend/middleware/authMiddleware.js:5-36 | on success req.user is the found user and next is called once; otherwise 401 with the message, and the request is untouched |
| AuthMiddleware.RestrictTo | backend/middleware/authMiddleware.js:39-51 | passes iff there is a user whose role is listed; no user gives 401, an unlisted role 403 |
| AdminRoutes.GateDecision | backend/routes/adminRoutes.js:8 | the chain passes iff protect authenticates a user whose stored role is "admin"; every refusal is 401 or 403 |
| AdminRoutes.GateOpensForStoredAdmins | backend/routes/adminRoutes.js:8 | in a well-formed table the gate opens exactly for a verified token whose id, in either case, is a stored admin |
| AdminRoutes.TokenRoleIgnored | backend/routes/adminRoutes.js:8 | the role inside the token never matters, only the stored role |
| AdminRoutes.Gate | backend/routes/adminRoutes.js:8 | runs protect then restrictTo("admin") and answers as GateDecision; next is called once on success |
| AdminRoutes.NewestFirst | backend/routes/adminRoutes.js:13 | the listing holds every row without its password, in reverse insertion order |
| AdminRoutes.NewestFirstOrder | backend/routes/adminRoutes.js:13-14 | in a well-formed table the listing is strictly decreasing in createdAt and holds every user |
| AdminRoutes.ListUsers | backend/routes/adminRoutes.js:11-19 | a gate refusal answers as the gate; otherwise 200 with count equal to the number listed and the newest-first listing |
| AdminRoutes.DeleteUser | backend/routes/adminRoutes.js:22-31 | a gate refusal answers as the gate and changes nothing. A malformed id answers 500. Otherwise "User deleted." whether or not the id was stored, and the row whose id is the request id in either case is gone |
| AdminRoutes.RemoveIdKeepsOthers | backend/routes/adminRoutes.js:25-26 | deletion keeps the table well formed, keeps every other row, and shrinks it by one exactly when the id was stored |
| AdminRoutes.SetVerified | backend/routes/adminRoutes.js:40-41 | only the row with that id changes, and only its isVerified, to true |
| AdminRoutes.SetVerifiedIdempotent | backend/routes/adminRoutes.js:40-41 | verifying twice equals verifying once |
| AdminRoutes.SetVerifiedKeeps | backend/routes/adminRoutes.js:40-41 | verifying keeps the table well formed |
| AdminRoutes.VerifyUser | backend/routes/adminRoutes.js:34-48 | a gate refusal answers as the gate. A malformed id answers 500. An id held by no row, in either case, answers 404 and changes nothing. Otherwise that user is marked verified (hash kept) and the reply carries only its id, email and role |
| MockApi.CheckUserExists | frontend/alumni_connect/src/pages/services/MockApi.js:16-24 | an identifier exists iff it is exactly '112233', 'rahul@nitdelhi.ac.in' or 'NITD-001' |
| MockApi.FindInstitute | frontend/alumni_connect/src/pages/services/MockApi.js:35 | a found institute is listed and has exactly that domain; none found means no institute has it |
| MockApi.VerifyDomain | frontend/alumni_connect/src/pages/services/MockApi.js:27-40 | the special address gets the third institute whatever its domain; a rejection always carries 'Domain not recognized…' |
| MockApi.VerifyDomainByPiece | frontend/alumni_connect/src/pages/services/MockApi.js:30-37 | any other address succeeds iff the piece after its first '@' is a partner domain, and gets that partner |
| MockApi.VerifyDomainOfAddress | frontend/alumni_connect/src/pages/services/MockApi.js:30-37 | for an address with one '@', verification succeeds exactly for the three partner domains |
| MockApi.VerifyInstituteCredentials | frontend/alumni_connect/src/pages/services/MockApi.js:43-51 | a rejection carries "Invalid Institute ID or Master Key." |
| MockApi.CredentialPairs | frontend/alumni_connect/src/pages/services/MockApi.js:46-48 | exactly the two listed id/key pairs pass |
| MockApi.VerifyStudentId | frontend/alumni_connect/src/pages/services/MockApi.js:54-61 | succeeds iff the id has at least 5 characters, naming "Student"; otherwise the rejection message |
| MockApi.Login | frontend/alumni_connect/src/pages/services/MockApi.js:64-68 | always answers a non-empty token |
| MockApi.RequiredFields | frontend/alumni_connect/src/pages/services/MockApi.js:77-79 | ['batch','department','rollNumber'] for 'student', ['gradYear','currentCompany','designation'] for any other role |
| DynamicAuth.InitialView | frontend/alumni_connect/src/components/DynamicAuth.jsx:12 | the view is 'password' iff the mode is 'login', else 'check' |
| DynamicAuth.Identifier | frontend/alumni_connect/src/components/DynamicAuth.jsx:37-41 | student → studentId, alumni → email, institute → instituteId, any other role → '' |
| DynamicAuth.ErrorTextShown | frontend/alumni_connect/src/components/DynamicAuth.jsx:61 | the error shown is never blank, and a non-blank message is shown as it is |
| DynamicAuth.Eligibility | frontend/alumni_connect/src/components/DynamicAuth.jsx:53-55 | each role passes iff its own service check passes, an unknown role has none, and a refusal always has a message |
| DynamicAuth.IdentityOutcome | frontend/alumni_connect/src/components/DynamicAuth.jsx:43-61 | the account exists iff the identifier is known; a new identifier is accepted iff its eligibility check passes, else refused with that check's message |
| DynamicAuth.UnknownRolePassesCheck | frontend/alumni_connect/src/components/DynamicAuth.jsx:37-58 | an unknown role's empty identifier is never an existing user and has no check, so it always proceeds |
| DynamicAuth.AuthCard.constructor | frontend/alumni_connect/src/components/DynamicAuth.jsx:10-22 | the card starts in the mode's view, not loading, without messages, with empty inputs |
| DynamicAuth.AuthCard.PropsChanged | frontend/alumni_connect/src/components/DynamicAuth.jsx:24-28 | the effect runs only when the role or the mode differs; it then resets the view and clears error and info, and nothing else changes |
| DynamicAuth.AuthCard.TypePassword | frontend/alumni_connect/src/components/DynamicAuth.jsx:143 | only the password changes, to the typed text |
| DynamicAuth.AuthCard.TypeEmail | frontend/alumni_connect/src/components/DynamicAuth.jsx:128 | only the work email changes, to the typed text, unless the identity inputs are disabled |
| DynamicAuth.AuthCard.TypeStudentId | frontend/alumni_connect/src/components/DynamicAuth.jsx:122 | only the roll number changes, to the typed text, unless the identity inputs are disabled |
| DynamicAuth.AuthCard.TypeInstituteId | frontend/alumni_connect/src/components/DynamicAuth.jsx:133 | only the institute id changes, to the upper-cased typed text, unless the identity inputs are disabled |
| DynamicAuth.AuthCard.TypeAccessKey | frontend/alumni_connect/src/components/DynamicAuth.jsx:134 | only the master key changes, to the typed text, unless the identity inputs are disabled |
| DynamicAuth.LowerCaseInstituteIdFound | frontend/alumni_connect/src/components/DynamicAuth.jsx:133 | "nitd-001" typed as an institute id is stored as "NITD-001", which the identity check finds as an existing account |
| DynamicAuth.AuthCard.IdentityCheck | frontend/alumni_connect/src/components/DynamicAuth.jsx:31-65 | an existing identifier moves to 'password' with the info message and calls no onSuccess. A new, eligible one calls onSuccess({isNewUser:true}). A refusal sets the error and keeps the view. Loading is true then false, and the inputs are unchanged |
| DynamicAuth.AuthCard.Settle | frontend/alumni_connect/src/components/DynamicAuth.jsx:45-64 | the state changes once the services have answered with the given outcome, as listed for IdentityCheck |
| DynamicAuth.AuthCard.HandleLogin | frontend/alumni_connect/src/components/DynamicAuth.jsx:68-87 | an institute in login mode on the password view must pass the credential check, else "Invalid credentials." and no onSuccess. Otherwise onSuccess({isNewUser:false}). Loading ends false and the view is unchanged |
| DynamicAuth.AuthCard.Submit | frontend/alumni_connect/src/components/DynamicAuth.jsx:115-143 | while a required, enabled input is empty nothing changes. Otherwise the "check" view ends in exactly the state IdentityCheck leaves, and any other view in exactly the state HandleLogin leaves |
| Js.IntToString | frontend/alumni_connect/src/api/authService.js:20-21 | a number appended as-is becomes non-empty decimal text, `String(n)`, that starts with "-" exactly when the number is negative |
| Js.IntToStringInjective | frontend/alumni_connect/src/api/authService.js:20-21 | different integers are appended as different texts, so the number a field holds is determined by its text |
| Js.ParseInt | frontend/alumni_connect/src/pages/student/StudentJourney.jsx:40 | `parseInt` of blank text is NaN |
| Js.ParseIntNeedsDigit | frontend/alumni_connect/src/pages/student/StudentJourney.jsx:40 | `parseInt` of text whose first non-space character is not a digit or sign is NaN; a negative result comes only from a leading "-" |
| Js.ParseIntOfNatToString | frontend/alumni_connect/src/pages/alumni/WorkshopCreator.jsx:105 | `parseInt` reads back the decimal text of every natural number |
| Js.ToNumber | frontend/alumni_connect/src/pages/alumni/WorkshopManager.jsx:93 | `Number` of blank text is 0 |
| Js.ToNumberNeedsDigit | frontend/alumni_connect/src/pages/alumni/WorkshopManager.jsx:93 | `Number` of trimmed text starting with anything but a digit or sign is NaN; a negative result comes only from a leading "-" |
| Js.ToNumberOfNatToString | frontend/alumni_connect/src/pages/alumni/WorkshopManager.jsx:93 | `Number` reads back the decimal text of every natural number |
| AuthService.EscapeChar | frontend/alumni_connect/src/api/authService.js:16-19 | JSON.stringify writes a character as itself or as a backslash escape |
| AuthService.Quote | frontend/alumni_connect/src/api/authService.js:16-19 | a JSON string literal is enclosed in double quotes |
| AuthService.Stringify | frontend/alumni_connect/src/api/authService.js:16-19 | `JSON.stringify`: null and undefined give "null", a boolean "true"/"false", a number its decimal text, a string its quoted literal; the first character is `[` exactly for an array, `{` exactly for an object and `"` exactly for a string, and arrays and objects end in `]` and `}` |
| AuthService.Defined | frontend/alumni_connect/src/api/authService.js:16-19 | JSON object text keeps exactly the members whose value is not undefined, in order (the list filtered on that test) |
| AuthService.FieldText | frontend/alumni_connect/src/api/authService.js:16-22 | arrays and objects are JSON-stringified; a string is appended as it is; a number becomes its decimal text and a boolean "true" or "false", as `String` coerces them |
| AuthService.SerialisedFields | frontend/alumni_connect/src/api/authService.js:12-23 | the field loop appends at most one entry per field |
| AuthService.SerialisedFieldsAppend | frontend/alumni_connect/src/api/authService.js:12-23 | fields are appended in key order: one more field adds nothing when null/undefined, else its entry at the end |
| AuthService.SerialisedFieldsMembers | frontend/alumni_connect/src/api/authService.js:14-22 | every present field is serialised and every entry comes from a present field; null and undefined are omitted |
| AuthService.FileEntries | frontend/alumni_connect/src/api/authService.js:29-35 | the file goes under 'studentIdCardImage' only for exactly 'Student', under 'idCardImage' only for exactly 'Alumni', and nothing is appended otherwise or without a file |
| AuthService.LowerCaseRoleDropsFile | frontend/alumni_connect/src/api/authService.js:30-34 | a lower-case role drops the file |
| AuthService.FormData.constructor | frontend/alumni_connect/src/api/authService.js:9 | a new form has no entries |
| AuthService.FormData.Append | frontend/alumni_connect/src/api/authService.js:21 | append adds one entry at the end |
| AuthService.RegisterForm | frontend/alumni_connect/src/api/authService.js:8-35 | the body is the serialised fields, then 'role' set to the lower-cased role, then the file entry |
| UseAuth.UseAuthContext | frontend/alumni_connect/src/hooks/useAuth.js:6-12 | outside the provider the hook throws; inside it returns the context |
| UseAuth.RoleCheckIgnoresCase | frontend/alumni_connect/src/hooks/useAuth.js:27 | the role check ignores case, an account without a role passes, and a mismatch means the roles differ |
| UseAuth.LoginErrorText | frontend/alumni_connect/src/hooks/useAuth.js:35 | the server message, else the error's message, else 'Login failed'; never empty |
| UseAuth.RegisterErrorText | frontend/alumni_connect/src/hooks/useAuth.js:65 | the server message, else the fixed registration message; never empty |
| UseAuth.SessionContext.Login | frontend/alumni_connect/src/hooks/useAuth.js:31 | each `login(user, token)` call is recorded in order |
| UseAuth.LoginHook.constructor | frontend/alumni_connect/src/hooks/useAuth.js:14-19 | the hook starts not loading and without error |
| UseAuth.LoginHook.PerformLogin | frontend/alumni_connect/src/hooks/useAuth.js:21-40 | a role match (or no role) calls login(user, token) and returns {success:true, role}. A mismatch sets "Unauthorized…" and does not call login. A failed call sets the error text. Loading goes true then false |
| UseAuth.RegisterHook.constructor | frontend/alumni_connect/src/hooks/useAuth.js:45-50 | the hook starts not loading, without error, with nothing posted |
| UseAuth.RegisterHook.PerformRegister | frontend/alumni_connect/src/hooks/useAuth.js:52-70 | posts the serialised form and calls login only when both token and user are present, returning {success:true, message}. A failure sets the error text and calls no login. Loading goes true then false |
| StudentExplorer.RemoveFirst | frontend/alumni_connect/src/pages/alumni/StudentExplorer.jsx:31 | text without the pattern is left unchanged; RemoveFirstOccurrence states the other case |
| StudentExplorer.RemoveFirstOccurrence | frontend/alumni_connect/src/pages/alumni/StudentExplorer.jsx:31 | when the pattern first occurs at i, exactly that occurrence is cut out and the text on both sides is kept |
| StudentExplorer.YearSuffixRemoved | frontend/alumni_connect/src/pages/alumni/StudentExplorer.jsx:31 | "3rd Year" loses its suffix and becomes "3rd" |
| StudentExplorer.FilterStudents | frontend/alumni_connect/src/pages/alumni/StudentExplorer.jsx:27-37 | exactly the students passing the search, year, branch and readiness tests |
| StudentExplorer.FilterStudentsAppend | frontend/alumni_connect/src/pages/alumni/StudentExplorer.jsx:28-36 | the filter keeps the original order: it distributes over concatenation |
| StudentExplorer.EmptySearchPassesAll | frontend/alumni_connect/src/pages/alumni/StudentExplorer.jsx:29-30 | the empty search term passes every student |
| StudentExplorer.BranchMatchesFirstWord | frontend/alumni_connect/src/pages/alumni/StudentExplorer.jsx:32 | a multi-word department option matches exactly the students whose branch is its first word |
| StudentExplorer.CseOptionFirstWord | frontend/alumni_connect/src/pages/alumni/StudentExplorer.jsx:132 | the first word of "Computer Science (CSE)" is "Computer" |
| StudentExplorer.NoBranchNoneListed | frontend/alumni_connect/src/pages/alumni/StudentExplorer.jsx:32 | a department whose first word is no student's branch lists nobody |
| StudentExplorer.NoComputerBranch | frontend/alumni_connect/src/pages/alumni/StudentExplorer.jsx:8-15 | no listed student has branch "Computer" |
| StudentExplorer.CseOptionListsNobody | frontend/alumni_connect/src/pages/alumni/StudentExplorer.jsx:131-135 | selecting "Computer Science (CSE)" lists nobody, whatever the other filters |
| StudentExplorer.Round | frontend/alumni_connect/src/pages/alumni/StudentExplorer.jsx:40 | Math.round of a quotient: the nearest integer, halves rounded up |
| StudentExplorer.AverageReadiness | frontend/alumni_connect/src/pages/alumni/StudentExplorer.jsx:40 | 0 for no students; otherwise the rounded mean readiness |
| StudentExplorer.AverageWithinScores | frontend/alumni_connect/src/pages/alumni/StudentExplorer.jsx:40 | the rounded average lies between the lowest and highest score |
| StudentExplorer.TopTalentCount | frontend/alumni_connect/src/pages/alumni/StudentExplorer.jsx:41 | the count is the length of the list filtered by readiness above 75; so at most the number of students, and all of them only when every readiness is above 75 |
| StudentExplorer.ReadinessBucket | frontend/alumni_connect/src/pages/alumni/StudentExplorer.jsx:234-238 | green iff above 75, orange iff 25 to 75, blue iff below 25 |
| StudentExplorer.ExplorerPage.constructor | frontend/alumni_connect/src/pages/alumni/StudentExplorer.jsx:18-23 | empty search and the default filters |
| StudentExplorer.ExplorerPage.SetSearchTerm | frontend/alumni_connect/src/pages/alumni/StudentExplorer.jsx:66 | only the search term changes |
| StudentExplorer.ExplorerPage.SetYear | frontend/alumni_connect/src/pages/alumni/StudentExplorer.jsx:112 | only the year filter changes |
| StudentExplorer.ExplorerPage.SetBranch | frontend/alumni_connect/src/pages/alumni/StudentExplorer.jsx:128 | only the branch filter changes |
| StudentExplorer.ExplorerPage.SetMinReadiness | frontend/alumni_connect/src/pages/alumni/StudentExplorer.jsx:150 | only the readiness threshold changes |
| StudentExplorer.ExplorerPage.Reset | frontend/alumni_connect/src/pages/alumni/StudentExplorer.jsx:95 | the filters become 'All', 'All Branches' and 0; the search term is kept |
| WorkshopManager.TotalsAppend | frontend/alumni_connect/src/pages/alumni/WorkshopManager.jsx:59-63 | registrations (sum of attendees) and revenue (sum of attendees × price) add up over concatenation |
| WorkshopManager.PriceOf | frontend/alumni_connect/src/pages/alumni/WorkshopManager.jsx:93 | blank or non-numeric text gives 0; numeric text gives its number |
| WorkshopManager.NewWorkshop | frontend/alumni_connect/src/pages/alumni/WorkshopManager.jsx:85-94 | attendees 0, status 'Scheduled', price `Number(price) \|\| 0`, title/date/time/mode from the form, id 'WS-' and the random number |
| WorkshopManager.CreateKeepsTotals | frontend/alumni_connect/src/pages/alumni/WorkshopManager.jsx:59-96 | creating a workshop changes neither registrations nor revenue |
| WorkshopManager.WithoutId | frontend/alumni_connect/src/pages/alumni/WorkshopManager.jsx:114 | keeps exactly the workshops with another id, and equals `filter` with that test (order and repeats kept) |
| WorkshopManager.WithoutIdLowersRegistrations | frontend/alumni_connect/src/pages/alumni/WorkshopManager.jsx:114 | with no negative attendance, cancelling never raises registrations |
| WorkshopManager.Displayed | frontend/alumni_connect/src/pages/alumni/WorkshopManager.jsx:122-142 | the list filtered to the workshops on the tab, in order and with repeats kept: date ≥ today for 'upcoming', < today for 'past' (string order), status 'Draft' for 'drafts', all otherwise |
| WorkshopManager.UpcomingPastPartition | frontend/alumni_connect/src/pages/alumni/WorkshopManager.jsx:126-134 | 'upcoming' and 'past' partition the list |
| WorkshopManager.OtherTabShowsAll | frontend/alumni_connect/src/pages/alumni/WorkshopManager.jsx:141 | any other tab shows every workshop, in order |
| WorkshopManager.DraftsTabEmpty | frontend/alumni_connect/src/pages/alumni/WorkshopManager.jsx:136-139 | no workshop the page can hold is a draft, so 'drafts' is empty |
| WorkshopManager.DayText | frontend/alumni_connect/src/pages/alumni/WorkshopManager.jsx:70 | a day below 100 pads to two characters |
| WorkshopManager.DayDate | frontend/alumni_connect/src/pages/alumni/WorkshopManager.jsx:70 | '2025-11-' followed by the padded day |
| WorkshopManager.DayDateReadsBack | frontend/alumni_connect/src/pages/alumni/WorkshopManager.jsx:70 | for a calendar day the date is 10 characters and its last two digits read back as the day |
| WorkshopManager.MeetingCode | frontend/alumni_connect/src/pages/alumni/WorkshopManager.jsx:119 | 'WK-', the id piece, '-', then a four-digit number 1000..9999 |
| WorkshopManager.MeetingCodeOfCreated | frontend/alumni_connect/src/pages/alumni/WorkshopManager.jsx:119 | a created workshop 'WS-n' gets 'WK-n-' and the four digits |
| WorkshopManager.WorkshopPage.constructor | frontend/alumni_connect/src/pages/alumni/WorkshopManager.jsx:43-56 | the initial workshops, the 'upcoming' tab, the modal closed, the blank form |
| WorkshopManager.WorkshopPage.SelectTab | frontend/alumni_connect/src/pages/alumni/WorkshopManager.jsx:173 | only the tab changes |
| WorkshopManager.WorkshopPage.InputChange | frontend/alumni_connect/src/pages/alumni/WorkshopManager.jsx:76-79 | only the named form field changes |
| WorkshopManager.WorkshopPage.DayClick | frontend/alumni_connect/src/pages/alumni/WorkshopManager.jsx:68-73 | the form date becomes the day's date and the modal opens; nothing else changes |
| WorkshopManager.WorkshopPage.OpenCreate | frontend/alumni_connect/src/pages/alumni/WorkshopManager.jsx:149 | the form date becomes today and the modal opens |
| WorkshopManager.WorkshopPage.Create | frontend/alumni_connect/src/pages/alumni/WorkshopManager.jsx:82-109 | while the required title, date or time input (lines 261, 275, 286) is empty the form is not submitted and nothing changes; otherwise exactly one new workshop is appended, the others unchanged, the modal closes and the form is reset |
| WorkshopManager.WorkshopPage.Delete | frontend/alumni_connect/src/pages/alumni/WorkshopManager.jsx:112-116 | on confirmation every workshop with that id goes and nothing else; otherwise nothing changes |
| WorkshopManager.CreatedDayIsMarked | frontend/alumni_connect/src/pages/alumni/WorkshopManager.jsx:212-215 | a workshop created after clicking a day marks that day on the calendar |
| WorkshopCreator.AgendaItem.constructor | frontend/alumni_connect/src/pages/alumni/WorkshopCreator.jsx:28-29 | a new agenda object holds the given title, type and duration |
| WorkshopCreator.Minutes | frontend/alumni_connect/src/pages/alumni/WorkshopCreator.jsx:105 | an empty duration counts 0; any other is parseInt of it (NaN as none) |
| WorkshopCreator.Total | frontend/alumni_connect/src/pages/alumni/WorkshopCreator.jsx:105 | the sum is a number iff every term is a number |
| WorkshopCreator.TotalAppend | frontend/alumni_connect/src/pages/alumni/WorkshopCreator.jsx:105 | one more numeric term adds its value to a numeric sum |
| WorkshopCreator.JsRemainder | frontend/alumni_connect/src/pages/alumni/WorkshopCreator.jsx:107 | JavaScript `%`: in [0, b) for a non-negative dividend, in (-b, 0] for a negative one |
| WorkshopCreator.HoursAndMinutes | frontend/alumni_connect/src/pages/alumni/WorkshopCreator.jsx:106-107 | for a non-negative total, hours·60 + minutes = total with 0 ≤ minutes < 60 |
| WorkshopCreator.NegativeTotalDoesNotAddUp | frontend/alumni_connect/src/pages/alumni/WorkshopCreator.jsx:106-107 | a total of -5 shows as -1 h and -5 min, which do not add back up |
| WorkshopCreator.SpaceBeforeCapitals | frontend/alumni_connect/src/pages/alumni/WorkshopCreator.jsx:397 | the result is no shorter, starts with no capital, and keeps the last character |
| WorkshopCreator.JoinCapitalsInverts | frontend/alumni_connect/src/pages/alumni/WorkshopCreator.jsx:397 | the inserted spaces are exactly those before capitals: removing them gives the key back |
| WorkshopCreator.SettingLabel | frontend/alumni_connect/src/pages/alumni/WorkshopCreator.jsx:397 | for a key starting with a lower-case non-space and ending with a non-space, trimming removes nothing and the label is the spaced key |
| WorkshopCreator.Creator.constructor | frontend/alumni_connect/src/pages/alumni/WorkshopCreator.jsx:13-37 | the initial form: two agenda steps, level 'Beginner', no tags, every setting on |
| WorkshopCreator.Creator.AgendaChange | frontend/alumni_connect/src/pages/alumni/WorkshopCreator.jsx:65-69 | the same agenda objects are kept and only the given field of the item at that index changes, in place |
| WorkshopCreator.Creator.AddAgendaStep | frontend/alumni_connect/src/pages/alumni/WorkshopCreator.jsx:71-76 | a new untitled 30-minute lecture is appended; nothing else changes |
| WorkshopCreator.Creator.RemoveAgendaStep | frontend/alumni_connect/src/pages/alumni/WorkshopCreator.jsx:78-81 | only the item at that index goes; the rest keep their order |
| WorkshopCreator.Creator.TagKeyDown | frontend/alumni_connect/src/pages/alumni/WorkshopCreator.jsx:83-88 | Enter with text appends it (duplicates allowed) and clears the box; otherwise nothing changes |
| WorkshopCreator.Creator.RemoveTag | frontend/alumni_connect/src/pages/alumni/WorkshopCreator.jsx:90-92 | every equal tag goes; nothing else changes |
| WorkshopCreator.Creator.ApplyTemplate | frontend/alumni_connect/src/pages/alumni/WorkshopCreator.jsx:100-102 | title, level, tags and agenda take the template's values and nothing else changes |
| WorkshopCreator.Creator.ToggleSetting | frontend/alumni_connect/src/pages/alumni/WorkshopCreator.jsx:404 | only the clicked setting flips |
| WorkshopCreator.Creator.AiGenerate | frontend/alumni_connect/src/pages/alumni/WorkshopCreator.jsx:40-54 | without a title only the alert is raised. Otherwise the short description, description and tags are filled from the title and level. Title, level and agenda are unchanged |
| WorkshopCreator.NewStepThirtyMinutes | frontend/alumni_connect/src/pages/alumni/WorkshopCreator.jsx:74 | a new step's duration reads as 30 minutes |
| WorkshopCreator.AddStepAddsThirty | frontend/alumni_connect/src/pages/alumni/WorkshopCreator.jsx:105 | adding a step raises a numeric total by exactly 30 |
| LoginPage.ToggleChip | frontend/alumni_connect/src/pages/LoginPage.jsx:153-163 | the chip is in the result iff it was absent and the cap does not stop it. A present chip is removed with the others kept. An absent chip is appended, or refused at 5 when capped |
| LoginPage.ToggleTwiceRestores | frontend/alumni_connect/src/pages/LoginPage.jsx:153-163 | toggling an absent chip twice, with room, gives back the list |
| LoginPage.RemoveAllKeepsDistinct | frontend/alumni_connect/src/pages/LoginPage.jsx:157 | removing a value keeps a duplicate-free list duplicate-free |
| LoginPage.ToggleKeepsDistinct | frontend/alumni_connect/src/pages/LoginPage.jsx:153-163 | toggling never introduces a duplicate chip |
| LoginPage.ToggleRespectsCap | frontend/alumni_connect/src/pages/LoginPage.jsx:159 | a capped list of at most 5 never grows past 5 (the label says 3) |
| LoginPage.UncappedAlwaysAdds | frontend/alumni_connect/src/pages/LoginPage.jsx:279-288 | an uncapped list always takes an absent chip |
| LoginPage.StudentRegister.constructor | frontend/alumni_connect/src/pages/LoginPage.jsx:147-151 | both chip lists empty and no career goal |
| LoginPage.StudentRegister.ChipToggle | frontend/alumni_connect/src/pages/LoginPage.jsx:153-163 | interestedDomains toggles with the cap, currentSkills without it; the other fields are unchanged |
| LoginPage.StudentRegister.DropdownChange | frontend/alumni_connect/src/pages/LoginPage.jsx:165-167 | only the career goal changes |
| LoginPage.WithField | frontend/alumni_connect/src/pages/LoginPage.jsx:292 | only the named field of the milestone takes the value |
| LoginPage.CompleteMilestones | frontend/alumni_connect/src/pages/LoginPage.jsx:314 | exactly the milestones with title, year and description, and equals `filter` with that test (order and repeats kept) |
| LoginPage.CompleteMilestonesKeepsComplete | frontend/alumni_connect/src/pages/LoginPage.jsx:314 | a list of complete milestones passes whole |
| LoginPage.JourneyData | frontend/alumni_connect/src/pages/LoginPage.jsx:314-315 | null iff no milestone is complete; otherwise the complete ones |
| LoginPage.PreviewShowsCompleteMilestones | frontend/alumni_connect/src/pages/LoginPage.jsx:312-317 | the preview shows the complete milestones, or the sample journey when none is complete |
| LoginPage.LoginPageState.constructor | frontend/alumni_connect/src/pages/LoginPage.jsx:488-489 | the 'login' view with no journey data |
| LoginPage.LoginPageState.SetView | frontend/alumni_connect/src/pages/LoginPage.jsx:488 | only the view changes |
| LoginPage.AlumniRegister.constructor | frontend/alumni_connect/src/pages/LoginPage.jsx:274-277 | no skills and one blank 'Job' milestone |
| LoginPage.AlumniRegister.ChipToggle | frontend/alumni_connect/src/pages/LoginPage.jsx:279-288 | the skill toggles without a cap; milestones unchanged |
| LoginPage.AlumniRegister.MilestoneChange | frontend/alumni_connect/src/pages/LoginPage.jsx:290-295 | only the named field of the milestone at that index changes; an index out of range changes nothing |
| LoginPage.AlumniRegister.AddMilestone | frontend/alumni_connect/src/pages/LoginPage.jsx:297-302 | a blank 'Job' milestone is appended |
| LoginPage.AlumniRegister.RemoveMilestone | frontend/alumni_connect/src/pages/LoginPage.jsx:304-309 | only the milestone at that index goes |
| LoginPage.AlumniRegister.GraphGeneration | frontend/alumni_connect/src/pages/LoginPage.jsx:312-317 | the page's journey data becomes the complete milestones or null, and the view becomes 'journey-graph' |
| LoginPage.RenderView | frontend/alumni_connect/src/pages/LoginPage.jsx:491-505 | one card per known view with the journey data passed to the graph, and the login card for any other view |
| LoginPage.GraphGenerationRendersJourney | frontend/alumni_connect/src/pages/LoginPage.jsx:499-501 | after generation the page draws the journey of the entered data |
| JourneyGraph.DataToDisplay | frontend/alumni_connect/src/components/JourneyGraphModule.jsx:26 | never empty; a non-empty list is shown as given, else the sample journey |
| JourneyGraph.Render | frontend/alumni_connect/src/components/JourneyGraphModule.jsx:26-46 | the roadmap is drawn over the data to display |
| JourneyGraph.NoMilestonesUnreachable | frontend/alumni_connect/src/components/JourneyGraphModule.jsx:29-46 | the fallback makes the "No Milestones Entered!" panel unreachable |
| JourneyGraph.Width | frontend/alumni_connect/src/components/JourneyGraphModule.jsx:49-51 | the width reaches 100 past the last pin |
| JourneyGraph.PointAt | frontend/alumni_connect/src/components/JourneyGraphModule.jsx:56-62 | pins 250 apart from x = 100, at 230 for even and 160 for odd indexes |
| JourneyGraph.PointsAlternate | frontend/alumni_connect/src/components/JourneyGraphModule.jsx:56-62 | consecutive pins are 250 apart and alternate by 70 in height |
| JourneyGraph.SegmentAt | frontend/alumni_connect/src/components/JourneyGraphModule.jsx:70-81 | the first segment is a line to pin 0; each later one is a curve to its pin with controls 100 inside each end and a fifth of the rise from each end |
| JourneyGraph.CurveControls | frontend/alumni_connect/src/components/JourneyGraphModule.jsx:75-78 | control points lie strictly between the pins, 14 above or below the previous pin |
| JourneyGraph.SegmentText | frontend/alumni_connect/src/components/JourneyGraphModule.jsx:70-81 | the first segment is " L x y"; the others start with " C " |
| JourneyGraph.SegmentsStartWithLine | frontend/alumni_connect/src/components/JourneyGraphModule.jsx:66-71 | the segment text always starts with the first line segment |
| JourneyGraph.PathShape | frontend/alumni_connect/src/components/JourneyGraphModule.jsx:65-84 | the path moves to "M 0 200", lines to the first pin, and ends with a line to the right end of the centre line |
| JourneyGraph.BuildPath | frontend/alumni_connect/src/components/JourneyGraphModule.jsx:65-84 | the loop builds exactly the path text |
| JourneyGraph.PathGrowsBySegment | frontend/alumni_connect/src/components/JourneyGraphModule.jsx:65-84 | each pass of the loop appends exactly that pin's segment to the text so far |
| JourneyGraph.PathStartText | frontend/alumni_connect/src/components/JourneyGraphModule.jsx:65-84 | the move command reads "M 0 200" |
| JourneyGraph.CardTop | frontend/alumni_connect/src/components/JourneyGraphModule.jsx:134-140 | even cards sit 240 above their pin, odd cards 90 below |
| JourneyGraph.CardsAlternate | frontend/alumni_connect/src/components/JourneyGraphModule.jsx:134-140 | even cards lie above the centre line, odd ones below |
| JourneyGraph.CardNumber | frontend/alumni_connect/src/components/JourneyGraphModule.jsx:172 | cards are numbered from 1 |
| JourneyGraph.StyleOf | frontend/alumni_connect/src/components/JourneyGraphModule.jsx:132 | each of the four known types gets its own style, and any other type the default |
| JourneyGraph.SkillsText | frontend/alumni_connect/src/components/JourneyGraphModule.jsx:180 | never empty; non-empty skills are shown as they are |
| StableSort.Compare | frontend/alumni_connect/src/pages/student/StudentJourney.jsx:40 | the comparator orders by the numeric keys, and a NaN key compares equal |
| StableSort.InsertPos | frontend/alumni_connect/src/pages/student/StudentJourney.jsx:40 | the insertion point lies within the list |
| StableSort.InsertPosBounds | frontend/alumni_connect/src/pages/student/StudentJourney.jsx:40 | every entry after the insertion point compares greater; the one before it does not |
| StableSort.Insert | frontend/alumni_connect/src/pages/student/StudentJourney.jsx:40 | an insertion adds one element |
| StableSort.InsertPermutes | frontend/alumni_connect/src/pages/student/StudentJourney.jsx:40 | an insertion adds exactly that element |
| StableSort.SortBy | frontend/alumni_connect/src/pages/student/StudentJourney.jsx:40 | sorting keeps the length |
| StableSort.SortByPermutes | frontend/alumni_connect/src/pages/student/StudentJourney.jsx:40 | sorting is a permutation |
| StableSort.SortByIsSorted | frontend/alumni_connect/src/pages/student/StudentJourney.jsx:40 | when every key is a number, the sorted list is in non-decreasing key order |
| StableSort.InsertAfterEqualKeys | frontend/alumni_connect/src/pages/student/StudentJourney.jsx:40 | in a sorted list an element lands after all smaller or equal keys and before all greater ones |
| StableSort.InsertKeepsSorted | frontend/alumni_connect/src/pages/student/StudentJourney.jsx:40 | inserting a numeric key into a sorted list keeps it sorted |
| StableSort.SortSortedIsIdentity | frontend/alumni_connect/src/pages/student/StudentJourney.jsx:40 | sorting a sorted list changes nothing: equal keys keep their order |
| StableSort.SortAfterAppend | frontend/alumni_connect/src/pages/student/StudentJourney.jsx:40 | sorting a sorted list plus one element is inserting that element |
| StableSort.WithKeyOfGreater | frontend/alumni_connect/src/pages/student/StudentJourney.jsx:40 | a list whose keys all exceed a number holds no entry with that key |
| StableSort.KeyOrderAroundGreater | frontend/alumni_connect/src/pages/student/StudentJourney.jsx:40 | moving an element in front of entries with greater keys reorders no two entries with equal keys |
| StableSort.InsertKeepsKeyOrder | frontend/alumni_connect/src/pages/student/StudentJourney.jsx:40 | one insertion into a sorted list keeps the entries of each key in order, the new one last among its key |
| StableSort.SortByStable | frontend/alumni_connect/src/pages/student/StudentJourney.jsx:40 | when every key is a number, for each key the entries with that key come out in the order they went in |
| StudentJourney.InitialMilestonesSorted | frontend/alumni_connect/src/pages/student/StudentJourney.jsx:24-30 | the opening journey is sorted by parsed year |
| StudentJourney.ProjectCount | frontend/alumni_connect/src/pages/student/StudentJourney.jsx:183 | at most the number of milestones |
| StudentJourney.ProjectCountIsFilterLength | frontend/alumni_connect/src/pages/student/StudentJourney.jsx:183 | the count is the length of the milestones filtered to type "Project" |
| StudentJourney.ProjectCountAppend | frontend/alumni_connect/src/pages/student/StudentJourney.jsx:183 | the count adds up over concatenation |
| StudentJourney.ProjectCountSort | frontend/alumni_connect/src/pages/student/StudentJourney.jsx:40 | sorting never changes the project count |
| StudentJourney.AddedMilestone | frontend/alumni_connect/src/pages/student/StudentJourney.jsx:40 | re-sorting after an append raises the project count by one exactly for a project. A sorted list with a readable year gets the milestone inserted in place and stays sorted |
| StudentJourney.JourneyPage.constructor | frontend/alumni_connect/src/pages/student/StudentJourney.jsx:10-34 | the opening journey (sorted), skills and blank 'Project' draft |
| StudentJourney.JourneyPage.AddMilestone | frontend/alumni_connect/src/pages/student/StudentJourney.jsx:37-44 | without a year or title nothing changes. Otherwise the list is the old list plus the draft, sorted by parsed year; the modal closes and the draft is blank. A year-ordered list stays year-ordered when the new year parses. Skills are unchanged |
| StudentJourney.JourneyPage.AddSkill | frontend/alumni_connect/src/pages/student/StudentJourney.jsx:46-53 | non-blank text is appended trimmed and the input is cleared and closed; blank text changes nothing |
| StudentRequests.FilterByType | frontend/alumni_connect/src/pages/alumni/studentRequests.jsx:80-82 | 'All' shows everything; any other filter shows exactly the requests of that type |
| StudentRequests.OfType | frontend/alumni_connect/src/pages/alumni/studentRequests.jsx:82 | exactly the requests of that type |
| StudentRequests.OfTypeAppend | frontend/alumni_connect/src/pages/alumni/studentRequests.jsx:82 | the filter keeps order: it distributes over concatenation |
| StudentRequests.FilterIdempotent | frontend/alumni_connect/src/pages/alumni/studentRequests.jsx:80-82 | filtering twice by a type equals filtering once |
| StudentRequests.WithoutId | frontend/alumni_connect/src/pages/alumni/studentRequests.jsx:86 | exactly the requests with another id |
| StudentRequests.WithoutIdAppend | frontend/alumni_connect/src/pages/alumni/studentRequests.jsx:86 | removal keeps the others' order |
| StudentRequests.WithoutIdDropsOne | frontend/alumni_connect/src/pages/alumni/studentRequests.jsx:86 | with distinct ids, removing a listed id drops exactly one request |
| StudentRequests.WithoutIdAbsent | frontend/alumni_connect/src/pages/alumni/studentRequests.jsx:86 | removing an id nobody has changes nothing |
| StudentRequests.WithoutIdKeepsDistinct | frontend/alumni_connect/src/pages/alumni/studentRequests.jsx:86 | removal keeps ids distinct |
| StudentRequests.ActionAlert | frontend/alumni_connect/src/pages/alumni/studentRequests.jsx:89 | the alert starts with the action and ends with the id |
| StudentRequests.TypeIcon | frontend/alumni_connect/src/pages/alumni/studentRequests.jsx:92-100 | one icon per known type, the message icon exactly for other types |
| StudentRequests.TypeColor | frontend/alumni_connect/src/pages/alumni/studentRequests.jsx:102-110 | one colour per known type, grey exactly for other types |
| StudentRequests.DefaultsAgree | frontend/alumni_connect/src/pages/alumni/studentRequests.jsx:92-110 | a request gets the default icon exactly when it gets the default colour |
| StudentRequests.RequestsPage.constructor | frontend/alumni_connect/src/pages/alumni/studentRequests.jsx:76-77 | the initial requests with the 'All' filter |
| StudentRequests.RequestsPage.SetFilterType | frontend/alumni_connect/src/pages/alumni/studentRequests.jsx:127 | only the filter changes |
| StudentRequests.RequestsPage.HandleAction | frontend/alumni_connect/src/pages/alumni/studentRequests.jsx:85-90 | the request with that id goes (exactly one, with distinct ids), the others keep their order and the alert is raised |
| QuickProfile.WithSetting | frontend/alumni_connect/src/components/QuickProfileBuilder.jsx:166-180 | only the given switch takes the value |
| QuickProfile.FlipTwiceRestores | frontend/alumni_connect/src/components/QuickProfileBuilder.jsx:14 | flipping a switch twice restores it |
| QuickProfile.RemoveUndoesAppends | frontend/alumni_connect/src/components/QuickProfileBuilder.jsx:198 | removing a tag undoes every click that appended it |
| QuickProfile.ProfileBuilder.constructor | frontend/alumni_connect/src/components/QuickProfileBuilder.jsx:53-59 | panel 0, tags React and Design, an empty input, the initial privacy |
| QuickProfile.ProfileBuilder.SetActivePanel | frontend/alumni_connect/src/components/QuickProfileBuilder.jsx:105 | only the open panel changes |
| QuickProfile.ProfileBuilder.SetCurrTag | frontend/alumni_connect/src/components/QuickProfileBuilder.jsx:204 | only the input text changes |
| QuickProfile.ProfileBuilder.AddTag | frontend/alumni_connect/src/components/QuickProfileBuilder.jsx:62-68 | Enter with text appends it and clears the input; otherwise nothing changes |
| QuickProfile.ProfileBuilder.RemoveTag | frontend/alumni_connect/src/components/QuickProfileBuilder.jsx:198 | every equal tag goes |
| QuickProfile.ProfileBuilder.Suggest | frontend/alumni_connect/src/components/QuickProfileBuilder.jsx:213 | the suggestion is appended, even when present |
| QuickProfile.ProfileBuilder.TogglePrivacy | frontend/alumni_connect/src/components/QuickProfileBuilder.jsx:166-180 | only that switch flips |

## Left out

- I/O and side effects are not modelled: HTTP transport, Express routing and its 500 catch-alls beyond those named, console logging, Cloudinary uploads, and `alert`/`setTimeout` timing. The mock API's delays are left out, and each handler is modelled once its awaited call has settled.
- Tesseract recognition, JWT signing and verification, and bcrypt are opaque oracles. Signing, expiry and secrets are not modelled.
- Mongoose is modelled only as far as these rules need: required, enum, default, unique email, pre-save hook, `createdAt`, and ObjectId casting. Casting accepts only 24-hex ids, read in either case, and stored ids are their lower-case hex text. The 12-character byte strings that the ObjectId constructor also accepts are not modelled.
- UserModel.Collection.Insert: `createdAt` is a logical clock that goes up by one with every insert, not wall-clock milliseconds. Real stamps can tie, and `.sort({createdAt: -1})` leaves tied rows in an unspecified order. AdminRoutes.NewestFirstOrder's strict order, and the listing being exactly the reverse of insertion, therefore hold only under this clock.
- `updatedAt` is not modelled. It is the second half of `timestamps: true`, and the verify route's `save` rewrites it.
- Js.ToLower and Js.ToUpper map only the ASCII letters, and a string's length counts code points, where JavaScript's `.length` counts UTF-16 units. This is less than the source does in several members:
  - OcrService.CleanText: a name such as "Émile" fails to match the card text "émile" in the model but matches in the source.
  - UserController.CleanEmail and UseAuth.RoleCheckIgnoresCase ignore non-ASCII case.
  - StudentExplorer.FilterStudents ignores non-ASCII case in its search.
  - MockApi.VerifyStudentId: three characters outside the Basic Multilingual Plane have length 6 in the source and pass, but count 3 in the model and fail.
- DynamicAuth.AuthCard.Submit: of the browser's form validation, only `required` is modelled. The `type="email"` format check on the work-email input is not.
- A non-integer `Number(...)` is not modelled: `ToNumber` reads only optionally signed decimal integers. Fractional graduation years and prices are outside the model.
- `seats` in the workshop form is the text "50" rather than the number 50.
- The year radio buttons pass '1st' to '4th', so the `replace(' Year', '')` in the year test never changes them.
- The branch options "Computer Science (CSE)", "Electronics (ECE)" and "Mechanical" match no student, because only their first word is compared with the branch.
- The interested-domains label says "Select up to 3", while the code caps the list at 5. The model follows the code.
- StableSort.SortBy: a year that does not parse makes the comparator answer NaN, which the sort treats as "equal"; the result then depends on the engine's algorithm. The model uses one stable insertion sort.
- StudentJourney: the modal's draft-field edits are not modelled, only the draft that results.
- StudentRequests: each request's message, posting time and skill list are display-only and left out. Alerts are recorded as a sequence of texts.
- LoginPage: inputs other than the chips, the career goal and the milestones are uncontrolled in the source and are not modelled.
- QuickProfile: the panel icons, the progress value and `onComplete` are left out.
- JourneyGraph.StyleOf: a type that names an `Object.prototype` member (such as "toString") is treated as unknown.
- WorkshopCreator.Creator.AiGenerate: modelled after the 1.5-second delay has passed, as one step.
- WorkshopCreator: the image upload and the resources list are left out.
- WorkshopCreator.HoursAndMinutes: a negative total (a negative duration typed in) does not add back up. This is shown, not corrected.
- Hook and component rendering (JSX), CSS classes other than the colour and style mappings, and routing outside `renderView` are not modelled.

=== FILE: admin_routes.dfy ===
/**
 * The admin router: every route runs `protect` and then `restrictTo("admin")`,
 * and then lists, deletes or verifies users in the collection.
 */
module AdminRoutes {
  import opened Js
  import opened UserModel
  import opened Http
  import opened AuthMiddleware

  const AdminOnly: seq<string> := ["admin"]
  const ServerError: string := "Server error."

  // ---------------------------------------------------------------- the gate

  /** The answer of the router-level middleware chain, or None when the route runs. */
  function GateDecision(header: Option<string>, rows: seq<User>, verify: string -> Option<Claims>): (rejection: Option<Reply>)
    ensures rejection.None? <==>
      Authenticate(header, rows, verify).Authenticated? && Authenticate(header, rows, verify).user.role == "admin"
    ensures rejection.Some? ==> rejection.value.status == 401 || rejection.value.status == 403
  {
    match Authenticate(header, rows, verify)
    case Unauthenticated(message) => Some(Reply(401, Message(message)))
    case Authenticated(user) => RestrictTo(AdminOnly, Some(user))
  }

  /**
   * With unique ids, the admin routes run exactly for a bearer token that
   * verifies to the id, in either case, of a stored user whose role is "admin".
   */
  lemma GateOpensForStoredAdmins(header: Option<string>, rows: seq<User>, clock: nat, verify: string -> Option<Claims>)
    requires WellFormed(rows, clock)
    ensures GateDecision(header, rows, verify).None? <==>
      Truthy(ExtractBearer(header)) && verify(ExtractBearer(header).value).Some?
      && exists u :: u in rows && u.id == ToLower(verify(ExtractBearer(header).value).value.id) && u.role == "admin"
  {
    var token := ExtractBearer(header);
    if Truthy(token) && verify(token.value).Some? {
      var id := verify(token.value).value.id;
      if exists u :: u in rows && u.id == ToLower(id) && u.role == "admin" {
        var u :| u in rows && u.id == ToLower(id) && u.role == "admin";
        var i :| 0 <= i < |rows| && rows[i] == u;
        FindByIdIgnoresCase(rows, clock, i, id);
      }
    }
  }

  /**
   * The role that opens the admin routes is the one stored for the token's id:
   * the role written into the token is not consulted.
   */
  lemma TokenRoleIgnored(header: Option<string>, rows: seq<User>, verify1: string -> Option<Claims>,
                         verify2: string -> Option<Claims>)
    requires Truthy(ExtractBearer(header))
    requires verify1(ExtractBearer(header).value).Some? && verify2(ExtractBearer(header).value).Some?
    requires verify1(ExtractBearer(header).value).value.id == verify2(ExtractBearer(header).value).value.id
    ensures GateDecision(header, rows, verify1) == GateDecision(header, rows, verify2)
  {
  }

  /** `router.use(protect, restrictTo("admin"))`. */
  method Gate(req: Request, rows: seq<User>, verify: string -> Option<Claims>) returns (rejection: Option<Reply>)
    modifies req
    ensures rejection == GateDecision(req.authorization, rows, verify)
    ensures match Authenticate(req.authorization, rows, verify)
      case Authenticated(user) => req.user == Some(user) && req.nextCalls == old(req.nextCalls) + (if user.role == "admin" then 2 else 1)
      case Unauthenticated(_) => req.user == old(req.user) && req.nextCalls == old(req.nextCalls)
  {
    rejection := Protect(req, rows, verify);
    if rejection.Some? {
      return;
    }
    rejection := RestrictTo(AdminOnly, req.user);
    if rejection.None? {
      req.nextCalls := req.nextCalls + 1;
    }
  }

  // ---------------------------------------------------------------- list

  /** `User.find().select("-password").sort({ createdAt: -1 })` over rows kept in creation order. */
  function NewestFirst(rows: seq<User>): (r: seq<Profile>)
    ensures |r| == |rows|
    ensures forall i :: 0 <= i < |r| ==> r[i] == WithoutPassword(rows[|rows| - 1 - i])
  {
    if rows == [] then [] else [WithoutPassword(rows[|rows| - 1])] + NewestFirst(rows[..|rows| - 1])
  }

  /** In a well-formed table the listing is ordered by strictly decreasing `createdAt` and holds every user. */
  lemma NewestFirstOrder(rows: seq<User>, clock: nat)
    requires WellFormed(rows, clock)
    ensures forall i, j :: 0 <= i < j < |rows| ==> NewestFirst(rows)[i].createdAt > NewestFirst(rows)[j].createdAt
    ensures forall u :: u in rows ==> WithoutPassword(u) in NewestFirst(rows)
  {
    var r := NewestFirst(rows);
    forall u | u in rows ensures WithoutPassword(u) in r {
      var k :| 0 <= k < |rows| && rows[k] == u;
      assert r[|rows| - 1 - k] == WithoutPassword(u);
    }
  }

  /** `GET /users`: the count and the listing. */
  method ListUsers(req: Request, db: Collection, verify: string -> Option<Claims>) returns (reply: Reply)
    modifies req
    ensures var gate := GateDecision(req.authorization, db.rows, verify);
      (gate.Some? ==> reply == gate.value)
      && (gate.None? ==> reply == Reply(200, UserList(|db.rows|, NewestFirst(db.rows))))
  {
    var rejection := Gate(req, db.rows, verify);
    if rejection.Some? {
      return rejection.value;
    }
    var users := NewestFirst(db.rows);
    reply := Reply(200, UserList(|users|, users));
  }

  // ---------------------------------------------------------------- delete

  /**
   * `DELETE /users/:id`: "User deleted." whether or not the id was stored; the
   * row whose id is the request's id in any case goes.
   */
  method DeleteUser(req: Request, db: Collection, verify: string -> Option<Claims>, id: string) returns (reply: Reply)
    requires db.Valid()
    modifies req, db
    ensures db.Valid()
    ensures var gate := GateDecision(req.authorization, old(db.rows), verify);
      (gate.Some? ==> reply == gate.value && db.rows == old(db.rows))
      && (gate.None? && !IsObjectId(id) ==> reply == Reply(500, Message(ServerError)) && db.rows == old(db.rows))
      && (gate.None? && IsObjectId(id) ==> reply == Reply(200, Message("User deleted.")) && db.rows == RemoveId(old(db.rows), ToLower(id)))
  {
    var rejection := Gate(req, db.rows, verify);
    if rejection.Some? {
      return rejection.value;
    }
    var deleted := db.DeleteById(id);
    if deleted.Thrown? {
      return Reply(500, Message(ServerError));
    }
    reply := Reply(200, Message("User deleted."));
  }

  /** Deleting removes the one row with that id and keeps every other row, in order. */
  lemma RemoveIdKeepsOthers(rows: seq<User>, clock: nat, id: string)
    requires WellFormed(rows, clock)
    ensures WellFormed(RemoveId(rows, id), clock)
    ensures forall u :: u in RemoveId(rows, id) <==> u in rows && u.id != id
    ensures |RemoveId(rows, id)| == |rows| - (if exists i :: 0 <= i < |rows| && rows[i].id == id then 1 else 0)
  {
    match IndexOfId(rows, id)
    case None =>
    case Some(k) => RemoveAtKeeps(rows, clock, k);
  }

  // ---------------------------------------------------------------- verify

  /** The table after the row with this id is marked verified. */
  function SetVerified(rows: seq<User>, id: string): (r: seq<User>)
    ensures |r| == |rows|
    ensures forall i :: 0 <= i < |rows| ==> r[i] == if rows[i].id == id && IndexOfId(rows, id) == Some(i)
                                                   then rows[i].(isVerified := true) else rows[i]
  {
    match IndexOfId(rows, id)
    case None => rows
    case Some(k) => rows[k := rows[k].(isVerified := true)]
  }

  /** Verifying twice is the same as verifying once. */
  lemma SetVerifiedIdempotent(rows: seq<User>, id: string)
    ensures SetVerified(SetVerified(rows, id), id) == SetVerified(rows, id)
  {
    IndexOfIdSameIds(SetVerified(rows, id), rows, id);
  }

  /** Marking a row verified keeps the table well formed. */
  lemma SetVerifiedKeeps(rows: seq<User>, clock: nat, id: string)
    requires WellFormed(rows, clock)
    ensures WellFormed(SetVerified(rows, id), clock)
  {
  }

  /**
   * `POST /verify/:id`: an id that cannot be cast answers 500, an id held by no
   * row (in either case) 404
   * with nothing changed; otherwise only `isVerified` of that user becomes true
   * (the stored hash is kept) and the answer carries its id, email and role.
   */
  method VerifyUser(req: Request, db: Collection, verify: string -> Option<Claims>, hash: string -> string, id: string)
    returns (reply: Reply)
    requires db.Valid()
    modifies req, db
    ensures db.Valid()
    ensures var gate := GateDecision(req.authorization, old(db.rows), verify);
      (gate.Some? ==> reply == gate.value && db.rows == old(db.rows))
      && (gate.None? && !IsObjectId(id) ==> reply == Reply(500, Message(ServerError)) && db.rows == old(db.rows))
      && ((gate.None? && IsObjectId(id) && IndexOfId(old(db.rows), ToLower(id)).None?)
            ==> reply == Reply(404, Message("User not found.")) && db.rows == old(db.rows))
      && ((gate.None? && IsObjectId(id) && IndexOfId(old(db.rows), ToLower(id)).Some?)
            ==> var u := old(db.rows)[IndexOfId(old(db.rows), ToLower(id)).value];
                reply == Reply(200, VerifiedUser("User verified.", u.id, u.email, u.role))
                && db.rows == SetVerified(old(db.rows), ToLower(id)))
  {
    var rejection := Gate(req, db.rows, verify);
    if rejection.Some? {
      return rejection.value;
    }
    var found := FindById(db.rows, id);
    if found.Thrown? {
      return Reply(500, Message(ServerError));
    }
    if found.value.None? {
      return Reply(404, Message("User not found."));
    }
    var k := IndexOfId(db.rows, ToLower(id)).value;
    var doc := new UserDocument.Load(db.rows[k]);
    doc.MarkVerified();
    db.Save(doc, k, hash);
    reply := Reply(200, VerifiedUser("User verified.", doc.row.id, doc.row.email, doc.row.role));
  }
}

=== FILE: auth_middleware.dfy ===
/**
 * `protect` and `restrictTo`: the bearer-token guard that loads the caller into
 * `req.user`, and the role gate that runs after it.
 */
module AuthMiddleware {
  import opened Js
  import opened UserModel
  import opened Http
  import opened UserController

  const AuthenticationRequired: string := "Authentication required."
  const AuthenticationFailed: string := "Authentication failed."
  const Forbidden: string := "Forbidden. Access denied."

  /**
   * The token of an `Authorization` header: only a header that starts with the
   * exact text "Bearer " yields one, and it is the second space-separated
   * piece (which is empty when a second space follows "Bearer").
   */
  function ExtractBearer(header: Option<string>): (token: Option<string>)
    ensures token.Some? ==> header.Some? && StartsWith(header.value, "Bearer ")
    ensures token.Some? ==> ' ' !in token.value
  {
    if Truthy(header) && StartsWith(header.value, "Bearer ") then Piece(header.value, ' ', 1) else None
  }

  /** "Bearer " followed by a token without spaces gives back that token. */
  lemma BearerRoundTrip(token: string)
    requires ' ' !in token
    ensures ExtractBearer(Some("Bearer " + token)) == Some(token)
  {
    var h := "Bearer " + token;
    assert h == "Bearer" + [' '] + token;
    SplitFirst("Bearer", ' ', token);
    SplitWithoutSep(token, ' ');
    assert StartsWith(h, "Bearer ") by { assert h[..7] == "Bearer "; }
  }

  /** The scheme name is matched case-sensitively: any other first letter gives no token. */
  lemma SchemeIsCaseSensitive(header: string)
    requires header != [] && header[0] != 'B'
    ensures ExtractBearer(Some(header)).None?
  {
  }

  /** What `protect` decides: the caller without the password, or the 401 message. */
  datatype AuthOutcome = Authenticated(user: Profile) | Unauthenticated(message: string)

  /**
   * The decision `protect` makes for a header: no token is "Authentication
   * required."; a token that does not verify, an id that cannot be cast or an id
   * with no user is "Authentication failed."; otherwise the stored user whose id
   * is the token's id, read in either case.
   */
  function Authenticate(header: Option<string>, rows: seq<User>, verify: string -> Option<Claims>): (r: AuthOutcome)
    ensures !Truthy(ExtractBearer(header)) ==> r == Unauthenticated(AuthenticationRequired)
    ensures Truthy(ExtractBearer(header)) && verify(ExtractBearer(header).value).None?
      ==> r == Unauthenticated(AuthenticationFailed)
    ensures r.Authenticated? <==>
      Truthy(ExtractBearer(header)) && verify(ExtractBearer(header).value).Some?
      && IsObjectId(verify(ExtractBearer(header).value).value.id)
      && exists i :: 0 <= i < |rows| && rows[i].id == ToLower(verify(ExtractBearer(header).value).value.id)
    ensures r.Authenticated? ==>
      exists u :: u in rows && u.id == ToLower(verify(ExtractBearer(header).value).value.id) && r.user == WithoutPassword(u)
    ensures r.Unauthenticated? ==> r.message in {AuthenticationRequired, AuthenticationFailed}
  {
    var token := ExtractBearer(header);
    if !Truthy(token) then Unauthenticated(AuthenticationRequired)
    else match verify(token.value)
      case None => Unauthenticated(AuthenticationFailed)
      case Some(decoded) =>
        match FindById(rows, decoded.id)
        case Thrown(_) => Unauthenticated(AuthenticationFailed)
        case Ok(None) => Unauthenticated(AuthenticationFailed)
        case Ok(Some(u)) => Authenticated(WithoutPassword(u))
  }

  /**
   * A token issued at register or login, presented as "Bearer <token>",
   * authenticates its user for as long as the user is stored.
   */
  lemma IssuedTokenAuthenticates(tokens: Tokens, rows: seq<User>, clock: nat, u: User)
    requires SignVerifyAgree(tokens) && WellFormed(rows, clock) && u in rows
    requires GenerateToken(tokens.sign, u).Some?
    ensures Authenticate(Some("Bearer " + GenerateToken(tokens.sign, u).value), rows, tokens.verify)
      == Authenticated(WithoutPassword(u))
  {
    var t := GenerateToken(tokens.sign, u).value;
    var req := SignRequest(Claims(u.id, u.role), TokenLifetime);
    assert tokens.sign(req).Some?;
    BearerRoundTrip(t);
    var i :| 0 <= i < |rows| && rows[i] == u;
    ToLowerOfLower(u.id);
    FindByIdIgnoresCase(rows, clock, i, u.id);
  }

  /** An Express request as the middleware sees it. */
  class Request {
    const authorization: Option<string>
    var user: Option<Profile>
    var nextCalls: nat

    constructor (authorization: Option<string>)
      ensures this.authorization == authorization && user.None? && nextCalls == 0
    {
      this.authorization := authorization;
      user := None;
      nextCalls := 0;
    }
  }

  /**
   * `protect(req, res, next)`: on success `req.user` is the stored user without
   * the password and `next` is called once; otherwise a 401 is answered and the
   * request is left as it was.
   */
  method Protect(req: Request, rows: seq<User>, verify: string -> Option<Claims>) returns (rejection: Option<Reply>)
    modifies req
    ensures match Authenticate(req.authorization, rows, verify)
      case Authenticated(user) =>
        rejection.None? && req.user == Some(user) && req.nextCalls == old(req.nextCalls) + 1
      case Unauthenticated(message) =>
        rejection == Some(Reply(401, Message(message))) && req.user == old(req.user) && req.nextCalls == old(req.nextCalls)
  {
    var token := ExtractBearer(req.authorization);
    if !Truthy(token) {
      return Some(Reply(401, Message(AuthenticationRequired)));
    }
    var decoded := verify(token.value);
    if decoded.None? {
      return Some(Reply(401, Message(AuthenticationFailed)));
    }
    var found := FindById(rows, decoded.value.id);
    if found.Thrown? || found.value.None? {
      return Some(Reply(401, Message(AuthenticationFailed)));
    }
    req.user := Some(WithoutPassword(found.value.value));
    req.nextCalls := req.nextCalls + 1;
    rejection := None;
  }

  /**
   * `restrictTo(...roles)`: no `req.user` is a 401, a role outside the list a
   * 403, and otherwise the request goes on (None).
   */
  function RestrictTo(roles: seq<string>, user: Option<Profile>): (rejection: Option<Reply>)
    ensures rejection.None? <==> user.Some? && user.value.role in roles
    ensures user.None? ==> rejection == Some(Reply(401, Message(AuthenticationRequired)))
    ensures user.Some? && user.value.role !in roles ==> rejection == Some(Reply(403, Message(Forbidden)))
  {
    if user.None? then Some(Reply(401, Message(AuthenticationRequired)))
    else if user.value.role !in roles then Some(Reply(403, Message(Forbidden)))
    else None
  }
}

=== FILE: auth_service.dfy ===
/**
 * `registerUser`'s multipart body: each present field of the user data in key
 * order (arrays and objects as JSON text, scalars as their text), then the
 * lower-cased role, then the ID-card image under the field the role selects.
 * The POST itself is not part of this model.
 */
module AuthService {
  import opened Js

  /** A JavaScript value as it can appear in the user data. */
  datatype JsValue =
    | Undefined
    | Null
    | Bool(b: bool)
    | Num(n: int)
    | Str(s: string)
    | Arr(items: seq<JsValue>)
    | Obj(members: seq<(string, JsValue)>)

  /** An uploaded file, known only by its identity. */
  type FileRef = string

  /** One part of a multipart body: text or a file. */
  datatype Entry = Text(text: string) | Blob(file: FileRef)

  /** `value === null || value === undefined`. */
  predicate Missing(v: JsValue) {
    v.Undefined? || v.Null?
  }

  function HexDigit(d: nat): (c: char)
    requires d < 16
  {
    if d < 10 then DigitChar(d) else ('a' as int + d - 10) as char
  }

  /** The escape `JSON.stringify` writes for one character of a string. */
  function EscapeChar(c: char): (e: string)
    ensures e != []
    ensures e[0] == '\\' || e == [c]
  {
    if c == '"' then "\\\""
    else if c == '\\' then "\\\\"
    else if c == '\n' then "\\n"
    else if c == '\r' then "\\r"
    else if c == '\t' then "\\t"
    else if c == '\U{0008}' then "\\b"
    else if c == '\U{000C}' then "\\f"
    else if (c as int) < 0x20 then "\\u00" + [HexDigit(c as int / 16), HexDigit(c as int % 16)]
    else [c]
  }

  /** A string literal in JSON: quoted, with every character escaped as needed. */
  function Quote(s: string): (q: string)
    ensures |q| >= 2 && q[0] == '"' && q[|q| - 1] == '"'
  {
    "\"" + Escaped(s) + "\""
  }

  function Escaped(s: string): string {
    if s == [] then [] else EscapeChar(s[0]) + Escaped(s[1..])
  }

  /** Object members whose value is undefined are left out of the JSON text. */
  function Defined(members: seq<(string, JsValue)>): (r: seq<(string, JsValue)>)
    ensures forall k :: 0 <= k < |r| ==> !r[k].1.Undefined? && r[k] in members
    ensures r == Filter((m: (string, JsValue)) => !m.1.Undefined?, members)
  {
    if members == [] then []
    else if members[0].1.Undefined? then Defined(members[1..])
    else [members[0]] + Defined(members[1..])
  }

  /** The parts separated by commas; no parts give the empty text. */
  function Commas(parts: seq<string>): string {
    if parts == [] then "" else Join(parts, ',')
  }

  /**
   * `JSON.stringify(v)`; undefined inside an array becomes `null`. The first
   * character tells the kind of value: `[` an array, `{` an object, `"` a string.
   */
  function Stringify(v: JsValue): (r: string)
    ensures r != []
    ensures v.Undefined? || v.Null? ==> r == "null"
    ensures v.Bool? ==> r == (if v.b then "true" else "false")
    ensures v.Num? ==> r == IntToString(v.n)
    ensures v.Str? ==> r == Quote(v.s)
    ensures r[0] == '[' <==> v.Arr?
    ensures r[0] == '{' <==> v.Obj?
    ensures r[0] == '"' <==> v.Str?
    ensures v.Arr? ==> r[|r| - 1] == ']'
    ensures v.Obj? ==> r[|r| - 1] == '}'
    decreases v
  {
    match v
    case Undefined => "null"
    case Null => "null"
    case Bool(b) => if b then "true" else "false"
    case Num(n) => IntToString(n)
    case Str(s) => Quote(s)
    case Arr(items) =>
      "[" + Commas(seq(|items|, i requires 0 <= i < |items| => Stringify(items[i]))) + "]"
    case Obj(members) =>
      var kept := Defined(members);
      "{" + Commas(seq(|kept|, i requires 0 <= i < |kept| => Member(kept[i].0, kept[i].1, v))) + "}"
  }

  /** `"key":value` inside an object. */
  function Member(key: string, value: JsValue, whole: JsValue): string
    requires whole.Obj? && (key, value) in whole.members
    decreases whole, 0
  {
    assert value < whole by {
      var k :| 0 <= k < |whole.members| && whole.members[k] == (key, value);
    }
    Quote(key) + ":" + Stringify(value)
  }

  /** What `formData.append(key, value)` stores for a present value. */
  function FieldText(v: JsValue): (text: string)
    requires !Missing(v)
    ensures v.Arr? || v.Obj? ==> text == Stringify(v)
    ensures v.Str? ==> text == v.s
    ensures v.Num? ==> text == IntToString(v.n)
    ensures v.Bool? ==> text == (if v.b then "true" else "false")
  {
    match v
    case Arr(_) => Stringify(v)
    case Obj(_) => Stringify(v)
    case Str(s) => s
    case Num(n) => IntToString(n)
    case Bool(b) => if b then "true" else "false"
  }

  /** The entries the field loop appends for the given fields, in order. */
  function SerialisedFields(userData: seq<(string, JsValue)>): (entries: seq<(string, Entry)>)
    ensures |entries| <= |userData|
  {
    if userData == [] then []
    else
      var (key, value) := userData[0];
      (if Missing(value) then [] else [(key, Text(FieldText(value)))]) + SerialisedFields(userData[1..])
  }

  /** One more field adds at most its own entry at the end. */
  lemma {:induction false} SerialisedFieldsAppend(userData: seq<(string, JsValue)>, key: string, value: JsValue)
    ensures SerialisedFields(userData + [(key, value)])
      == SerialisedFields(userData) + (if Missing(value) then [] else [(key, Text(FieldText(value)))])
  {
    if userData == [] {
      assert [(key, value)][1..] == [];
    } else {
      assert (userData + [(key, value)])[1..] == userData[1..] + [(key, value)];
      SerialisedFieldsAppend(userData[1..], key, value);
    }
  }

  /** Every present field is serialised, and every entry comes from a present field. */
  lemma {:induction false} SerialisedFieldsMembers(userData: seq<(string, JsValue)>)
    ensures forall i :: 0 <= i < |userData| && !Missing(userData[i].1) ==>
      (userData[i].0, Text(FieldText(userData[i].1))) in SerialisedFields(userData)
    ensures forall e :: e in SerialisedFields(userData) ==>
      exists i :: 0 <= i < |userData| && !Missing(userData[i].1) && e == (userData[i].0, Text(FieldText(userData[i].1)))
  {
    if userData != [] {
      SerialisedFieldsMembers(userData[1..]);
      var rest := SerialisedFields(userData[1..]);
      forall e | e in SerialisedFields(userData)
        ensures exists i :: 0 <= i < |userData| && !Missing(userData[i].1) && e == (userData[i].0, Text(FieldText(userData[i].1)))
      {
        if e in rest {
          var i :| 0 <= i < |userData[1..]| && !Missing(userData[1..][i].1) && e == (userData[1..][i].0, Text(FieldText(userData[1..][i].1)));
          assert userData[1..][i] == userData[i + 1];
        }
      }
      forall i | 0 <= i < |userData| && !Missing(userData[i].1)
        ensures (userData[i].0, Text(FieldText(userData[i].1))) in SerialisedFields(userData)
      {
        if i > 0 { assert userData[1..][i - 1] == userData[i]; }
      }
    }
  }

  /** The file part: under `studentIdCardImage` for "Student", `idCardImage` for "Alumni", otherwise none. */
  function FileEntries(role: string, file: Option<FileRef>): (entries: seq<(string, Entry)>)
    ensures |entries| <= 1
    ensures entries != [] ==> file.Some? && entries[0].1 == Blob(file.value)
    ensures entries != [] <==> file.Some? && (role == "Student" || role == "Alumni")
  {
    if file.None? then []
    else if role == "Student" then [("studentIdCardImage", Blob(file.value))]
    else if role == "Alumni" then [("idCardImage", Blob(file.value))]
    else []
  }

  /** The file is looked up by the role's exact spelling: a lower-case role drops it. */
  lemma LowerCaseRoleDropsFile(file: Option<FileRef>)
    ensures FileEntries("student", file) == [] && FileEntries("alumni", file) == []
  {
  }

  /** The body being built. */
  class FormData {
    var entries: seq<(string, Entry)>

    constructor ()
      ensures entries == []
    {
      entries := [];
    }

    method Append(name: string, value: Entry)
      modifies this
      ensures entries == old(entries) + [(name, value)]
    {
      entries := entries + [(name, value)];
    }
  }

  /** The body `registerUser(userData, role, file)` posts. */
  method RegisterForm(userData: seq<(string, JsValue)>, role: string, file: Option<FileRef>) returns (form: FormData)
    ensures fresh(form)
    ensures form.entries == SerialisedFields(userData) + [("role", Text(ToLower(role)))] + FileEntries(role, file)
  {
    form := new FormData();
    for i := 0 to |userData|
      invariant form.entries == SerialisedFields(userData[..i])
    {
      var (key, value) := userData[i];
      SerialisedFieldsAppend(userData[..i], key, value);
      assert userData[..i + 1] == userData[..i] + [(key, value)];
      if !Missing(value) {
        form.Append(key, Text(FieldText(value)));
      }
    }
    assert userData[..|userData|] == userData;
    form.Append("role", Text(ToLower(role)));
    if file.Some? {
      if role == "Student" {
        form.Append("studentIdCardImage", Blob(file.value));
      } else if role == "Alumni" {
        form.Append("idCardImage", Blob(file.value));
      }
    }
  }
}

=== FILE: dynamic_auth.dfy ===
/**
 * The `DynamicAuth` card: a "check" view that looks the identifier up and runs
 * the role's eligibility check, and a "password" view that logs in. Each
 * handler runs to completion against the mock service; `onSuccess` calls are
 * recorded in order, and every change of `loading` is recorded too.
 */
module DynamicAuth {
  import opened Js
  import MockApi

  const AccountFound: string := "Account found! Please enter your password to login."
  const VerificationFailed: string := "Verification failed."
  const InvalidCredentials: string := "Invalid credentials."

  /** The view a mode starts in: "password" for "login", "check" for anything else. */
  function InitialView(initialMode: string): (view: string)
    ensures view == "password" <==> initialMode == "login"
    ensures view == "check" <==> initialMode != "login"
  {
    if initialMode == "login" then "password" else "check"
  }

  /** The identifier a role is checked by; a role the card does not know has none. */
  function Identifier(role: string, email: string, studentId: string, instituteId: string): (identifier: string)
    ensures role == "student" ==> identifier == studentId
    ensures role == "alumni" ==> identifier == email
    ensures role == "institute" ==> identifier == instituteId
    ensures role !in {"student", "alumni", "institute"} ==> identifier == ""
  {
    if role == "student" then studentId
    else if role == "alumni" then email
    else if role == "institute" then instituteId
    else ""
  }

  /**
   * The role's eligibility check for a new identifier: each role passes exactly
   * when its own service check passes, other roles have none, and a refusal
   * always carries a message.
   */
  function Eligibility(role: string, email: string, studentId: string, instituteId: string, accessKey: string): (r: Result<()>)
    ensures role == "alumni" ==> (r.Ok? <==> MockApi.VerifyDomain(email).Ok?)
    ensures role == "student" ==> (r.Ok? <==> MockApi.VerifyStudentId(studentId).Ok?)
    ensures role == "institute" ==> (r.Ok? <==> MockApi.VerifyInstituteCredentials(instituteId, accessKey).Ok?)
    ensures role !in {"student", "alumni", "institute"} ==> r.Ok?
    ensures r.Thrown? ==> r.message != ""
  {
    if role == "alumni" then
      match MockApi.VerifyDomain(email)
      case Thrown(m) => Thrown(m)
      case Ok(_) => Ok(())
    else if role == "student" then
      match MockApi.VerifyStudentId(studentId)
      case Thrown(m) => Thrown(m)
      case Ok(_) => Ok(())
    else if role == "institute" then MockApi.VerifyInstituteCredentials(instituteId, accessKey)
    else Ok(())
  }

  /** `err.message || "Verification failed."`. */
  function ErrorText(message: string): (text: string)
  {
    if message != "" then message else VerificationFailed
  }

  /** The shown error is never blank, and a message that is not blank is shown as it is. */
  lemma ErrorTextShown(message: string)
    ensures ErrorText(message) != ""
    ensures message != "" ==> ErrorText(message) == message
  {
  }

  /** What the identity check concludes. */
  datatype Outcome = AccountExists | NewAccount | Refused(message: string)

  /**
   * The identity check's conclusion: the account exists exactly when the
   * identifier is known, and a new identifier is accepted exactly when its
   * eligibility test passes, else refused with that test's message.
   */
  function IdentityOutcome(role: string, email: string, studentId: string, instituteId: string, accessKey: string): (r: Outcome)
    ensures var known := MockApi.CheckUserExists(Identifier(role, email, studentId, instituteId));
      var check := Eligibility(role, email, studentId, instituteId, accessKey);
      && (r.AccountExists? <==> known)
      && (r.NewAccount? <==> !known && check.Ok?)
      && (r.Refused? <==> !known && check.Thrown?)
      && (r.Refused? ==> r.message == check.message)
  {
    if MockApi.CheckUserExists(Identifier(role, email, studentId, instituteId)) then AccountExists
    else match Eligibility(role, email, studentId, instituteId, accessKey)
      case Thrown(m) => Refused(m)
      case Ok(_) => NewAccount
  }

  /**
   * A role the card does not know is never checked: its empty identifier is not
   * an existing user and it has no eligibility test, so it always passes.
   */
  lemma UnknownRolePassesCheck(role: string, email: string, studentId: string, instituteId: string, accessKey: string)
    requires role !in {"student", "alumni", "institute"}
    ensures !MockApi.CheckUserExists(Identifier(role, email, studentId, instituteId))
    ensures Eligibility(role, email, studentId, instituteId, accessKey).Ok?
  {
  }

  /** An institute id typed in lower case is stored upper-cased, so the listed "NITD-001" is found. */
  lemma LowerCaseInstituteIdFound()
    ensures ToUpper("nitd-001") == "NITD-001"
    ensures IdentityOutcome("institute", "", "", ToUpper("nitd-001"), "").AccountExists?
  {
    assert ToUpper("nitd-001") == "NITD-001";
  }

  class AuthCard {
    var role: string
    var initialMode: string
    var view: string
    var loading: bool
    var infoMsg: Option<string>
    var error: Option<string>
    var password: string
    var email: string
    var studentId: string
    var instituteId: string
    var accessKey: string
    /** The arguments (`isNewUser`) of every `onSuccess` call so far. */
    var successes: seq<bool>
    /** Every value `loading` has been set to, in order. */
    ghost var loadingHistory: seq<bool>

    constructor (role: string, initialMode: string)
      ensures this.role == role && this.initialMode == initialMode
      ensures view == InitialView(initialMode) && !loading && infoMsg.None? && error.None?
      ensures password == "" && email == "" && studentId == "" && instituteId == "" && accessKey == ""
      ensures successes == [] && loadingHistory == []
    {
      this.role := role;
      this.initialMode := initialMode;
      view := InitialView(initialMode);
      loading := false;
      infoMsg := None;
      error := None;
      password, email, studentId, instituteId, accessKey := "", "", "", "", "";
      successes := [];
      loadingHistory := [];
    }

    /** The effect on `[role, initialMode]`: a new role or mode resets the view and clears both messages. */
    method PropsChanged(newRole: string, newMode: string)
      requires newRole != role || newMode != initialMode
      modifies this
      ensures role == newRole && initialMode == newMode
      ensures view == InitialView(newMode) && error.None? && infoMsg.None?
      ensures loading == old(loading) && successes == old(successes) && loadingHistory == old(loadingHistory)
      ensures password == old(password) && email == old(email) && studentId == old(studentId)
      ensures instituteId == old(instituteId) && accessKey == old(accessKey)
    {
      role, initialMode := newRole, newMode;
      view := InitialView(newMode);
      error := None;
      infoMsg := None;
    }

    /** The identity inputs are disabled once a signup card has moved on to the password. */
    predicate IdentityLocked()
      reads this
    {
      view == "password" && initialMode == "signup"
    }

    /**
     * Every input the browser validates as `required` is filled in: the
     * identity inputs the role shows, unless they are disabled, and the
     * password input in the password view.
     */
    predicate Submittable()
      reads this
    {
      (IdentityLocked()
       || ((role == "student" ==> studentId != "")
           && (role == "alumni" ==> email != "")
           && (role == "institute" ==> instituteId != "" && accessKey != "")))
      && (view == "password" ==> password != "")
    }

    /** Typing into the password input. */
    method TypePassword(text: string)
      modifies this
      ensures password == text
      ensures email == old(email) && studentId == old(studentId)
      ensures instituteId == old(instituteId) && accessKey == old(accessKey)
      ensures role == old(role) && initialMode == old(initialMode) && view == old(view) && loading == old(loading)
      ensures infoMsg == old(infoMsg) && error == old(error) && successes == old(successes)
      ensures loadingHistory == old(loadingHistory)
    {
      password := text;
    }

    /** Typing into the work-email input; a disabled input ignores typing. */
    method TypeEmail(text: string)
      modifies this
      ensures email == (if old(IdentityLocked()) then old(email) else text)
      ensures password == old(password) && studentId == old(studentId)
      ensures instituteId == old(instituteId) && accessKey == old(accessKey)
      ensures role == old(role) && initialMode == old(initialMode) && view == old(view) && loading == old(loading)
      ensures infoMsg == old(infoMsg) && error == old(error) && successes == old(successes)
      ensures loadingHistory == old(loadingHistory)
    {
      if !IdentityLocked() {
        email := text;
      }
    }

    /** Typing into the roll-number input; a disabled input ignores typing. */
    method TypeStudentId(text: string)
      modifies this
      ensures studentId == (if old(IdentityLocked()) then old(studentId) else text)
      ensures password == old(password) && email == old(email)
      ensures instituteId == old(instituteId) && accessKey == old(accessKey)
      ensures role == old(role) && initialMode == old(initialMode) && view == old(view) && loading == old(loading)
      ensures infoMsg == old(infoMsg) && error == old(error) && successes == old(successes)
      ensures loadingHistory == old(loadingHistory)
    {
      if !IdentityLocked() {
        studentId := text;
      }
    }

    /** Typing into the institute-id input stores the upper-cased text; a disabled input ignores typing. */
    method TypeInstituteId(text: string)
      modifies this
      ensures instituteId == (if old(IdentityLocked()) then old(instituteId) else ToUpper(text))
      ensures password == old(password) && email == old(email)
      ensures studentId == old(studentId) && accessKey == old(accessKey)
      ensures role == old(role) && initialMode == old(initialMode) && view == old(view) && loading == old(loading)
      ensures infoMsg == old(infoMsg) && error == old(error) && successes == old(successes)
      ensures loadingHistory == old(loadingHistory)
    {
      if !IdentityLocked() {
        instituteId := ToUpper(text);
      }
    }

    /** Typing into the master-key input; a disabled input ignores typing. */
    method TypeAccessKey(text: string)
      modifies this
      ensures accessKey == (if old(IdentityLocked()) then old(accessKey) else text)
      ensures password == old(password) && email == old(email)
      ensures studentId == old(studentId) && instituteId == old(instituteId)
      ensures role == old(role) && initialMode == old(initialMode) && view == old(view) && loading == old(loading)
      ensures infoMsg == old(infoMsg) && error == old(error) && successes == old(successes)
      ensures loadingHistory == old(loadingHistory)
    {
      if !IdentityLocked() {
        accessKey := text;
      }
    }

    /** The state `handleIdentityCheck` leaves behind, given the state it started from. */
    twostate predicate IdentityCheckDone()
      reads this
    {
      var outcome := IdentityOutcome(old(role), old(email), old(studentId), old(instituteId), old(accessKey));
      && !loading && loadingHistory == old(loadingHistory) + [true, false]
      && role == old(role) && initialMode == old(initialMode)
      && password == old(password) && email == old(email) && studentId == old(studentId)
      && instituteId == old(instituteId) && accessKey == old(accessKey)
      && view == (if outcome.AccountExists? then "password" else old(view))
      && infoMsg == (if outcome.AccountExists? then Some(AccountFound) else None)
      && error == (if outcome.Refused? then Some(ErrorText(outcome.message)) else None)
      && successes == old(successes) + (if outcome.NewAccount? then [true] else [])
    }

    /** The state `handleLogin` leaves behind, given the state it started from. */
    twostate predicate LoginDone()
      reads this
    {
      var refused := old(initialMode) == "login" && old(view) == "password" && old(role) == "institute"
                     && MockApi.VerifyInstituteCredentials(old(instituteId), old(accessKey)).Thrown?;
      && !loading && loadingHistory == old(loadingHistory) + [true, false]
      && role == old(role) && initialMode == old(initialMode) && view == old(view) && infoMsg == old(infoMsg)
      && password == old(password) && email == old(email) && studentId == old(studentId)
      && instituteId == old(instituteId) && accessKey == old(accessKey)
      && (if refused then error == Some(InvalidCredentials) && successes == old(successes)
          else error.None? && successes == old(successes) + [false])
    }

    /**
     * `handleIdentityCheck`: an existing identifier moves to the password view
     * with an info message; a new one runs the eligibility check and, only if it
     * passes, calls `onSuccess({isNewUser: true})`; a failure sets the error and
     * keeps the view.
     */
    method IdentityCheck()
      modifies this
      ensures IdentityCheckDone()
    {
      var outcome := IdentityOutcome(role, email, studentId, instituteId, accessKey);
      Settle(outcome);
    }

    /** The state changes of the identity check once the service has answered with `outcome`. */
    method Settle(outcome: Outcome)
      modifies this
      ensures !loading && loadingHistory == old(loadingHistory) + [true, false]
      ensures role == old(role) && initialMode == old(initialMode)
      ensures password == old(password) && email == old(email) && studentId == old(studentId)
      ensures instituteId == old(instituteId) && accessKey == old(accessKey)
      ensures view == (if outcome.AccountExists? then "password" else old(view))
      ensures infoMsg == (if outcome.AccountExists? then Some(AccountFound) else None)
      ensures error == (if outcome.Refused? then Some(ErrorText(outcome.message)) else None)
      ensures successes == old(successes) + (if outcome.NewAccount? then [true] else [])
    {
      loading, loadingHistory := true, loadingHistory + [true];
      view, infoMsg, error, successes :=
        if outcome.AccountExists? then "password" else view,
        if outcome.AccountExists? then Some(AccountFound) else None,
        if outcome.Refused? then Some(ErrorText(outcome.message)) else None,
        successes + (if outcome.NewAccount? then [true] else []);
      loading, loadingHistory := false, loadingHistory + [false];
    }

    /**
     * `handleLogin`: an institute that opened the card in login mode must pass
     * the credential check; the mock login itself always succeeds and calls
     * `onSuccess({isNewUser: false})`. Any failure shows "Invalid credentials.".
     */
    method HandleLogin()
      modifies this
      ensures LoginDone()
    {
      loading := true;
      loadingHistory := loadingHistory + [true];
      error := None;

      var failed := false;
      if initialMode == "login" && view == "password" {
        if role == "institute" && MockApi.VerifyInstituteCredentials(instituteId, accessKey).Thrown? {
          failed := true;
        }
      }
      if failed {
        error := Some(InvalidCredentials);
      } else {
        var _ := MockApi.Login();
        successes := successes + [false];
      }

      loading := false;
      loadingHistory := loadingHistory + [false];
    }

    /**
     * The form's submit. The browser refuses it while a required input is
     * empty; otherwise the "check" view runs the identity check and any other
     * view runs the login.
     */
    method Submit()
      modifies this
      ensures !old(Submittable()) ==> unchanged(this)
      ensures old(Submittable()) && old(view) == "check" ==> IdentityCheckDone()
      ensures old(Submittable()) && old(view) != "check" ==> LoginDone()
    {
      if !Submittable() {
        return;
      }
      if view == "check" {
        IdentityCheck();
      } else {
        HandleLogin();
      }
    }
  }
}

=== FILE: http.dfy ===
/**
 * The JSON answers the backend sends and the token oracles it relies on.
 * `jwt.sign` and `jwt.verify` are opaque: signing may fail (it throws when the
 * secret is missing) and verification yields the signed claims or fails.
 */
module Http {
  import opened Js
  import opened UserModel

  /** The `user` object of a register (no email) or login (with email) answer. */
  datatype SessionUser = SessionUser(id: string, name: string, email: Option<string>, role: string, isVerified: bool)

  /** A user row as sent back by `select("-password")`: every path except the password. */
  datatype Profile = Profile(
    id: string,
    name: string,
    email: string,
    role: string,
    rollNumber: Option<string>,
    graduationYear: Option<int>,
    workEmail: Option<string>,
    studentIdCardUrl: string,
    idCardUrl: string,
    isVerified: bool,
    createdAt: nat)

  function WithoutPassword(u: User): Profile {
    Profile(u.id, u.name, u.email, u.role, u.rollNumber, u.graduationYear, u.workEmail,
            u.studentIdCardUrl, u.idCardUrl, u.isVerified, u.createdAt)
  }

  datatype Body =
    | Message(message: string)
    | Session(message: string, user: SessionUser, token: string)
    | UserList(count: nat, users: seq<Profile>)
    | VerifiedUser(message: string, id: string, email: string, role: string)

  /** A status code and a JSON body. */
  datatype Reply = Reply(status: nat, body: Body)

  /** The payload of a session token. */
  datatype Claims = Claims(id: string, role: string)

  /** What `jwt.sign` is asked for: a payload and a lifetime. */
  datatype SignRequest = SignRequest(claims: Claims, expiresIn: string)

  /** The two token oracles. */
  datatype Tokens = Tokens(sign: SignRequest -> Option<string>, verify: string -> Option<Claims>)

  /**
   * The round trip the model assumes of the token library: whatever it signs,
   * verification gives back that payload, and the token text holds no space.
   */
  ghost predicate SignVerifyAgree(tokens: Tokens) {
    forall r: SignRequest :: tokens.sign(r).Some? ==>
      tokens.verify(tokens.sign(r).value) == Some(r.claims)
      && tokens.sign(r).value != "" && ' ' !in tokens.sign(r).value
  }
}

=== FILE: journey_graph.dfy ===
/**
 * The career-journey roadmap: the sample fallback, the layout of the pins on
 * a wave, the SVG road path built segment by segment, and the placement,
 * numbering and style of the cards. Every coordinate the component computes
 * is an integer; the control-point offsets are exactly a fifth of a 70-unit
 * rise or fall.
 */
module JourneyGraph {
  import opened Js

  /** One milestone; `kind` is the source's `type`. */
  datatype Milestone = Milestone(year: string, milestone: string, description: string, skillsGained: string, kind: string)

  /** The journey shown when no milestones are given. */
  const SampleMilestones: seq<Milestone> := [
    Milestone("2010", "Graduated College", "Completed B.Tech in CS. Founded first open-source project.", "Data Structures, C++", "Higher Study"),
    Milestone("2011", "Junior Software Developer", "Joined TechCorp, first commercial coding experience.", "Java, Spring Boot", "Job"),
    Milestone("2015", "MBA from IIM A", "Pivoted career path into management and leadership.", "Strategy, Finance, Leadership", "Higher Study"),
    Milestone("2017", "Senior Product Manager", "Managed key product features for a high-growth startup.", "Product Strategy, Market Analysis", "Job"),
    Milestone("2022", "VP of Product", "Currently leading a global team of Product Managers at Nexus.", "Executive Leadership, Scaling Operations", "Job")
  ]

  const Spacing: int := 250
  const Padding: int := 100
  const Height: int := 400
  const CenterY: int := 200

  /** `milestones && milestones.length > 0 ? milestones : sample`. */
  function DataToDisplay(milestones: Option<seq<Milestone>>): (shown: seq<Milestone>)
    ensures shown != []
    ensures milestones.Some? && milestones.value != [] ==> shown == milestones.value
    ensures milestones.None? || milestones.value == [] ==> shown == SampleMilestones
  {
    if milestones.Some? && milestones.value != [] then milestones.value else SampleMilestones
  }

  datatype View = NoMilestones | Roadmap(shown: seq<Milestone>)

  /** What the component renders: the "no milestones" panel only for an empty list to display. */
  function Render(milestones: Option<seq<Milestone>>): (v: View)
    ensures v.Roadmap? ==> v.shown == DataToDisplay(milestones)
  {
    var shown := DataToDisplay(milestones);
    if |shown| == 0 then NoMilestones else Roadmap(shown)
  }

  /** The fallback makes the "no milestones" panel unreachable. */
  lemma NoMilestonesUnreachable(milestones: Option<seq<Milestone>>)
    ensures Render(milestones).Roadmap?
  {
  }

  // ---------------------------------------------------------------- layout

  datatype Point = Point(x: int, y: int)

  /** The roadmap's width: 250 per gap between pins and 100 of padding at each end. */
  function Width(n: nat): (w: int)
    requires n >= 1
    ensures w == (n - 1) * Spacing + 2 * Padding
    ensures w == PointAt(n - 1).x + Padding
  {
    (n - 1) * Spacing + Padding * 2
  }

  /** Pin `i`: 250 apart from x = 100, 30 below the centre line for even `i` and 40 above it for odd `i`. */
  function PointAt(i: nat): (p: Point)
    ensures p.x == Padding + i * Spacing
    ensures p.y == if i % 2 == 0 then CenterY + 30 else CenterY - 40
  {
    Point(Padding + i * Spacing, CenterY + (if i % 2 == 0 then 30 else -40))
  }

  /** Consecutive pins are 250 apart and alternate between 230 and 160. */
  lemma PointsAlternate(i: nat)
    ensures PointAt(i + 1).x - PointAt(i).x == Spacing
    ensures PointAt(i).y == 230 <==> PointAt(i + 1).y == 160
    ensures PointAt(i + 1).y - PointAt(i).y == 70 || PointAt(i + 1).y - PointAt(i).y == -70
  {
  }

  // ---------------------------------------------------------------- the road path

  /** A piece of the path: the opening line, or a cubic curve to the next pin. */
  datatype Segment = Line(to: Point) | Curve(c1: Point, c2: Point, to: Point)

  /**
   * Segment `i`: a line to the first pin, then a curve whose control points
   * sit 100 after the previous pin and 100 before this one, each shifted a
   * fifth of the rise towards the other end.
   */
  function SegmentAt(i: nat): (s: Segment)
    ensures i == 0 ==> s == Line(PointAt(0))
    ensures i > 0 ==> s.Curve? && s.to == PointAt(i)
    ensures i > 0 ==> s.c1.x == PointAt(i - 1).x + 100 && s.c2.x == PointAt(i).x - 100
    ensures i > 0 ==> 5 * (s.c1.y - PointAt(i - 1).y) == PointAt(i).y - PointAt(i - 1).y
    ensures i > 0 ==> 5 * (PointAt(i).y - s.c2.y) == PointAt(i).y - PointAt(i - 1).y
  {
    var curr := PointAt(i);
    if i == 0 then Line(curr)
    else
      var prev := PointAt(i - 1);
      var rise := curr.y - prev.y;
      assert rise == 70 || rise == -70;
      Curve(Point(prev.x + Spacing * 2 / 5, prev.y + rise / 5), Point(curr.x - Spacing * 2 / 5, curr.y - rise / 5), curr)
  }

  /** The control points of every curve lie strictly between its two pins and 14 from their heights. */
  lemma CurveControls(i: nat)
    requires i > 0
    ensures PointAt(i - 1).x < SegmentAt(i).c1.x < SegmentAt(i).c2.x < PointAt(i).x
    ensures SegmentAt(i).c1.y - PointAt(i - 1).y == 14 || SegmentAt(i).c1.y - PointAt(i - 1).y == -14
  {
  }

  function Coordinates(p: Point): string
    requires p.x >= 0 && p.y >= 0
  {
    NatToString(p.x) + " " + NatToString(p.y)
  }

  /** The text a segment appends to the path. */
  function SegmentText(i: nat): (text: string)
    ensures i == 0 ==> text == " L " + Coordinates(PointAt(0))
    ensures i > 0 ==> StartsWith(text, " C ")
  {
    match SegmentAt(i)
    case Line(to) => " L " + Coordinates(to)
    case Curve(c1, c2, to) =>
      var text := " C " + Coordinates(c1) + ", " + Coordinates(c2) + ", " + Coordinates(to);
      assert text[..3] == " C ";
      text
  }

  /** The segments for the first `k` pins, in order. */
  function SegmentsText(k: nat): string {
    if k == 0 then "" else SegmentsText(k - 1) + SegmentText(k - 1)
  }

  /** The path's move to the left edge of the centre line. */
  function PathStart(): string {
    "M " + NatToString(PointAt(0).x - Padding) + " " + NatToString(CenterY)
  }

  /** The path's closing line to the right edge of the centre line. */
  function PathEnd(n: nat): string
    requires n >= 1
  {
    " L " + NatToString(Width(n)) + " " + NatToString(CenterY)
  }

  /** `svgPathD` for `n` pins. */
  function PathD(n: nat): string
    requires n >= 1
  {
    PathStart() + SegmentsText(n) + PathEnd(n)
  }

  /** The first segment is the first thing after the move, whatever the number of pins. */
  lemma {:induction false} SegmentsStartWithLine(k: nat)
    requires k >= 1
    ensures StartsWith(SegmentsText(k), SegmentText(0))
  {
    if k > 1 {
      SegmentsStartWithLine(k - 1);
      var prefix := SegmentsText(k - 1);
      assert SegmentsText(k) == prefix + SegmentText(k - 1);
      assert SegmentsText(k)[..|SegmentText(0)|] == prefix[..|SegmentText(0)|];
    } else {
      assert SegmentsText(1) == "" + SegmentText(0);
    }
  }

  /** The move command's text: the left end of the centre line is (0, 200). */
  lemma PathStartText()
    ensures PathStart() == "M 0 200"
  {
    assert NatToString(0) == "0";
    assert NatToString(2) == "2";
    assert NatToString(20) == "20";
    assert NatToString(200) == "200";
  }

  /** The path moves to the left end of the centre line, lines to the first pin, and ends on the right end of the centre line. */
  lemma PathShape(n: nat)
    requires n >= 1
    ensures StartsWith(PathD(n), PathStart() + SegmentText(0))
    ensures EndsWith(PathD(n), PathEnd(n))
    ensures PathStart() == "M 0 200"
  {
    PathStartText();
    SegmentsStartWithLine(n);
    var start, segs, end := PathStart(), SegmentsText(n), PathEnd(n);
    var d := start + segs + end;
    var head := start + SegmentText(0);
    assert segs[..|SegmentText(0)|] == SegmentText(0);
    assert d[..|head|] == head;
    assert d[|d| - |end|..] == end;
  }

  /** Each further pin appends exactly its own segment to the path text so far. */
  lemma PathGrowsBySegment(prefix: string, k: nat)
    ensures prefix + SegmentsText(k + 1) == prefix + SegmentsText(k) + SegmentText(k)
  {
    assert SegmentsText(k + 1) == SegmentsText(k) + SegmentText(k);
  }

  /** The component's loop: one segment per pin appended to the path text. */
  method BuildPath(n: nat) returns (d: string)
    requires n >= 1
    ensures d == PathD(n)
  {
    var start := PathStart();
    d := start;
    for i := 0 to n
      invariant d == start + SegmentsText(i)
    {
      var segment := SegmentText(i);
      PathGrowsBySegment(start, i);
      d := d + segment;
    }
    d := d + PathEnd(n);
  }

  // ---------------------------------------------------------------- cards

  /** Card `i` sits 240 above its pin for even `i` and 90 below it for odd `i`. */
  function CardTop(i: nat): (top: int)
    ensures i % 2 == 0 ==> top == PointAt(i).y - 240 && top < PointAt(i).y
    ensures i % 2 == 1 ==> top == PointAt(i).y + 90 && top > PointAt(i).y
  {
    var y := PointAt(i).y;
    if i % 2 == 0 then y - 90 - 150 else y + 90
  }

  /** Cards alternate: the even ones above the road's centre line, the odd ones below it. */
  lemma CardsAlternate(i: nat)
    ensures i % 2 == 0 ==> CardTop(i) < CenterY
    ensures i % 2 == 1 ==> CardTop(i) > CenterY
  {
  }

  /** The number on card `i`: counting from 1. */
  function CardNumber(i: nat): (k: nat)
    ensures k >= 1 && k - 1 == i
  {
    i + 1
  }

  datatype Style = JobStyle | HigherStudyStyle | ProjectStyle | LocationStyle | DefaultStyle

  /** `MilestoneIconMap[type] || MilestoneIconMap.Default`. */
  function StyleOf(kind: string): (s: Style)
    ensures kind == "Job" <==> s == JobStyle
    ensures kind == "Higher Study" <==> s == HigherStudyStyle
    ensures kind == "Project" <==> s == ProjectStyle
    ensures kind == "Location" <==> s == LocationStyle
    ensures kind !in {"Job", "Higher Study", "Project", "Location"} <==> s == DefaultStyle
  {
    if kind == "Job" then JobStyle
    else if kind == "Higher Study" then HigherStudyStyle
    else if kind == "Project" then ProjectStyle
    else if kind == "Location" then LocationStyle
    else DefaultStyle
  }

  /** `milestone.skillsGained || 'N/A'`. */
  function SkillsText(m: Milestone): (text: string)
    ensures text != ""
    ensures m.skillsGained != "" ==> text == m.skillsGained
  {
    if m.skillsGained != "" then m.skillsGained else "N/A"
  }
}

=== FILE: js.dfy ===
/**
 * The JavaScript built-ins that the application's rule code relies on, stated on
 * Dafny strings: truthiness of optional strings, ASCII lower-casing, the `\s`
 * whitespace class, trim, split on one character, includes / startsWith /
 * endsWith, padStart(2, '0'), and decimal conversions between numbers and text.
 */
module Js {

  /** A value that may be `undefined` (or `null`). */
  datatype Option<+T> = None | Some(value: T)
  {
    function GetOr(default: T): T { if Some? then value else default }
  }

  /** A computation that either returns a value or throws an error with a message. */
  datatype Result<+T> = Ok(value: T) | Thrown(message: string)

  /** `!!s` for a string that may be undefined: undefined and "" are falsy. */
  predicate Truthy(s: Option<string>) {
    s.Some? && s.value != ""
  }

  // ---------------------------------------------------------------- characters

  predicate IsUpper(c: char) { 'A' <= c <= 'Z' }

  predicate IsDigit(c: char) { '0' <= c <= '9' }

  /** One character of `String.prototype.toLowerCase`, on the ASCII letters. */
  function LowerChar(c: char): (r: char)
    ensures !IsUpper(r)
    ensures !IsUpper(c) ==> r == c
    ensures IsUpper(c) ==> r as int == c as int + 32
  {
    if IsUpper(c) then (c as int + 32) as char else c
  }

  /** The characters matched by the regular-expression class `\s`. */
  predicate IsSpace(c: char) {
    c == ' ' || c == '\t' || c == '\n' || c == '\r' || c == '\U{000B}' || c == '\U{000C}'
    || c == '\U{00A0}' || c == '\U{1680}' || ('\U{2000}' <= c <= '\U{200A}')
    || c == '\U{2028}' || c == '\U{2029}' || c == '\U{202F}' || c == '\U{205F}'
    || c == '\U{3000}' || c == '\U{FEFF}'
  }

  // ---------------------------------------------------------------- lower case

  /** `s.toLowerCase()`. */
  function ToLower(s: string): (r: string)
    ensures |r| == |s|
    ensures forall i :: 0 <= i < |s| ==> r[i] == LowerChar(s[i])
  {
    seq(|s|, i requires 0 <= i < |s| => LowerChar(s[i]))
  }

  predicate IsLower(s: string) {
    forall i :: 0 <= i < |s| ==> !IsUpper(s[i])
  }

  lemma ToLowerIsLower(s: string)
    ensures IsLower(ToLower(s))
  {
  }

  /** Lower-casing text that has no upper-case letter leaves it as it is. */
  lemma ToLowerOfLower(s: string)
    requires IsLower(s)
    ensures ToLower(s) == s
  {
  }

  predicate IsLowerLetter(c: char) { 'a' <= c <= 'z' }

  /** One character of `String.prototype.toUpperCase`, on the ASCII letters. */
  function UpperChar(c: char): (r: char)
    ensures !IsLowerLetter(r)
    ensures !IsLowerLetter(c) ==> r == c
    ensures IsLowerLetter(c) ==> r as int == c as int - 32
  {
    if IsLowerLetter(c) then (c as int - 32) as char else c
  }

  /** `s.toUpperCase()`. */
  function ToUpper(s: string): (r: string)
    ensures |r| == |s|
    ensures forall i :: 0 <= i < |s| ==> r[i] == UpperChar(s[i])
  {
    seq(|s|, i requires 0 <= i < |s| => UpperChar(s[i]))
  }

  // ---------------------------------------------------------------- trim

  function TrimStart(s: string): (r: string)
    ensures |r| <= |s|
    ensures r == s[|s| - |r|..]
    ensures r != [] ==> !IsSpace(r[0])
  {
    if s != [] && IsSpace(s[0]) then TrimStart(s[1..]) else s
  }

  /** What `trimStart` removes is whitespace only. */
  lemma {:induction false} TrimStartSkipsSpaces(s: string)
    ensures forall i :: 0 <= i < |s| - |TrimStart(s)| ==> IsSpace(s[i])
  {
    if s != [] && IsSpace(s[0]) {
      TrimStartSkipsSpaces(s[1..]);
      assert forall i :: 1 <= i < |s| ==> s[i] == s[1..][i - 1];
    }
  }

  function TrimEnd(s: string): (r: string)
    ensures |r| <= |s|
    ensures r == s[..|r|]
    ensures r != [] ==> !IsSpace(r[|r| - 1])
  {
    if s != [] && IsSpace(s[|s| - 1]) then TrimEnd(s[..|s| - 1]) else s
  }

  /** `s.trim()`: drops the whitespace at both ends and nothing else. */
  function Trim(s: string): (r: string)
    ensures r != [] ==> !IsSpace(r[0]) && !IsSpace(r[|r| - 1])
    ensures exists i, j :: 0 <= i <= j <= |s| && r == s[i..j]
  {
    var t := TrimStart(s);
    var r := TrimEnd(t);
    assert r == s[|s| - |t|..|s| - |t| + |r|];
    r
  }

  /** Lower-casing never turns a character into whitespace or whitespace into something else. */
  lemma LowerCharKeepsSpace(c: char)
    ensures IsSpace(LowerChar(c)) == IsSpace(c)
  {
  }

  lemma {:induction false} TrimStartToLower(s: string)
    ensures TrimStart(ToLower(s)) == ToLower(TrimStart(s))
    decreases |s|
  {
    if s != [] {
      LowerCharKeepsSpace(s[0]);
      assert ToLower(s)[1..] == ToLower(s[1..]);
      if IsSpace(s[0]) { TrimStartToLower(s[1..]); }
    }
  }

  lemma {:induction false} TrimEndToLower(s: string)
    ensures TrimEnd(ToLower(s)) == ToLower(TrimEnd(s))
    decreases |s|
  {
    if s != [] {
      LowerCharKeepsSpace(s[|s| - 1]);
      assert ToLower(s)[..|s| - 1] == ToLower(s[..|s| - 1]);
      if IsSpace(s[|s| - 1]) { TrimEndToLower(s[..|s| - 1]); }
    }
  }

  /** `s.trim().toLowerCase()` and `s.toLowerCase().trim()` give the same text. */
  lemma TrimToLower(s: string)
    ensures Trim(ToLower(s)) == ToLower(Trim(s))
  {
    TrimStartToLower(s);
    TrimEndToLower(TrimStart(s));
  }

  // ---------------------------------------------------------------- split

  /** `s.split(sep)` for a one-character separator. */
  function Split(s: string, sep: char): (parts: seq<string>)
    ensures |parts| >= 1
    ensures forall k :: 0 <= k < |parts| ==> sep !in parts[k]
  {
    if s == [] then [""]
    else if s[0] == sep then [""] + Split(s[1..], sep)
    else
      var rest := Split(s[1..], sep);
      [[s[0]] + rest[0]] + rest[1..]
  }

  /** `parts.join(sep)`. */
  function Join(parts: seq<string>, sep: char): string
    requires |parts| >= 1
  {
    if |parts| == 1 then parts[0] else parts[0] + [sep] + Join(parts[1..], sep)
  }

  /** Splitting and joining again on the same separator gives back the text. */
  lemma {:induction false} JoinSplit(s: string, sep: char)
    ensures Join(Split(s, sep), sep) == s
  {
    if s == [] {
    } else if s[0] == sep {
      JoinSplit(s[1..], sep);
      assert s == [sep] + s[1..];
    } else {
      JoinSplit(s[1..], sep);
      var rest := Split(s[1..], sep);
      if |rest| == 1 {
        assert s == [s[0]] + s[1..];
      } else {
        assert Join(rest, sep) == rest[0] + [sep] + Join(rest[1..], sep);
        assert s == [s[0]] + s[1..];
      }
    }
  }

  /** `s.split(sep)[k]`, which is undefined past the last piece. */
  function Piece(s: string, sep: char, k: nat): (r: Option<string>)
    ensures r.Some? <==> k < |Split(s, sep)|
  {
    var parts := Split(s, sep);
    if k < |parts| then Some(parts[k]) else None
  }

  /** Text without the separator splits into itself alone. */
  lemma {:induction false} SplitWithoutSep(s: string, sep: char)
    requires sep !in s
    ensures Split(s, sep) == [s]
  {
    if s != [] {
      SplitWithoutSep(s[1..], sep);
      assert s == [s[0]] + s[1..];
    }
  }

  /** The first piece of `s.split(sep)` is the text before the first separator. */
  lemma {:induction false} SplitFirst(pre: string, sep: char, post: string)
    requires sep !in pre
    ensures Split(pre + [sep] + post, sep) == [pre] + Split(post, sep)
  {
    if pre == [] {
      assert pre + [sep] + post == [sep] + post;
    } else {
      var s := pre + [sep] + post;
      SplitFirst(pre[1..], sep, post);
      assert s[1..] == pre[1..] + [sep] + post;
      assert s[0] == pre[0] && s[0] != sep;
      var rest := Split(s[1..], sep);
      assert rest[0] == pre[1..] && rest[1..] == Split(post, sep);
      assert [s[0]] + rest[0] == pre;
    }
  }

  // ---------------------------------------------------------------- searching

  /** `s.startsWith(p)`. */
  predicate StartsWith(s: string, p: string) {
    |p| <= |s| && s[..|p|] == p
  }

  /** `s.endsWith(p)`. */
  predicate EndsWith(s: string, p: string) {
    |p| <= |s| && s[|s| - |p|..] == p
  }

  /** `s.includes(p)`. */
  predicate Includes(s: string, p: string)
    decreases |s|
  {
    StartsWith(s, p) || (s != [] && Includes(s[1..], p))
  }

  /** `p` occurs in `s` starting at position `i`. */
  predicate OccursAt(s: string, p: string, i: int) {
    0 <= i <= |s| - |p| && s[i..i + |p|] == p
  }

  /** `includes` holds exactly when `p` occurs at some position of `s`. */
  lemma {:induction false} IncludesIffOccurs(s: string, p: string)
    ensures Includes(s, p) <==> exists i :: OccursAt(s, p, i)
    decreases |s|
  {
    if StartsWith(s, p) {
      assert OccursAt(s, p, 0);
    } else if s != [] {
      IncludesIffOccurs(s[1..], p);
      if Includes(s[1..], p) {
        var i :| OccursAt(s[1..], p, i);
        assert s[i + 1..i + 1 + |p|] == s[1..][i..i + |p|];
        assert OccursAt(s, p, i + 1);
      }
      if exists i :: OccursAt(s, p, i) {
        var i :| OccursAt(s, p, i);
        assert i != 0;
        assert s[1..][i - 1..i - 1 + |p|] == s[i..i + |p|];
        assert OccursAt(s[1..], p, i - 1);
      }
    }
  }

  /** Text included in `mid` is included in any text around it. */
  lemma IncludesInfix(pre: string, mid: string, post: string)
    ensures Includes(pre + mid + post, mid)
  {
    var s := pre + mid + post;
    assert OccursAt(s, mid, |pre|);
    IncludesIffOccurs(s, mid);
  }

  /** The empty string is included in every text. */
  lemma IncludesEmpty(s: string)
    ensures Includes(s, "")
  {
  }

  // ---------------------------------------------------------------- numbers and text

  function DigitChar(d: nat): (c: char)
    requires d < 10
    ensures IsDigit(c)
  {
    ('0' as int + d) as char
  }

  function DigitValue(c: char): (d: nat)
    requires IsDigit(c)
    ensures d < 10 && DigitChar(d) == c
  {
    c as int - '0' as int
  }

  /** `n.toString()` for a natural number. */
  function NatToString(n: nat): (s: string)
    ensures s != []
    ensures forall i :: 0 <= i < |s| ==> IsDigit(s[i])
    ensures |s| > 1 ==> s[0] != '0'
  {
    if n < 10 then [DigitChar(n)] else NatToString(n / 10) + [DigitChar(n % 10)]
  }

  /** The value of a string of decimal digits. */
  function DigitsValue(s: string): nat
    requires forall i :: 0 <= i < |s| ==> IsDigit(s[i])
  {
    if s == [] then 0 else 10 * DigitsValue(s[..|s| - 1]) + DigitValue(s[|s| - 1])
  }

  /** Reading back the decimal text of a number gives the number. */
  lemma {:induction false} DigitsValueOfNatToString(n: nat)
    ensures DigitsValue(NatToString(n)) == n
  {
    if n >= 10 {
      DigitsValueOfNatToString(n / 10);
      var s := NatToString(n);
      assert s[..|s| - 1] == NatToString(n / 10);
    }
  }

  /** Numbers with the same decimal text are equal. */
  lemma NatToStringInjective(m: nat, n: nat)
    requires NatToString(m) == NatToString(n)
    ensures m == n
  {
    DigitsValueOfNatToString(m);
    DigitsValueOfNatToString(n);
  }

  /** Decimal text of 1000..9999 has exactly four digits. */
  lemma {:induction false} FourDigits(n: nat)
    requires 1000 <= n <= 9999
    ensures |NatToString(n)| == 4
  {
    assert |NatToString(n / 1000)| == 1;
    assert |NatToString(n / 100)| == 2;
    assert |NatToString(n / 10)| == 3;
  }

  /** `s.padStart(2, '0')`. */
  function PadStart2(s: string): (r: string)
    ensures |r| == if |s| < 2 then 2 else |s|
    ensures EndsWith(r, s)
  {
    if |s| >= 2 then s else if |s| == 1 then ['0'] + s else "00"
  }

  /** Length of the longest prefix of `s` made of decimal digits. */
  function DigitPrefixLength(s: string): (n: nat)
    ensures n <= |s|
  {
    if s != [] && IsDigit(s[0]) then 1 + DigitPrefixLength(s[1..]) else 0
  }

  /** The prefix is made of digits and stops at the first character that is not one. */
  lemma {:induction false} DigitPrefixBounds(s: string)
    ensures forall i :: 0 <= i < DigitPrefixLength(s) ==> IsDigit(s[i])
    ensures DigitPrefixLength(s) < |s| ==> !IsDigit(s[DigitPrefixLength(s)])
  {
    if s != [] && IsDigit(s[0]) {
      DigitPrefixBounds(s[1..]);
    }
  }

  /**
   * `parseInt(s)` in base 10: leading whitespace is skipped, then an optional
   * sign and the longest run of digits; no digit at all gives NaN (None).
   */
  function ParseInt(s: string): (r: Option<int>)
    ensures TrimStart(s) == [] ==> r.None?
  {
    var t := TrimStart(s);
    var neg := t != [] && t[0] == '-';
    var u := if t != [] && (t[0] == '-' || t[0] == '+') then t[1..] else t;
    var n := DigitPrefixLength(u);
    DigitPrefixBounds(u);
    if n == 0 then None
    else
      var v: int := DigitsValue(u[..n]);
      Some(if neg then -v else v)
  }

  /**
   * parseInt needs a digit, after an optional sign, at the first non-space
   * character; a negative number comes only from a leading '-'.
   */
  lemma ParseIntNeedsDigit(s: string)
    ensures var t := TrimStart(s);
      && (t != [] && !IsDigit(t[0]) && t[0] != '-' && t[0] != '+' ==> ParseInt(s).None?)
      && (ParseInt(s).Some? && ParseInt(s).value < 0 ==> t[0] == '-')
  {
    var t := TrimStart(s);
    if t != [] && !IsDigit(t[0]) && t[0] != '-' && t[0] != '+' {
      assert DigitPrefixLength(t) == 0;
    }
  }

  /** parseInt reads back the decimal text of a natural number. */
  lemma ParseIntOfNatToString(n: nat)
    ensures ParseInt(NatToString(n)) == Some(n)
  {
    var s := NatToString(n);
    assert TrimStart(s) == s;
    assert DigitPrefixLength(s) == |s| by { DigitPrefixAll(s); }
    assert s[..|s|] == s;
    DigitsValueOfNatToString(n);
  }

  lemma {:induction false} DigitPrefixAll(s: string)
    requires forall i :: 0 <= i < |s| ==> IsDigit(s[i])
    ensures DigitPrefixLength(s) == |s|
  {
    if s != [] {
      DigitPrefixAll(s[1..]);
    }
  }

  /**
   * `Number(s)` for the forms the model covers: after trimming, the empty text is
   * 0 and an optionally signed run of decimal digits is its value; anything else
   * is NaN (None).
   */
  function ToNumber(s: string): (r: Option<int>)
    ensures Trim(s) == "" ==> r == Some(0)
  {
    var t := Trim(s);
    var neg := t != [] && t[0] == '-';
    var u := if t != [] && (t[0] == '-' || t[0] == '+') then t[1..] else t;
    DigitPrefixBounds(u);
    if t == [] then Some(0)
    else if u != [] && DigitPrefixLength(u) == |u| then
      var v: int := DigitsValue(u);
      Some(if neg then -v else v)
    else None
  }

  /**
   * Number needs trimmed text that starts with a digit or a sign; a negative
   * number comes only from a leading '-'.
   */
  lemma ToNumberNeedsDigit(s: string)
    ensures var t := Trim(s);
      && (t != [] && !IsDigit(t[0]) && t[0] != '-' && t[0] != '+' ==> ToNumber(s).None?)
      && (ToNumber(s).Some? && ToNumber(s).value < 0 ==> t[0] == '-')
  {
    var t := Trim(s);
    if t != [] && !IsDigit(t[0]) && t[0] != '-' && t[0] != '+' {
      assert DigitPrefixLength(t) == 0;
    }
  }

  /** Number reads back the decimal text of a natural number. */
  lemma ToNumberOfNatToString(n: nat)
    ensures ToNumber(NatToString(n)) == Some(n)
  {
    var s := NatToString(n);
    TrimOfDigits(s);
    DigitsValueOfNatToString(n);
    ToNumberOfTrimmedDigits(s, s);
  }

  /** Number of text that trims to a run of digits is their value. */
  lemma ToNumberOfTrimmedDigits(s: string, t: string)
    requires Trim(s) == t && t != [] && forall i :: 0 <= i < |t| ==> IsDigit(t[i])
    ensures ToNumber(s) == Some(DigitsValue(t))
  {
    DigitPrefixAll(t);
  }

  lemma TrimOfDigits(s: string)
    requires s != [] && forall i :: 0 <= i < |s| ==> IsDigit(s[i])
    ensures Trim(s) == s
  {
    assert !IsSpace(s[0]) && !IsSpace(s[|s| - 1]);
    assert TrimStart(s) == s;
    assert TrimEnd(s) == s;
  }

  /** `String(n)` for an integer: its decimal text, with a leading '-' when negative. */
  function IntToString(n: int): (s: string)
    ensures s != []
    ensures s[0] == '-' <==> n < 0
  {
    if n < 0 then "-" + NatToString(-n) else NatToString(n)
  }

  /** Different integers have different decimal texts. */
  lemma IntToStringInjective(m: int, n: int)
    requires IntToString(m) == IntToString(n)
    ensures m == n
  {
    if m < 0 {
      var s := IntToString(m);
      assert s[1..] == NatToString(-m) && s[1..] == NatToString(-n);
      NatToStringInjective(-m, -n);
    } else {
      NatToStringInjective(m, n);
    }
  }

  // ---------------------------------------------------------------- arrays

  /** `s.filter((_, j) => j !== i)`: the element at `i` goes, the rest keep their order. */
  function RemoveIndex<T>(s: seq<T>, i: nat): (r: seq<T>)
    ensures |r| == if i < |s| then |s| - 1 else |s|
    ensures forall j :: 0 <= j < |r| && j < i ==> r[j] == s[j]
    ensures forall j :: i <= j < |r| ==> r[j] == s[j + 1]
  {
    if i < |s| then s[..i] + s[i + 1..] else s
  }

  /** `s.filter(t => t !== x)`. */
  function RemoveAll<T(==)>(s: seq<T>, x: T): (r: seq<T>)
    ensures |r| <= |s|
    ensures forall k :: 0 <= k < |r| ==> r[k] in s && r[k] != x
    ensures forall k :: 0 <= k < |s| && s[k] != x ==> s[k] in r
  {
    if s == [] then []
    else if s[0] == x then RemoveAll(s[1..], x)
    else [s[0]] + RemoveAll(s[1..], x)
  }

  /** Removing every copy keeps the others in order: it distributes over a concatenation. */
  lemma {:induction false} RemoveAllAppend<T>(a: seq<T>, b: seq<T>, x: T)
    ensures RemoveAll(a + b, x) == RemoveAll(a, x) + RemoveAll(b, x)
  {
    if a == [] {
      assert a + b == b;
    } else {
      assert (a + b)[0] == a[0];
      assert (a + b)[1..] == a[1..] + b;
      RemoveAllAppend(a[1..], b, x);
    }
  }

  /** Removing a value that is not there changes nothing. */
  lemma {:induction false} RemoveAllAbsent<T>(s: seq<T>, x: T)
    requires x !in s
    ensures RemoveAll(s, x) == s
  {
    if s != [] {
      RemoveAllAbsent(s[1..], x);
    }
  }

  /** `xs.filter(keep)`: the elements that pass, in their order. */
  function Filter<T>(keep: T -> bool, xs: seq<T>): (r: seq<T>)
    ensures |r| <= |xs|
    ensures forall k :: 0 <= k < |r| ==> r[k] in xs && keep(r[k])
    ensures forall x :: x in xs && keep(x) ==> x in r
  {
    if xs == [] then []
    else
      var rest := Filter(keep, xs[1..]);
      if keep(xs[0]) then [xs[0]] + rest else rest
  }

  /** Filtering keeps order: it distributes over a concatenation. */
  lemma {:induction false} FilterAppend<T>(keep: T -> bool, a: seq<T>, b: seq<T>)
    ensures Filter(keep, a + b) == Filter(keep, a) + Filter(keep, b)
  {
    if a == [] {
      assert a + b == b;
    } else {
      assert (a + b)[0] == a[0];
      assert (a + b)[1..] == a[1..] + b;
      FilterAppend(keep, a[1..], b);
    }
  }
}

=== FILE: login_page.dfy ===
/**
 * The sign-in page's registration forms and view switch: the chip toggles of
 * the student form (capped at five items except for skills), the alumni
 * form's uncapped skills and editable milestone list, the hand-off of the
 * complete milestones to the journey preview, and the card each view renders.
 */
module LoginPage {
  import opened Js
  import JourneyGraph

  type Milestone = JourneyGraph.Milestone

  /** The most chips a capped list grows to by toggling. */
  const ChipCap: nat := 5

  /** Every element differs from every other. */
  predicate Distinct<T(==)>(s: seq<T>) {
    forall i, j :: 0 <= i < j < |s| ==> s[i] != s[j]
  }

  /**
   * `handleChipToggle`'s update of one list: a present chip goes (every copy
   * of it); an absent one is appended, unless the list is capped and already
   * holds five or more items.
   */
  function ToggleChip(current: seq<string>, chip: string, capped: bool): (r: seq<string>)
    ensures chip in r <==> chip !in current && !(capped && |current| >= ChipCap)
    ensures chip in current ==> forall k :: 0 <= k < |current| && current[k] != chip ==> current[k] in r
    ensures chip in current ==> forall k :: 0 <= k < |r| ==> r[k] in current
    ensures chip !in current && capped && |current| >= ChipCap ==> r == current
    ensures chip !in current && !(capped && |current| >= ChipCap) ==> r == current + [chip]
  {
    if chip in current then RemoveAll(current, chip)
    else if capped && |current| >= ChipCap then current
    else current + [chip]
  }

  /** Toggling an absent chip twice, with room for it, gives back the list. */
  lemma ToggleTwiceRestores(current: seq<string>, chip: string, capped: bool)
    requires chip !in current && !(capped && |current| >= ChipCap)
    ensures ToggleChip(ToggleChip(current, chip, capped), chip, capped) == current
  {
    RemoveAllAppend(current, [chip], chip);
    RemoveAllAbsent(current, chip);
    assert RemoveAll([chip], chip) == [];
  }

  /** Removing a value keeps a list free of duplicates. */
  lemma {:induction false} RemoveAllKeepsDistinct(s: seq<string>, x: string)
    requires Distinct(s)
    ensures Distinct(RemoveAll(s, x))
  {
    if s != [] {
      assert Distinct(s[1..]);
      RemoveAllKeepsDistinct(s[1..], x);
      var rest := RemoveAll(s[1..], x);
      if s[0] != x {
        assert s[0] !in s[1..];
        assert forall k :: 0 <= k < |rest| ==> rest[k] != s[0];
        var r := [s[0]] + rest;
        forall i, j | 0 <= i < j < |r|
          ensures r[i] != r[j]
        {
          if i == 0 {
            assert r[j] == rest[j - 1];
          } else {
            assert r[i] == rest[i - 1] && r[j] == rest[j - 1];
          }
        }
      }
    }
  }

  /** Toggling never introduces a duplicate chip. */
  lemma ToggleKeepsDistinct(current: seq<string>, chip: string, capped: bool)
    requires Distinct(current)
    ensures Distinct(ToggleChip(current, chip, capped))
  {
    if chip in current {
      RemoveAllKeepsDistinct(current, chip);
    }
  }

  /** A capped list that starts with at most five chips never grows past five. */
  lemma ToggleRespectsCap(current: seq<string>, chip: string)
    requires |current| <= ChipCap
    ensures |ToggleChip(current, chip, true)| <= ChipCap
  {
  }

  /** An uncapped list always takes an absent chip. */
  lemma UncappedAlwaysAdds(current: seq<string>, chip: string)
    requires chip !in current
    ensures ToggleChip(current, chip, false) == current + [chip]
  {
  }

  /** The two chip lists of the student form. */
  datatype ChipField = InterestedDomains | CurrentSkills

  /** The student registration form's state. */
  class StudentRegister {
    var interestedDomains: seq<string>
    var currentSkills: seq<string>
    var careerGoal: string

    constructor ()
      ensures interestedDomains == [] && currentSkills == [] && careerGoal == ""
    {
      interestedDomains := [];
      currentSkills := [];
      careerGoal := "";
    }

    /** `handleChipToggle(field, chip)`: every list but `currentSkills` is capped. */
    method ChipToggle(field: ChipField, chip: string)
      modifies this
      ensures field == InterestedDomains ==>
        interestedDomains == ToggleChip(old(interestedDomains), chip, true) && currentSkills == old(currentSkills)
      ensures field == CurrentSkills ==>
        currentSkills == ToggleChip(old(currentSkills), chip, false) && interestedDomains == old(interestedDomains)
      ensures careerGoal == old(careerGoal)
    {
      match field {
        case InterestedDomains =>
          interestedDomains := ToggleChip(interestedDomains, chip, true);
        case CurrentSkills =>
          currentSkills := ToggleChip(currentSkills, chip, false);
      }
    }

    /** `handleDropdownChange`: the only select with an id is the career goal. */
    method DropdownChange(value: string)
      modifies this
      ensures careerGoal == value
      ensures interestedDomains == old(interestedDomains) && currentSkills == old(currentSkills)
    {
      careerGoal := value;
    }
  }

  /** The fields of a milestone the alumni form edits; `Kind` is the source's `type`. */
  datatype MilestoneField = Year | Title | Description | SkillsGained | Kind

  /** `{ ...m, [field]: value }`. */
  function WithField(m: Milestone, field: MilestoneField, value: string): (r: Milestone)
    ensures r.year == if field == Year then value else m.year
    ensures r.milestone == if field == Title then value else m.milestone
    ensures r.description == if field == Description then value else m.description
    ensures r.skillsGained == if field == SkillsGained then value else m.skillsGained
    ensures r.kind == if field == Kind then value else m.kind
  {
    match field
    case Year => m.(year := value)
    case Title => m.(milestone := value)
    case Description => m.(description := value)
    case SkillsGained => m.(skillsGained := value)
    case Kind => m.(kind := value)
  }

  /** The milestone the alumni form starts with and adds. */
  const BlankMilestone: Milestone := JourneyGraph.Milestone("", "", "", "", "Job")

  /** A milestone with its title, year and description filled in. */
  predicate Complete(m: Milestone) {
    m.milestone != "" && m.year != "" && m.description != ""
  }

  /** The milestones passed to the preview: the complete ones, in order. */
  function CompleteMilestones(ms: seq<Milestone>): (r: seq<Milestone>)
    ensures |r| <= |ms|
    ensures forall k :: 0 <= k < |r| ==> r[k] in ms && Complete(r[k])
    ensures forall k :: 0 <= k < |ms| && Complete(ms[k]) ==> ms[k] in r
    ensures r == Filter(m => Complete(m), ms)
  {
    if ms == [] then []
    else
      var rest := CompleteMilestones(ms[1..]);
      if Complete(ms[0]) then [ms[0]] + rest else rest
  }

  /** A list of complete milestones goes to the preview whole. */
  lemma {:induction false} CompleteMilestonesKeepsComplete(ms: seq<Milestone>)
    requires forall k :: 0 <= k < |ms| ==> Complete(ms[k])
    ensures CompleteMilestones(ms) == ms
  {
    if ms != [] {
      CompleteMilestonesKeepsComplete(ms[1..]);
    }
  }

  /** `userMilestones.length > 0 ? userMilestones : null`. */
  function JourneyData(ms: seq<Milestone>): (data: Option<seq<Milestone>>)
    ensures data.None? <==> forall k :: 0 <= k < |ms| ==> !Complete(ms[k])
    ensures data.Some? ==> data.value == CompleteMilestones(ms) && data.value != []
  {
    var complete := CompleteMilestones(ms);
    if |complete| > 0 then
      assert complete[0] in ms && Complete(complete[0]);
      Some(complete)
    else
      assert complete == [];
      None
  }

  /** The preview shows the entered milestones that are complete, or the sample journey when none is. */
  lemma PreviewShowsCompleteMilestones(ms: seq<Milestone>)
    ensures (exists k :: 0 <= k < |ms| && Complete(ms[k])) ==>
      JourneyGraph.DataToDisplay(JourneyData(ms)) == CompleteMilestones(ms)
    ensures (forall k :: 0 <= k < |ms| ==> !Complete(ms[k])) ==>
      JourneyGraph.DataToDisplay(JourneyData(ms)) == JourneyGraph.SampleMilestones
  {
    var data := JourneyData(ms);
    if data.Some? {
      assert JourneyGraph.DataToDisplay(data) == data.value;
    } else {
      assert JourneyGraph.DataToDisplay(data) == JourneyGraph.SampleMilestones;
    }
  }

  /** The views of the page. */
  const LoginView: string := "login"
  const StudentRegisterView: string := "student-register"
  const AlumniRegisterView: string := "alumni-register"
  const JourneyGraphView: string := "journey-graph"

  /** The page's own state: the current view and the milestones captured for the preview. */
  class LoginPageState {
    var currentView: string
    var journeyData: Option<seq<Milestone>>

    constructor ()
      ensures currentView == LoginView && journeyData.None?
    {
      currentView := LoginView;
      journeyData := None;
    }

    /** `setView`, passed down to every card. */
    method SetView(view: string)
      modifies this
      ensures currentView == view && journeyData == old(journeyData)
    {
      currentView := view;
    }
  }

  /** The alumni registration form's state, writing into the page that holds it. */
  class AlumniRegister {
    const page: LoginPageState
    var skills: seq<string>
    var milestones: seq<Milestone>

    constructor (page: LoginPageState)
      ensures this.page == page && skills == [] && milestones == [BlankMilestone]
    {
      this.page := page;
      skills := [];
      milestones := [BlankMilestone];
    }

    /** The alumni skill toggle: the same rule with no cap. */
    method ChipToggle(chip: string)
      modifies this
      ensures skills == ToggleChip(old(skills), chip, false) && milestones == old(milestones)
    {
      skills := ToggleChip(skills, chip, false);
    }

    /** `handleMilestoneChange`: only `field` of the milestone at `index` changes. */
    method MilestoneChange(index: int, field: MilestoneField, value: string)
      modifies this
      ensures |milestones| == |old(milestones)| && skills == old(skills)
      ensures forall k :: 0 <= k < |milestones| && k != index ==> milestones[k] == old(milestones)[k]
      ensures 0 <= index < |milestones| ==> milestones[index] == WithField(old(milestones)[index], field, value)
    {
      if 0 <= index < |milestones| {
        milestones := milestones[index := WithField(milestones[index], field, value)];
      }
    }

    /** `addMilestone`: a blank "Job" milestone at the end. */
    method AddMilestone()
      modifies this
      ensures milestones == old(milestones) + [BlankMilestone] && skills == old(skills)
    {
      milestones := milestones + [BlankMilestone];
    }

    /** `removeMilestone(index)`: only the milestone at `index` goes. */
    method RemoveMilestone(index: nat)
      modifies this
      ensures milestones == RemoveIndex(old(milestones), index) && skills == old(skills)
    {
      milestones := RemoveIndex(milestones, index);
    }

    /** `handleGraphGeneration`: the complete milestones, or null, and the preview view. */
    method GraphGeneration()
      modifies page
      ensures page.journeyData == JourneyData(milestones)
      ensures page.currentView == JourneyGraphView
    {
      page.journeyData := JourneyData(milestones);
      page.SetView(JourneyGraphView);
    }
  }

  /** What `renderView` draws. */
  datatype Card = LoginCard | StudentRegisterCard | AlumniRegisterCard | JourneyGraphCard(milestones: Option<seq<Milestone>>)

  /** `renderView()`: one card per known view, and the login card for any other. */
  function RenderView(currentView: string, journeyData: Option<seq<Milestone>>): (card: Card)
    ensures card == StudentRegisterCard <==> currentView == StudentRegisterView
    ensures card == AlumniRegisterCard <==> currentView == AlumniRegisterView
    ensures card.JourneyGraphCard? <==> currentView == JourneyGraphView
    ensures card.JourneyGraphCard? ==> card.milestones == journeyData
    ensures card == LoginCard <==> currentView !in {StudentRegisterView, AlumniRegisterView, JourneyGraphView}
  {
    if currentView == LoginView then LoginCard
    else if currentView == StudentRegisterView then StudentRegisterCard
    else if currentView == AlumniRegisterView then AlumniRegisterCard
    else if currentView == JourneyGraphView then JourneyGraphCard(journeyData)
    else LoginCard
  }

  /** After the preview is requested the page draws the journey of the entered complete milestones. */
  lemma GraphGenerationRendersJourney(ms: seq<Milestone>)
    ensures RenderView(JourneyGraphView, JourneyData(ms)) == JourneyGraphCard(JourneyData(ms))
  {
  }
}

=== FILE: mock_api.dfy ===
/**
 * The client-side mock verification service: fixed tables looked up by
 * identifier, email domain, institute key and student id. The timers that delay
 * each answer are left out; a rejected promise is a `Thrown` result carrying
 * the rejection's message.
 */
module MockApi {
  import opened Js

  datatype Institute = Institute(id: nat, name: string, domain: string, ssoEnabled: bool)

  /** The partner institutes, in table order. */
  const Institutes: seq<Institute> := [
    Institute(1, "NIT Delhi", "nitdelhi.ac.in", true),
    Institute(2, "IIT Bombay", "iitb.ac.in", false),
    Institute(3, "M.M. Engineering College", "mmumullana.org", true)
  ]

  /** Identifiers the mock treats as already registered. */
  const ExistingUsers: seq<string> := ["112233", "rahul@nitdelhi.ac.in", "NITD-001"]

  /** The one address accepted whatever its domain. */
  const SpecialEmail: string := "vanshika310819@gmail.com"

  /** Institute id to master key. */
  const InstituteKeys: map<string, string> := map["NITD-001" := "sk_live_nitd_8823", "MMU-2025" := "sk_live_mmu_9912"]

  const DomainRejected: string := "Domain not recognized as a partner institute."
  const CredentialsRejected: string := "Invalid Institute ID or Master Key."
  const StudentIdRejected: string := "Invalid Student ID/Roll Number."

  const TaxonomyDomains: seq<string> := ["Software Dev", "Data Science", "Product", "Core Engineering"]
  const TaxonomySkills: seq<string> := ["React", "Python", "Java", "AutoCAD", "Financial Modeling", "AWS"]

  /** `checkUserExists(identifier)`: an exact, case-sensitive match against the fixed list. */
  function CheckUserExists(identifier: string): (r: bool)
    ensures r <==> identifier == "112233" || identifier == "rahul@nitdelhi.ac.in" || identifier == "NITD-001"
  {
    identifier in ExistingUsers
  }

  /** The first institute whose domain equals the given piece, as `find` returns it. */
  function FindInstitute(domain: Option<string>, institutes: seq<Institute>): (r: Option<Institute>)
    ensures r.Some? ==> r.value in institutes && domain == Some(r.value.domain)
    ensures r.None? ==> forall i :: 0 <= i < |institutes| ==> domain != Some(institutes[i].domain)
  {
    if institutes == [] then None
    else if domain == Some(institutes[0].domain) then Some(institutes[0])
    else FindInstitute(domain, institutes[1..])
  }

  /**
   * `verifyDomain(email)`: the special address gets the third institute;
   * otherwise the piece after the first '@' must be a partner domain.
   */
  function VerifyDomain(email: string): (r: Result<Institute>)
    ensures email == SpecialEmail ==> r == Ok(Institutes[2])
    ensures r.Thrown? ==> r.message == DomainRejected
  {
    var domain := Piece(email, '@', 1);
    if email == SpecialEmail then Ok(Institutes[2])
    else match FindInstitute(domain, Institutes)
      case Some(institute) => Ok(institute)
      case None => Thrown(DomainRejected)
  }

  /** Any other address is accepted exactly when the piece after its first '@' is a partner domain, and gets that partner. */
  lemma VerifyDomainByPiece(email: string)
    requires email != SpecialEmail
    ensures VerifyDomain(email).Ok? <==> exists i :: 0 <= i < |Institutes| && Piece(email, '@', 1) == Some(Institutes[i].domain)
    ensures VerifyDomain(email).Ok? ==> VerifyDomain(email).value in Institutes && Piece(email, '@', 1) == Some(VerifyDomain(email).value.domain)
  {
  }

  /** For an address with one '@', verification succeeds exactly for the partner domains. */
  lemma VerifyDomainOfAddress(local: string, domain: string)
    requires '@' !in local && '@' !in domain && local + "@" + domain != SpecialEmail
    ensures VerifyDomain(local + "@" + domain).Ok? <==>
      domain == "nitdelhi.ac.in" || domain == "iitb.ac.in" || domain == "mmumullana.org"
  {
    VerifyDomainByPiece(local + "@" + domain);
    SplitFirst(local, '@', domain);
    SplitWithoutSep(domain, '@');
    assert local + "@" + domain == local + ['@'] + domain;
  }

  /** `verifyInstituteCredentials({instituteId, accessKey})`: the table must map the id to exactly that key. */
  function VerifyInstituteCredentials(instituteId: string, accessKey: string): (r: Result<()>)
    ensures r.Thrown? ==> r.message == CredentialsRejected
  {
    if instituteId in InstituteKeys && InstituteKeys[instituteId] == accessKey then Ok(())
    else Thrown(CredentialsRejected)
  }

  /** Exactly the two listed id and key pairs pass. */
  lemma CredentialPairs(instituteId: string, accessKey: string)
    ensures VerifyInstituteCredentials(instituteId, accessKey).Ok? <==>
      (instituteId == "NITD-001" && accessKey == "sk_live_nitd_8823")
      || (instituteId == "MMU-2025" && accessKey == "sk_live_mmu_9912")
  {
  }

  /** `verifyStudentId(studentId)`: any id of five or more characters passes. */
  function VerifyStudentId(studentId: string): (r: Result<string>)
    ensures r.Ok? <==> |studentId| >= 5
    ensures r.Ok? ==> r.value == "Student"
    ensures r.Thrown? ==> r.message == StudentIdRejected
  {
    if |studentId| >= 5 then Ok("Student") else Thrown(StudentIdRejected)
  }

  /** `login()`: always succeeds with the same token. */
  function Login(): (token: string)
    ensures token != ""
  {
    "mock-jwt-token-123"
  }

  /** `getProfileConfig(role).data.requiredFields`. */
  function RequiredFields(role: string): (fields: seq<string>)
    ensures role == "student" ==> fields == ["batch", "department", "rollNumber"]
    ensures role != "student" ==> fields == ["gradYear", "currentCompany", "designation"]
  {
    if role == "student" then ["batch", "department", "rollNumber"] else ["gradYear", "currentCompany", "designation"]
  }
}

=== FILE: ocr_service.dfy ===
/**
 * The student identity-card matcher (`verifyStudentOCR`). The recognition engine
 * itself is an oracle: for an image reference it yields the recognised text or the
 * message of the error it raised. Everything after it is pure text processing.
 */
module OcrService {
  import opened Js

  /** What the recognition engine gives for one image. */
  datatype Recognition = Recognized(text: string) | RecognitionFailed(message: string)

  /** What `verifyStudentOCR` resolves to: `{success, text}` or `{success: false, error}`. */
  datatype OcrResult = Checked(success: bool, text: string) | Errored(error: string)
  {
    predicate Succeeded() { Checked? && success }
  }

  // ---------------------------------------------------------------- clean-up

  /** `s.replace(/\s+/g, " ")`: every maximal run of whitespace becomes one space; no trimming. */
  function CollapseSpaces(s: string): (r: string)
    ensures |r| <= |s|
    ensures s != [] && !IsSpace(s[0]) ==> r != [] && r[0] == s[0]
    ensures s != [] && IsSpace(s[0]) ==> r != [] && r[0] == ' '
    decreases |s|
  {
    if s == [] then []
    else if IsSpace(s[0]) then " " + CollapseSpaces(TrimStart(s[1..]))
    else [s[0]] + CollapseSpaces(s[1..])
  }

  /** Every whitespace character is a plain space and no two whitespace characters are adjacent. */
  predicate Collapsed(s: string) {
    s == []
    || ((IsSpace(s[0]) ==> s[0] == ' ' && (|s| > 1 ==> !IsSpace(s[1]))) && Collapsed(s[1..]))
  }

  lemma {:induction false} CollapseSpacesIsCollapsed(s: string)
    ensures Collapsed(CollapseSpaces(s))
    decreases |s|
  {
    if s != [] {
      var r := CollapseSpaces(s);
      if IsSpace(s[0]) {
        var t := TrimStart(s[1..]);
        CollapseSpacesIsCollapsed(t);
        assert r[1..] == CollapseSpaces(t);
      } else {
        CollapseSpacesIsCollapsed(s[1..]);
        assert r[1..] == CollapseSpaces(s[1..]);
      }
    }
  }

  /** Text that is already collapsed is left unchanged. */
  lemma {:induction false} CollapseSpacesOfCollapsed(s: string)
    requires Collapsed(s)
    ensures CollapseSpaces(s) == s
    decreases |s|
  {
    if s != [] {
      CollapseSpacesOfCollapsed(s[1..]);
      if IsSpace(s[0]) {
        assert TrimStart(s[1..]) == s[1..];
        assert s == " " + s[1..];
      } else {
        assert s == [s[0]] + s[1..];
      }
    }
  }

  /** Collapsing keeps text free of upper-case letters. */
  lemma {:induction false} CollapseSpacesKeepsLower(s: string)
    requires IsLower(s)
    ensures IsLower(CollapseSpaces(s))
    decreases |s|
  {
    if s != [] {
      var rest := s[1..];
      LowerSuffix(s, 1);
      if IsSpace(s[0]) {
        var t := TrimStart(rest);
        LowerSuffix(rest, |rest| - |t|);
        CollapseSpacesKeepsLower(t);
        LowerCons(' ', CollapseSpaces(t));
      } else {
        CollapseSpacesKeepsLower(rest);
        LowerCons(s[0], CollapseSpaces(rest));
      }
    }
  }

  /** The text without its whitespace characters. */
  function NonSpaces(s: string): string {
    Filter((c: char) => !IsSpace(c), s)
  }

  /** Skipping leading whitespace drops no non-space character. */
  lemma {:induction false} TrimStartKeepsText(s: string)
    ensures NonSpaces(TrimStart(s)) == NonSpaces(s)
    decreases |s|
  {
    if s != [] && IsSpace(s[0]) {
      TrimStartKeepsText(s[1..]);
    }
  }

  /** Collapsing drops and keeps no non-space character: they stay as they were, in order. */
  lemma {:induction false} CollapseSpacesKeepsText(s: string)
    ensures NonSpaces(CollapseSpaces(s)) == NonSpaces(s)
    decreases |s|
  {
    if s != [] {
      var rest := s[1..];
      if IsSpace(s[0]) {
        var t := TrimStart(rest);
        CollapseSpacesKeepsText(t);
        assert (" " + CollapseSpaces(t))[1..] == CollapseSpaces(t);
        TrimStartKeepsText(rest);
      } else {
        CollapseSpacesKeepsText(rest);
        assert ([s[0]] + CollapseSpaces(rest))[1..] == CollapseSpaces(rest);
      }
    }
  }

  /** A non-empty run made only of whitespace becomes one space. */
  lemma AllSpacesCollapse(s: string)
    requires s != [] && forall i :: 0 <= i < |s| ==> IsSpace(s[i])
    ensures CollapseSpaces(s) == " "
  {
    TrimStartSkipsSpaces(s[1..]);
    assert TrimStart(s[1..]) == [];
  }

  /** Skipping leading whitespace before text that ends in a non-space leaves what follows it alone. */
  lemma {:induction false} TrimStartAppend(a: string, b: string)
    requires a != [] && !IsSpace(a[|a| - 1])
    ensures TrimStart(a + b) == TrimStart(a) + b
    decreases |a|
  {
    assert (a + b)[0] == a[0];
    if IsSpace(a[0]) {
      assert (a + b)[1..] == a[1..] + b;
      TrimStartAppend(a[1..], b);
    }
  }

  /**
   * Collapsing works run by run: a text cut after a non-space character
   * collapses as its two parts do.
   */
  lemma {:induction false} CollapseSpacesAppend(a: string, b: string)
    requires a == [] || !IsSpace(a[|a| - 1])
    ensures CollapseSpaces(a + b) == CollapseSpaces(a) + CollapseSpaces(b)
    decreases |a|, 1
  {
    if a == [] {
      assert a + b == b;
    } else if IsSpace(a[0]) {
      CollapseLeadingRun(a, b);
    } else {
      assert (a + b)[0] == a[0];
      assert (a + b)[1..] == a[1..] + b;
      CollapseSpacesAppend(a[1..], b);
    }
  }

  /** The step of CollapseSpacesAppend for text that starts with whitespace. */
  lemma {:induction false} CollapseLeadingRun(a: string, b: string)
    requires a != [] && IsSpace(a[0]) && !IsSpace(a[|a| - 1])
    ensures CollapseSpaces(a + b) == CollapseSpaces(a) + CollapseSpaces(b)
    decreases |a|, 0
  {
    var t := TrimStart(a[1..]);
    TrimStartKeepsLast(a[1..]);
    CollapseSpacesAppend(t, b);
    LeadingRunOfAppend(a, b);
    CollapseLeadingSpace(a);
    ConcatAssoc(" ", CollapseSpaces(t), CollapseSpaces(b));
  }

  /**
   * Regrouping a concatenation, stated over plain strings so that the collapse
   * lemmas regroup their results without unfolding CollapseSpaces.
   */
  lemma ConcatAssoc(x: string, y: string, z: string)
    ensures x + (y + z) == (x + y) + z
  {
  }

  /**
   * Text that starts with whitespace and ends in a non-space, followed by more
   * text: the run becomes one space, then the rest collapses.
   */
  lemma LeadingRunOfAppend(a: string, b: string)
    requires a != [] && IsSpace(a[0]) && !IsSpace(a[|a| - 1])
    ensures CollapseSpaces(a + b) == " " + CollapseSpaces(TrimStart(a[1..]) + b)
  {
    assert (a + b)[0] == a[0] && (a + b)[1..] == a[1..] + b;
    CollapseLeadingSpace(a + b);
    TrimStartAppend(a[1..], b);
  }

  /** Text that starts with whitespace collapses to one space and then the collapsed text after the run. */
  lemma CollapseLeadingSpace(s: string)
    requires s != [] && IsSpace(s[0])
    ensures CollapseSpaces(s) == " " + CollapseSpaces(TrimStart(s[1..]))
  {
  }

  /** Text that ends in a non-space keeps that last character when its leading whitespace goes. */
  lemma TrimStartKeepsLast(s: string)
    requires s != [] && !IsSpace(s[|s| - 1])
    ensures TrimStart(s) != [] && TrimStart(s)[|TrimStart(s)| - 1] == s[|s| - 1]
  {
    TrimStartSkipsSpaces(s);
  }

  lemma LowerSuffix(s: string, k: nat)
    requires IsLower(s) && k <= |s|
    ensures IsLower(s[k..])
  {
    forall i | 0 <= i < |s| - k
      ensures !IsUpper(s[k..][i])
    {
      assert s[k..][i] == s[k + i];
    }
  }

  lemma LowerCons(c: char, s: string)
    requires !IsUpper(c) && IsLower(s)
    ensures IsLower([c] + s)
  {
    forall i | 0 <= i < |s| + 1
      ensures !IsUpper(([c] + s)[i])
    {
      if i > 0 {
        assert ([c] + s)[i] == s[i - 1];
      }
    }
  }

  /** `text.toLowerCase().replace(/\s+/g, " ")`: the text the matcher searches. */
  function CleanText(text: string): (r: string)
    ensures IsLower(r) && Collapsed(r)
    ensures |r| <= |text|
  {
    var lower := ToLower(text);
    CollapseSpacesKeepsLower(lower);
    CollapseSpacesIsCollapsed(lower);
    CollapseSpaces(lower)
  }

  /** Lower-casing keeps every whitespace character and changes no other into one. */
  lemma {:induction false} NonSpacesOfLower(s: string)
    ensures NonSpaces(ToLower(s)) == ToLower(NonSpaces(s))
    decreases |s|
  {
    if s != [] {
      var l := ToLower(s);
      assert l[1..] == ToLower(s[1..]);
      NonSpacesOfLower(s[1..]);
      LowerCharSpace(s[0]);
      if !IsSpace(s[0]) {
        ToLowerCons(s[0], NonSpaces(s[1..]));
      }
    }
  }

  lemma LowerCharSpace(c: char)
    ensures IsSpace(LowerChar(c)) <==> IsSpace(c)
  {
  }

  lemma ToLowerCons(c: char, s: string)
    ensures ToLower([c] + s) == [LowerChar(c)] + ToLower(s)
  {
    assert ToLower([c] + s)[1..] == ToLower(s);
  }

  /** The cleaned text's non-space characters are the text's own, lower-cased and in order. */
  lemma CleanTextKeepsText(text: string)
    ensures NonSpaces(CleanText(text)) == ToLower(NonSpaces(text))
  {
    CollapseSpacesKeepsText(ToLower(text));
    NonSpacesOfLower(text);
  }

  /** Cleaning the text a second time changes nothing. */
  lemma CleanTextIdempotent(text: string)
    ensures CleanText(CleanText(text)) == CleanText(text)
  {
    var c := CleanText(text);
    ToLowerOfLower(c);
    CollapseSpacesOfCollapsed(c);
  }

  // ---------------------------------------------------------------- matching

  /** `studentName.toLowerCase().split(" ")`. */
  function NameParts(studentName: string): (parts: seq<string>)
    ensures |parts| >= 1
  {
    Split(ToLower(studentName), ' ')
  }

  /** `parts.some(part => text.includes(part))`. */
  predicate SomeIncluded(text: string, parts: seq<string>) {
    parts != [] && (Includes(text, parts[0]) || SomeIncluded(text, parts[1..]))
  }

  lemma {:induction false} SomeIncludedIff(text: string, parts: seq<string>)
    ensures SomeIncluded(text, parts) <==> exists k :: 0 <= k < |parts| && Includes(text, parts[k])
  {
    if parts != [] {
      SomeIncludedIff(text, parts[1..]);
      if exists k :: 0 <= k < |parts| && Includes(text, parts[k]) {
        var k :| 0 <= k < |parts| && Includes(text, parts[k]);
        if k > 0 { assert parts[1..][k - 1] == parts[k]; }
      }
      if SomeIncluded(text, parts[1..]) {
        var k :| 0 <= k < |parts[1..]| && Includes(text, parts[1..][k]);
        assert parts[k + 1] == parts[1..][k];
      }
    }
  }

  /** The roll-number check: the lower-cased roll number occurs in the cleaned text. */
  predicate RollMatches(extracted: string, rollNumber: string): (r: bool)
    ensures r <==> exists i :: OccursAt(extracted, ToLower(rollNumber), i)
  {
    IncludesIffOccurs(extracted, ToLower(rollNumber));
    Includes(extracted, ToLower(rollNumber))
  }

  /** The name check: some space-separated part of the lower-cased name occurs in the cleaned text. */
  predicate NameMatches(extracted: string, studentName: string): (r: bool)
    ensures r <==> exists k :: 0 <= k < |NameParts(studentName)| && Includes(extracted, NameParts(studentName)[k])
  {
    SomeIncludedIff(extracted, NameParts(studentName));
    SomeIncluded(extracted, NameParts(studentName))
  }

  /**
   * `verifyStudentOCR(imageUrl, studentName, rollNumber)`, with the recognition
   * engine given as `recognize`.
   */
  function VerifyStudentOcr(recognize: string -> Recognition, imageUrl: string,
                            studentName: string, rollNumber: string): (r: OcrResult)
    ensures recognize(imageUrl).RecognitionFailed? ==> r == Errored(recognize(imageUrl).message)
    ensures recognize(imageUrl).Recognized? ==> r.Checked? && r.text == CleanText(recognize(imageUrl).text)
  {
    match recognize(imageUrl)
    case RecognitionFailed(message) => Errored(message)
    case Recognized(text) =>
      var extracted := CleanText(text);
      Checked(RollMatches(extracted, rollNumber) && NameMatches(extracted, studentName), extracted)
  }

  // ---------------------------------------------------------------- properties

  /**
   * The matcher succeeds exactly when recognition succeeds, the lower-cased roll
   * number occurs somewhere in the cleaned text, and some part of the lower-cased
   * name occurs somewhere in it; in every recognised case the cleaned text is returned.
   */
  lemma OcrOutcome(recognize: string -> Recognition, imageUrl: string, studentName: string, rollNumber: string)
    ensures var r := VerifyStudentOcr(recognize, imageUrl, studentName, rollNumber);
      match recognize(imageUrl)
      case RecognitionFailed(message) => r == Errored(message) && !r.Succeeded()
      case Recognized(text) =>
        var extracted := CleanText(text);
        r.Checked? && r.text == extracted
        && (r.success <==>
              (exists i :: OccursAt(extracted, ToLower(rollNumber), i))
              && (exists k, j :: 0 <= k < |NameParts(studentName)| && OccursAt(extracted, NameParts(studentName)[k], j)))
  {
    match recognize(imageUrl)
    case RecognitionFailed(_) =>
    case Recognized(text) =>
      var extracted := CleanText(text);
      var parts := NameParts(studentName);
      IncludesIffOccurs(extracted, ToLower(rollNumber));
      SomeIncludedIff(extracted, parts);
      forall k | 0 <= k < |parts| { IncludesIffOccurs(extracted, parts[k]); }
  }

  /** A run of two separators gives an empty piece after the first one. */
  lemma {:induction false} DoubleSeparatorGivesEmptyPiece(s: string, sep: char, i: nat)
    requires i + 1 < |s| && s[i] == sep && s[i + 1] == sep
    ensures "" in Split(s, sep)[1..]
  {
    var rest := Split(s[1..], sep);
    if s[0] == sep {
      assert Split(s, sep)[1..] == rest;
      if i == 0 {
        assert s[1..][0] == sep;
        assert rest == [""] + Split(s[1..][1..], sep);
      } else {
        DoubleSeparatorGivesEmptyPiece(s[1..], sep, i - 1);
      }
    } else {
      DoubleSeparatorGivesEmptyPiece(s[1..], sep, i - 1);
      assert Split(s, sep)[1..] == rest[1..];
    }
  }

  /** A name with two consecutive spaces passes the name check against any text at all. */
  lemma DoubleSpaceNameMatchesAnyText(studentName: string, i: nat, extracted: string)
    requires i + 1 < |studentName| && studentName[i] == ' ' && studentName[i + 1] == ' '
    ensures NameMatches(extracted, studentName)
  {
    var lower := ToLower(studentName);
    DoubleSeparatorGivesEmptyPiece(lower, ' ', i);
    var parts := NameParts(studentName);
    var k :| 0 <= k < |parts[1..]| && parts[1..][k] == "";
    IncludesEmpty(extracted);
    assert Includes(extracted, parts[k + 1]);
    SomeIncludedIff(extracted, parts);
  }

  /**
   * There is no word-boundary check: a roll number also matches inside a longer
   * number printed on the card.
   */
  lemma RollMatchesInsideLongerNumber(rollNumber: string, pre: string, post: string)
    ensures RollMatches(CleanText(pre) + ToLower(rollNumber) + CleanText(post), rollNumber)
  {
    IncludesInfix(CleanText(pre), ToLower(rollNumber), CleanText(post));
  }

  /** An empty roll number is included in every text, so it never fails the roll check. */
  lemma EmptyRollNumberAlwaysMatches(extracted: string)
    ensures RollMatches(extracted, "")
  {
    IncludesEmpty(extracted);
  }
}

=== FILE: quick_profile.dfy ===
/**
 * The quick profile builder: the accordion's open panel, the skill tags
 * (typed with Enter, clicked from suggestions, removed by value) and the
 * three privacy switches.
 */
module QuickProfile {
  import opened Js

  const InitialTags: seq<string> := ["React", "Design"]

  /** The suggestion buttons under the tag input. */
  const Suggestions: seq<string> := ["Python", "Machine Learning", "AWS", "Figma"]

  /** The privacy switches. */
  datatype Privacy = Privacy(resume: bool, messages: bool, salary: bool)

  const InitialPrivacy: Privacy := Privacy(true, true, false)

  datatype PrivacyKey = Resume | Messages | Salary

  /** The switch's current position. */
  function Setting(p: Privacy, key: PrivacyKey): bool {
    match key
    case Resume => p.resume
    case Messages => p.messages
    case Salary => p.salary
  }

  /** `{ ...privacy, [key]: v }`: only that switch moves. */
  function WithSetting(p: Privacy, key: PrivacyKey, v: bool): (q: Privacy)
    ensures Setting(q, key) == v
    ensures forall other :: other != key ==> Setting(q, other) == Setting(p, other)
  {
    match key
    case Resume => p.(resume := v)
    case Messages => p.(messages := v)
    case Salary => p.(salary := v)
  }

  /** Flipping a switch twice puts it back; flipping it once moves only that switch. */
  lemma FlipTwiceRestores(p: Privacy, key: PrivacyKey)
    ensures var q := WithSetting(p, key, !Setting(p, key)); WithSetting(q, key, !Setting(q, key)) == p
  {
  }

  /** Removing a tag undoes every click that appended it, whether or not it was there before. */
  lemma {:induction false} RemoveUndoesAppends(tags: seq<string>, tag: string, clicks: nat)
    ensures RemoveAll(tags + Repeat(tag, clicks), tag) == RemoveAll(tags, tag)
  {
    RemoveAllAppend(tags, Repeat(tag, clicks), tag);
    RemoveAllRepeat(tag, clicks);
  }

  /** `clicks` copies of `tag`. */
  function Repeat(tag: string, clicks: nat): (r: seq<string>)
    ensures |r| == clicks && forall k :: 0 <= k < clicks ==> r[k] == tag
  {
    if clicks == 0 then [] else [tag] + Repeat(tag, clicks - 1)
  }

  lemma {:induction false} RemoveAllRepeat(tag: string, clicks: nat)
    ensures RemoveAll(Repeat(tag, clicks), tag) == []
  {
    if clicks > 0 {
      RemoveAllRepeat(tag, clicks - 1);
    }
  }

  /** The builder's state. */
  class ProfileBuilder {
    var activePanel: int
    var tags: seq<string>
    var currTag: string
    var privacy: Privacy

    constructor ()
      ensures activePanel == 0 && tags == InitialTags && currTag == "" && privacy == InitialPrivacy
    {
      activePanel := 0;
      tags := InitialTags;
      currTag := "";
      privacy := InitialPrivacy;
    }

    /** A panel header or a "Next Step" button: that panel opens and every other closes. */
    method SetActivePanel(panel: int)
      modifies this
      ensures activePanel == panel
      ensures tags == old(tags) && currTag == old(currTag) && privacy == old(privacy)
    {
      activePanel := panel;
    }

    /** Typing in the tag input. */
    method SetCurrTag(text: string)
      modifies this
      ensures currTag == text
      ensures tags == old(tags) && privacy == old(privacy) && activePanel == old(activePanel)
    {
      currTag := text;
    }

    /**
     * `handleAddTag`: Enter with some text appends the text as typed and
     * clears the input; any other key, or Enter on an empty input, changes
     * nothing.
     */
    method AddTag(key: string)
      modifies this
      ensures key == "Enter" && old(currTag) != "" ==> tags == old(tags) + [old(currTag)] && currTag == ""
      ensures !(key == "Enter" && old(currTag) != "") ==> tags == old(tags) && currTag == old(currTag)
      ensures privacy == old(privacy) && activePanel == old(activePanel)
    {
      if key == "Enter" && currTag != "" {
        tags := tags + [currTag];
        currTag := "";
      }
    }

    /** A tag's remove button: every tag equal to it goes. */
    method RemoveTag(tag: string)
      modifies this
      ensures tags == RemoveAll(old(tags), tag)
      ensures currTag == old(currTag) && privacy == old(privacy) && activePanel == old(activePanel)
    {
      tags := RemoveAll(tags, tag);
    }

    /** A suggestion button: the tag is appended even when it is already there. */
    method Suggest(suggestion: string)
      modifies this
      ensures tags == old(tags) + [suggestion]
      ensures currTag == old(currTag) && privacy == old(privacy) && activePanel == old(activePanel)
    {
      tags := tags + [suggestion];
    }

    /** A privacy switch: `onChange(!checked)` sets only its own key. */
    method TogglePrivacy(key: PrivacyKey)
      modifies this
      ensures privacy == WithSetting(old(privacy), key, !Setting(old(privacy), key))
      ensures tags == old(tags) && currTag == old(currTag) && activePanel == old(activePanel)
    {
      privacy := WithSetting(privacy, key, !Setting(privacy, key));
    }
  }
}

=== FILE: stable_sort.dfy ===
/**
 * `Array.prototype.sort` with a numeric comparator `(a, b) => key(a) - key(b)`.
 * The sort is stable, and a NaN difference (a key that is not a number)
 * counts as "equal". It is modelled as the insertion sort that takes each
 * element in turn and moves it left past the entries that compare greater.
 * For a comparator that is consistent, any stable sort gives this result.
 */
module StableSort {
  import opened Js

  /** A sort key: a number, or None for NaN. */
  type Key<!T> = T -> Option<int>

  /** The sort's reading of the comparator: the difference of the keys, and "equal" when either is NaN. */
  function Compare<T>(key: Key<T>, a: T, b: T): (c: int)
    ensures key(a).Some? && key(b).Some? ==> (c <= 0 <==> key(a).value <= key(b).value)
    ensures key(a).None? || key(b).None? ==> c == 0
  {
    if key(a).Some? && key(b).Some? then key(a).value - key(b).value else 0
  }

  /** Every key is a number and the keys never decrease. */
  predicate SortedBy<T>(key: Key<T>, s: seq<T>) {
    (forall k :: 0 <= k < |s| ==> key(s[k]).Some?)
    && forall i, j :: 0 <= i < j < |s| ==> key(s[i]).value <= key(s[j]).value
  }

  /** Where `x` lands when moved left past every trailing entry that compares greater. */
  function InsertPos<T>(key: Key<T>, s: seq<T>, x: T): (p: nat)
    ensures p <= |s|
  {
    if s == [] then 0
    else if Compare(key, s[|s| - 1], x) > 0 then InsertPos(key, s[..|s| - 1], x)
    else |s|
  }

  /** Every entry after the insertion point compares greater than `x`; the one just before it does not. */
  lemma {:induction false} InsertPosBounds<T>(key: Key<T>, s: seq<T>, x: T)
    ensures forall i :: InsertPos(key, s, x) <= i < |s| ==> Compare(key, s[i], x) > 0
    ensures InsertPos(key, s, x) > 0 ==> Compare(key, s[InsertPos(key, s, x) - 1], x) <= 0
  {
    if s != [] && Compare(key, s[|s| - 1], x) > 0 {
      var prefix := s[..|s| - 1];
      InsertPosBounds(key, prefix, x);
      assert forall i :: 0 <= i < |prefix| ==> prefix[i] == s[i];
    }
  }

  /** `x` placed at index `p`, the rest in their order. */
  function InsertAt<T>(s: seq<T>, p: nat, x: T): (r: seq<T>)
    requires p <= |s|
    ensures |r| == |s| + 1
  {
    s[..p] + [x] + s[p..]
  }

  /** The entries before `p` stay put, `x` sits at `p`, and the rest move up one. */
  lemma InsertAtLayout<T>(s: seq<T>, p: nat, x: T)
    requires p <= |s|
    ensures forall i :: 0 <= i < p ==> InsertAt(s, p, x)[i] == s[i]
    ensures InsertAt(s, p, x)[p] == x
    ensures forall i :: p < i <= |s| ==> InsertAt(s, p, x)[i] == s[i - 1]
  {
  }

  /** One insertion step: `x` goes in at `InsertPos`. */
  function Insert<T>(key: Key<T>, s: seq<T>, x: T): (r: seq<T>)
    ensures |r| == |s| + 1
  {
    InsertAt(s, InsertPos(key, s, x), x)
  }

  /** An insertion adds exactly `x`. */
  lemma InsertPermutes<T>(key: Key<T>, s: seq<T>, x: T)
    ensures multiset(Insert(key, s, x)) == multiset(s) + multiset{x}
  {
    var p := InsertPos(key, s, x);
    assert Insert(key, s, x) == s[..p] + [x] + s[p..];
    assert s == s[..p] + s[p..];
  }

  /** The stable sort: each element in turn is inserted into the sorted prefix before it. */
  function SortBy<T>(key: Key<T>, s: seq<T>): (r: seq<T>)
    ensures |r| == |s|
  {
    if s == [] then []
    else Insert(key, SortBy(key, s[..|s| - 1]), s[|s| - 1])
  }

  /** Sorting is a permutation. */
  lemma {:induction false} SortByPermutes<T>(key: Key<T>, s: seq<T>)
    ensures multiset(SortBy(key, s)) == multiset(s)
  {
    if s != [] {
      var prefix, last := s[..|s| - 1], s[|s| - 1];
      var sorted := SortBy(key, prefix);
      SortByPermutes(key, prefix);
      InsertPermutes(key, sorted, last);
      assert SortBy(key, s) == Insert(key, sorted, last);
      assert s == prefix + [last];
      assert multiset(s) == multiset(prefix) + multiset{last};
    }
  }

  /** When every key is a number, the sort's result is sorted. */
  lemma {:induction false} SortByIsSorted<T>(key: Key<T>, s: seq<T>)
    requires forall k :: 0 <= k < |s| ==> key(s[k]).Some?
    ensures SortedBy(key, SortBy(key, s))
  {
    if s != [] {
      var prefix := s[..|s| - 1];
      assert forall k :: 0 <= k < |prefix| ==> prefix[k] == s[k];
      SortByIsSorted(key, prefix);
      InsertKeepsSorted(key, SortBy(key, prefix), s[|s| - 1]);
    }
  }

  /**
   * In a sorted list, the insertion point of an element with a numeric key
   * follows every entry with a smaller or equal key and precedes every
   * greater one.
   */
  lemma InsertAfterEqualKeys<T>(key: Key<T>, s: seq<T>, x: T)
    requires SortedBy(key, s) && key(x).Some?
    ensures forall i :: 0 <= i < InsertPos(key, s, x) ==> key(s[i]).value <= key(x).value
    ensures forall i :: InsertPos(key, s, x) <= i < |s| ==> key(s[i]).value > key(x).value
  {
    InsertPosBounds(key, s, x);
    var p := InsertPos(key, s, x);
    if p > 0 {
      assert key(s[p - 1]).value <= key(x).value;
      forall i | 0 <= i < p
        ensures key(s[i]).value <= key(x).value
      {
        if i < p - 1 {
          assert key(s[i]).value <= key(s[p - 1]).value;
        }
      }
    }
  }

  /** Inserting an element with a numeric key into a sorted list keeps it sorted. */
  lemma InsertKeepsSorted<T>(key: Key<T>, s: seq<T>, x: T)
    requires SortedBy(key, s) && key(x).Some?
    ensures SortedBy(key, Insert(key, s, x))
  {
    InsertAfterEqualKeys(key, s, x);
    var p := InsertPos(key, s, x);
    InsertAtLayout(s, p, x);
    var r := Insert(key, s, x);
    forall k | 0 <= k < |r|
      ensures key(r[k]).Some?
    {
      if k > p {
        assert r[k] == s[k - 1];
      }
    }
    forall i, j | 0 <= i < j < |r|
      ensures key(r[i]).value <= key(r[j]).value
    {
      if j < p {
        assert r[i] == s[i] && r[j] == s[j];
      } else if j == p {
        assert r[i] == s[i];
      } else if i < p {
        assert r[i] == s[i] && r[j] == s[j - 1];
      } else if i == p {
        assert r[j] == s[j - 1];
      } else {
        assert r[i] == s[i - 1] && r[j] == s[j - 1];
      }
    }
  }

  /** The entries whose key is the number `v`, in their order. */
  function WithKey<T>(key: Key<T>, v: int, s: seq<T>): seq<T> {
    Filter((y: T) => key(y) == Some(v), s)
  }

  /** No entry of a list whose keys all exceed `v` has key `v`. */
  lemma {:induction false} WithKeyOfGreater<T>(key: Key<T>, v: int, s: seq<T>)
    requires forall i :: 0 <= i < |s| ==> key(s[i]).Some? && key(s[i]).value > v
    ensures WithKey(key, v, s) == []
  {
    if s != [] {
      WithKeyOfGreater(key, v, s[1..]);
    }
  }

  /** Picking the entries with one key distributes over a concatenation. */
  lemma WithKeyAppend<T>(key: Key<T>, v: int, a: seq<T>, b: seq<T>)
    ensures WithKey(key, v, a + b) == WithKey(key, v, a) + WithKey(key, v, b)
  {
    FilterAppend((y: T) => key(y) == Some(v), a, b);
  }

  /**
   * Moving `x` in front of a run of entries whose keys all exceed its own
   * changes the order of no two entries with the same key.
   */
  lemma KeyOrderAroundGreater<T>(key: Key<T>, v: int, before: seq<T>, x: T, after: seq<T>)
    requires key(x).Some?
    requires forall i :: 0 <= i < |after| ==> key(after[i]).Some? && key(after[i]).value > key(x).value
    ensures WithKey(key, v, before + [x] + after) == WithKey(key, v, before + after + [x])
  {
    WithKeyAppend(key, v, before + [x], after);
    WithKeyAppend(key, v, before, [x]);
    WithKeyAppend(key, v, before + after, [x]);
    WithKeyAppend(key, v, before, after);
    if key(x) == Some(v) {
      WithKeyOfGreater(key, v, after);
    }
  }

  /**
   * Inserting into a sorted list keeps, for every key, the entries with that
   * key in their order, with `x` after those it joins.
   */
  lemma InsertKeepsKeyOrder<T>(key: Key<T>, s: seq<T>, x: T, v: int)
    requires SortedBy(key, s) && key(x).Some?
    ensures WithKey(key, v, Insert(key, s, x)) == WithKey(key, v, s + [x])
  {
    var p := InsertPos(key, s, x);
    InsertAfterEqualKeys(key, s, x);
    var before, after := s[..p], s[p..];
    assert forall i :: 0 <= i < |after| ==> after[i] == s[p + i];
    KeyOrderAroundGreater(key, v, before, x, after);
    assert Insert(key, s, x) == before + [x] + after;
    assert before + after == s;
  }

  /**
   * The sort is stable: when every key is a number, the entries with any one
   * key come out in the order they went in.
   */
  lemma {:induction false} SortByStable<T>(key: Key<T>, s: seq<T>, v: int)
    requires forall k :: 0 <= k < |s| ==> key(s[k]).Some?
    ensures WithKey(key, v, SortBy(key, s)) == WithKey(key, v, s)
  {
    if s != [] {
      var prefix, last := s[..|s| - 1], s[|s| - 1];
      assert forall k :: 0 <= k < |prefix| ==> prefix[k] == s[k];
      var sorted := SortBy(key, prefix);
      SortByStable(key, prefix, v);
      SortByIsSorted(key, prefix);
      InsertKeepsKeyOrder(key, sorted, last, v);
      WithKeyAppend(key, v, sorted, [last]);
      WithKeySnoc(key, v, s);
    }
  }

  lemma WithKeySnoc<T>(key: Key<T>, v: int, s: seq<T>)
    requires s != []
    ensures WithKey(key, v, s) == WithKey(key, v, s[..|s| - 1]) + WithKey(key, v, [s[|s| - 1]])
  {
    assert s[..|s| - 1] + [s[|s| - 1]] == s;
    WithKeyAppend(key, v, s[..|s| - 1], [s[|s| - 1]]);
  }

  /** Sorting a sorted list leaves it as it is: equal keys keep their order. */
  lemma {:induction false} SortSortedIsIdentity<T>(key: Key<T>, s: seq<T>)
    requires SortedBy(key, s)
    ensures SortBy(key, s) == s
  {
    if s != [] {
      var prefix := s[..|s| - 1];
      var last := s[|s| - 1];
      assert SortedBy(key, prefix);
      SortSortedIsIdentity(key, prefix);
      if prefix != [] {
        assert Compare(key, prefix[|prefix| - 1], last) <= 0;
      }
      assert InsertPos(key, prefix, last) == |prefix|;
      assert Insert(key, prefix, last) == prefix + [last];
      assert prefix + [last] == s;
    }
  }

  /** Sorting a sorted list with one element appended is inserting that element. */
  lemma SortAfterAppend<T>(key: Key<T>, s: seq<T>, x: T)
    requires SortedBy(key, s)
    ensures SortBy(key, s + [x]) == Insert(key, s, x)
  {
    assert (s + [x])[..|s|] == s;
    SortSortedIsIdentity(key, s);
  }

  /** Five elements whose keys are numbers in non-decreasing order are sorted. */
  lemma SortedFive<T>(key: Key<T>, a: T, b: T, c: T, d: T, e: T)
    requires key(a).Some? && key(b).Some? && key(c).Some? && key(d).Some? && key(e).Some?
    requires key(a).value <= key(b).value <= key(c).value <= key(d).value <= key(e).value
    ensures SortedBy(key, [a, b, c, d, e])
  {
    var s := [a, b, c, d, e];
    var keys := [key(a).value, key(b).value, key(c).value, key(d).value, key(e).value];
    SortedFromKeys(key, s, keys);
  }

  /** A list whose keys are a non-decreasing list of numbers is sorted. */
  lemma SortedFromKeys<T>(key: Key<T>, s: seq<T>, keys: seq<int>)
    requires |keys| == |s|
    requires forall k :: 0 <= k < |s| ==> key(s[k]) == Some(keys[k])
    requires forall k :: 0 < k < |keys| ==> keys[k - 1] <= keys[k]
    ensures SortedBy(key, s)
  {
    forall i, j | 0 <= i < j < |s|
      ensures keys[i] <= keys[j]
    {
      NonDecreasing(keys, i, j);
    }
  }

  lemma {:induction false} NonDecreasing(keys: seq<int>, i: nat, j: nat)
    requires i <= j < |keys|
    requires forall k :: 0 < k < |keys| ==> keys[k - 1] <= keys[k]
    ensures keys[i] <= keys[j]
  {
    if i < j {
      NonDecreasing(keys, i, j - 1);
    }
  }
}

=== FILE: student_explorer.dfy ===
/**
 * The alumni's student directory: the four filters over the fixed student
 * list, the readiness statistics of the filtered list, the colour bucket of a
 * readiness score, and the page state the filter controls change.
 */
module StudentExplorer {
  import opened Js

  datatype Student = Student(id: nat, name: string, branch: string, year: string, readiness: int, skills: seq<string>)

  /** The directory's students. */
  const StudentsData: seq<Student> := [
    Student(1, "Arjun Mehta", "CSE", "3rd", 88, ["React", "Node.js", "AWS"]),
    Student(2, "Sara Ali", "ECE", "4th", 94, ["Python", "ML", "PyTorch", "OpenCV"]),
    Student(3, "Dev Patel", "CSE", "2nd", 20, ["C++ Basics"]),
    Student(4, "Kavya S.", "Mech", "4th", 65, ["AutoCAD", "Python", "Robotics"]),
    Student(5, "Rohan Gupta", "CSE", "4th", 45, ["Java", "SQL"]),
    Student(6, "Priya Sharma", "Civil", "3rd", 15, ["Revit"])
  ]

  /** The choices the year radio buttons and the department select offer. */
  const YearOptions: seq<string> := ["All", "1st", "2nd", "3rd", "4th"]
  const BranchOptions: seq<string> := ["All Branches", "Computer Science (CSE)", "Electronics (ECE)", "Mechanical", "Civil"]

  datatype Filters = Filters(year: string, branch: string, minReadiness: int)

  const DefaultFilters: Filters := Filters("All", "All Branches", 0)

  /** `s.replace(p, "")` for a non-empty pattern: the first occurrence is removed. */
  function RemoveFirst(s: string, p: string): (r: string)
    requires p != []
    ensures !Includes(s, p) ==> r == s
    decreases |s|
  {
    if StartsWith(s, p) then s[|p|..]
    else if s == [] then []
    else [s[0]] + RemoveFirst(s[1..], p)
  }

  /**
   * When the pattern first occurs at `i`, `replace` cuts out exactly that
   * occurrence and keeps the text on both sides.
   */
  lemma {:induction false} RemoveFirstOccurrence(s: string, p: string, i: nat)
    requires p != [] && OccursAt(s, p, i)
    requires forall j :: 0 <= j < i ==> !OccursAt(s, p, j)
    ensures RemoveFirst(s, p) == s[..i] + s[i + |p|..]
    decreases i
  {
    if i == 0 {
      assert StartsWith(s, p);
    } else {
      assert !OccursAt(s, p, 0);
      var t := s[1..];
      assert t[i - 1..i - 1 + |p|] == s[i..i + |p|];
      forall j | 0 <= j < i - 1
        ensures !OccursAt(t, p, j)
      {
        ShiftedOccurrence(s, p, j);
      }
      RemoveFirstOccurrence(t, p, i - 1);
      assert s[..i] == [s[0]] + t[..i - 1];
      assert s[i + |p|..] == t[i - 1 + |p|..];
    }
  }

  /** An occurrence in the text after its first character is an occurrence one place later in the text. */
  lemma ShiftedOccurrence(s: string, p: string, j: nat)
    requires s != []
    ensures OccursAt(s[1..], p, j) ==> OccursAt(s, p, j + 1)
  {
    if OccursAt(s[1..], p, j) {
      assert s[1..][j..j + |p|] == s[j + 1..j + 1 + |p|];
    }
  }

  /** A year label ending in " Year" loses that suffix: "3rd Year" becomes "3rd". */
  lemma YearSuffixRemoved()
    ensures RemoveFirst("3rd Year", " Year") == "3rd"
  {
    var s := "3rd Year";
    assert OccursAt(s, " Year", 3);
    forall j | 0 <= j < 3
      ensures !OccursAt(s, " Year", j)
    {
      assert s[j + 1] != 'Y';
    }
    RemoveFirstOccurrence(s, " Year", 3);
  }

  /** Some skill contains the text. */
  predicate SomeSkillIncludes(skills: seq<string>, term: string) {
    exists k :: 0 <= k < |skills| && Includes(ToLower(skills[k]), term)
  }

  predicate MatchesSearch(s: Student, searchTerm: string) {
    var term := ToLower(searchTerm);
    Includes(ToLower(s.name), term) || SomeSkillIncludes(s.skills, term)
  }

  predicate MatchesYear(s: Student, year: string) {
    year == "All" || s.year == RemoveFirst(year, " Year")
  }

  /** The branch test compares the student's branch with the first word of the selected option. */
  predicate MatchesBranch(s: Student, branch: string) {
    branch == "All Branches" || s.branch == Split(branch, ' ')[0]
  }

  predicate Passes(s: Student, searchTerm: string, f: Filters) {
    MatchesSearch(s, searchTerm) && MatchesYear(s, f.year) && MatchesBranch(s, f.branch) && s.readiness >= f.minReadiness
  }

  /** `studentsData.filter(...)`: the students passing all four tests, in their original order. */
  function FilterStudents(students: seq<Student>, searchTerm: string, f: Filters): (r: seq<Student>)
    ensures |r| <= |students|
    ensures forall k :: 0 <= k < |r| ==> r[k] in students && Passes(r[k], searchTerm, f)
    ensures forall s :: s in students && Passes(s, searchTerm, f) ==> s in r
  {
    Filter(s => Passes(s, searchTerm, f), students)
  }

  /** Filtering keeps order: the result of a concatenation is the concatenation of the results. */
  lemma FilterStudentsAppend(a: seq<Student>, b: seq<Student>, searchTerm: string, f: Filters)
    ensures FilterStudents(a + b, searchTerm, f) == FilterStudents(a, searchTerm, f) + FilterStudents(b, searchTerm, f)
  {
    FilterAppend(s => Passes(s, searchTerm, f), a, b);
  }

  /** An empty search term passes every student. */
  lemma EmptySearchPassesAll(s: Student)
    ensures MatchesSearch(s, "")
  {
    IncludesEmpty(ToLower(s.name));
  }

  /** A department option of several words selects the students whose branch is its first word. */
  lemma BranchMatchesFirstWord(s: Student, word: string, rest: string)
    requires ' ' !in word && word + [' '] + rest != "All Branches"
    ensures MatchesBranch(s, word + [' '] + rest) <==> s.branch == word
  {
    SplitFirst(word, ' ', rest);
  }

  /** The option "Computer Science (CSE)" selects the branch "Computer", which no listed student has. */
  lemma CseOptionFirstWord()
    ensures Split("Computer Science (CSE)", ' ')[0] == "Computer"
  {
    assert "Computer Science (CSE)" == "Computer" + [' '] + "Science (CSE)";
    SplitFirst("Computer", ' ', "Science (CSE)");
  }

  /** A selected department whose first word is no student's branch lists nobody. */
  lemma {:induction false} NoBranchNoneListed(students: seq<Student>, searchTerm: string, f: Filters)
    requires f.branch != "All Branches"
    requires forall k :: 0 <= k < |students| ==> students[k].branch != Split(f.branch, ' ')[0]
    ensures FilterStudents(students, searchTerm, f) == []
  {
    if students != [] {
      NoBranchNoneListed(students[1..], searchTerm, f);
    }
  }

  /** No listed student's branch is "Computer". */
  lemma NoComputerBranch()
    ensures forall k :: 0 <= k < |StudentsData| ==> StudentsData[k].branch != "Computer"
  {
  }

  /** Selecting "Computer Science (CSE)" lists nobody, whatever the other filters. */
  lemma CseOptionListsNobody(searchTerm: string, year: string, minReadiness: int)
    ensures FilterStudents(StudentsData, searchTerm, Filters(year, "Computer Science (CSE)", minReadiness)) == []
  {
    CseOptionFirstWord();
    NoComputerBranch();
    NoBranchNoneListed(StudentsData, searchTerm, Filters(year, "Computer Science (CSE)", minReadiness));
  }

  function SumReadiness(students: seq<Student>): int {
    if students == [] then 0 else students[0].readiness + SumReadiness(students[1..])
  }

  /** `Math.round(sum / n)` for a positive count: the nearest integer, halves rounded up. */
  function Round(sum: int, n: int): (r: int)
    requires n > 0
    ensures 2 * n * r - n <= 2 * sum < 2 * n * r + n
  {
    var r := (2 * sum + n) / (2 * n);
    assert 2 * n * r <= 2 * sum + n < 2 * n * r + 2 * n;
    r
  }

  /** `Math.round(sum / (length || 1))`: an empty list averages to 0. */
  function AverageReadiness(students: seq<Student>): (avg: int)
    ensures students == [] ==> avg == 0
    ensures students != [] ==> 2 * |students| * avg - |students| <= 2 * SumReadiness(students) < 2 * |students| * avg + |students|
  {
    Round(SumReadiness(students), if |students| == 0 then 1 else |students|)
  }

  /** The rounded average lies between the lowest and highest score. */
  lemma {:induction false} AverageWithinScores(students: seq<Student>, lo: int, hi: int)
    requires students != []
    requires forall k :: 0 <= k < |students| ==> lo <= students[k].readiness <= hi
    ensures lo <= AverageReadiness(students) <= hi
  {
    SumBounds(students, lo, hi);
    RoundedBetween(|students|, SumReadiness(students), AverageReadiness(students), lo, hi);
  }

  /** A rounded quotient lies between bounds that the unrounded one lies between. */
  lemma RoundedBetween(n: int, s: int, avg: int, lo: int, hi: int)
    requires n > 0 && n * lo <= s <= n * hi
    requires 2 * n * avg - n <= 2 * s < 2 * n * avg + n
    ensures lo <= avg <= hi
  {
    if avg < lo {
      MulMono(n, avg + 1, lo);
    }
    if avg > hi {
      MulMono(n, hi + 1, avg);
    }
  }

  lemma MulMono(n: int, a: int, b: int)
    requires n >= 0 && a <= b
    ensures n * a <= n * b
  {
    assert n * b - n * a == n * (b - a);
  }

  lemma {:induction false} SumBounds(students: seq<Student>, lo: int, hi: int)
    requires forall k :: 0 <= k < |students| ==> lo <= students[k].readiness <= hi
    ensures |students| * lo <= SumReadiness(students) <= |students| * hi
  {
    if students != [] {
      SumBounds(students[1..], lo, hi);
    }
  }

  /** A student counted as top talent. */
  predicate IsTopTalent(s: Student) { s.readiness > 75 }

  /** `filter(s => s.readiness > 75).length`. */
  function TopTalentCount(students: seq<Student>): (n: nat)
    ensures n <= |students|
    ensures n == |students| ==> forall k :: 0 <= k < |students| ==> students[k].readiness > 75
    ensures n == |Filter(s => IsTopTalent(s), students)|
  {
    if students == [] then 0
    else (if students[0].readiness > 75 then 1 else 0) + TopTalentCount(students[1..])
  }

  datatype Bucket = Green | Orange | Blue

  /** `getReadinessStyles(score)`: above 75 green, 25 to 75 orange, below 25 blue. */
  function ReadinessBucket(score: int): (b: Bucket)
    ensures b == Green <==> score > 75
    ensures b == Orange <==> 25 <= score <= 75
    ensures b == Blue <==> score < 25
  {
    if score > 75 then Green else if score >= 25 then Orange else Blue
  }

  /** The directory page's filter state. */
  class ExplorerPage {
    var searchTerm: string
    var filters: Filters

    constructor ()
      ensures searchTerm == "" && filters == DefaultFilters
    {
      searchTerm := "";
      filters := DefaultFilters;
    }

    /** What the page lists. */
    function Filtered(): seq<Student>
      reads this
    {
      FilterStudents(StudentsData, searchTerm, filters)
    }

    method SetSearchTerm(term: string)
      modifies this
      ensures searchTerm == term && filters == old(filters)
    {
      searchTerm := term;
    }

    method SetYear(year: string)
      modifies this
      ensures filters == old(filters).(year := year) && searchTerm == old(searchTerm)
    {
      filters := filters.(year := year);
    }

    method SetBranch(branch: string)
      modifies this
      ensures filters == old(filters).(branch := branch) && searchTerm == old(searchTerm)
    {
      filters := filters.(branch := branch);
    }

    /** The slider's `Number(e.target.value)`; the range input yields 0..100. */
    method SetMinReadiness(value: int)
      requires 0 <= value <= 100
      modifies this
      ensures filters == old(filters).(minReadiness := value) && searchTerm == old(searchTerm)
    {
      filters := filters.(minReadiness := value);
    }

    /** Reset restores the default filters and keeps the search term. */
    method Reset()
      modifies this
      ensures filters == DefaultFilters && searchTerm == old(searchTerm)
    {
      filters := DefaultFilters;
    }
  }
}

=== FILE: student_journey.dfy ===
/**
 * The student's journey page: adding a milestone re-sorts the list by the
 * year read with `parseInt`, adding a skill stores its trimmed text, and the
 * overview counts the "Project" milestones.
 *
 * `Array.prototype.sort` is stable, and the comparator
 * `parseInt(a.year) - parseInt(b.year)` yields NaN, which the sort reads as
 * "equal", whenever a year does not parse. The sort is modelled as the stable
 * insertion sort that takes each element in turn and moves it left past the
 * entries that compare greater.
 */
module StudentJourney {
  import opened Js
  import opened StableSort
  import JourneyGraph

  type Milestone = JourneyGraph.Milestone

  const Description1: string := "Joined DTU. Focused on CGPA and C++ basics."
  const Description2: string := "Campsite booking app deployed on Vercel."
  const Description3: string := "Won 1st prize at SIH (Internal)."
  const Description4: string := "Summer internship analyzing customer trends."
  const Description5: string := "Targeting Product based companies."

  /** The page's opening journey, oldest first. */
  const InitialMilestones: seq<Milestone> := [
    JourneyGraph.Milestone("2022", "Started B.Tech", Description1, "C++, Mathematics", "Education"),
    JourneyGraph.Milestone("2023", "Built \"CampBuddy\"", Description2, "React, MongoDB", "Project"),
    JourneyGraph.Milestone("2023", "Hackathon Winner", Description3, "Teamwork", "Achievement"),
    JourneyGraph.Milestone("2024", "Data Science Intern", Description4, "Python, SQL", "Internship"),
    JourneyGraph.Milestone("2025", "Goal: SDE Internship", Description5, "DSA", "Internship")
  ]

  const InitialSkills: seq<string> := ["React", "Node.js", "MongoDB", "C++", "Python", "Git"]

  /** The draft of a new milestone, blank and of type "Project". */
  const BlankDraft: Milestone := JourneyGraph.Milestone("", "", "", "", "Project")

  /** `parseInt(m.year)`; None is NaN. */
  function YearOf(m: Milestone): Option<int> {
    ParseInt(m.year)
  }

  /** `[...s].sort((a, b) => parseInt(a.year) - parseInt(b.year))`. */
  function SortByYear(s: seq<Milestone>): seq<Milestone> {
    SortBy(YearOf, s)
  }

  /** The page's opening journey is sorted by year. */
  lemma InitialMilestonesSorted()
    ensures SortedBy(YearOf, InitialMilestones)
  {
    var ms := InitialMilestones;
    Year2022();
    Year2023();
    Year2023Again();
    Year2024();
    Year2025();
    assert ms == [ms[0], ms[1], ms[2], ms[3], ms[4]];
    SortedFive(YearOf, ms[0], ms[1], ms[2], ms[3], ms[4]);
  }

  lemma Year2022()
    ensures YearOf(InitialMilestones[0]) == Some(2022)
  {
    assert NatToString(2022) == "2022";
    ParseIntOfNatToString(2022);
  }

  lemma Year2023()
    ensures YearOf(InitialMilestones[1]) == Some(2023)
  {
    assert NatToString(2023) == "2023";
    ParseIntOfNatToString(2023);
  }

  lemma Year2023Again()
    ensures YearOf(InitialMilestones[2]) == Some(2023)
  {
    assert NatToString(2023) == "2023";
    ParseIntOfNatToString(2023);
  }

  lemma Year2024()
    ensures YearOf(InitialMilestones[3]) == Some(2024)
  {
    assert NatToString(2024) == "2024";
    ParseIntOfNatToString(2024);
  }

  lemma Year2025()
    ensures YearOf(InitialMilestones[4]) == Some(2025)
  {
    assert NatToString(2025) == "2025";
    ParseIntOfNatToString(2025);
  }

  /** `milestones.filter(m => m.type === 'Project').length`. */
  function ProjectCount(s: seq<Milestone>): (n: nat)
    ensures n <= |s|
  {
    if s == [] then 0 else (if s[0].kind == "Project" then 1 else 0) + ProjectCount(s[1..])
  }

  /** The count is the length of the list filtered to the projects. */
  lemma {:induction false} ProjectCountIsFilterLength(s: seq<Milestone>)
    ensures ProjectCount(s) == |Filter((m: Milestone) => m.kind == "Project", s)|
  {
    if s != [] {
      ProjectCountIsFilterLength(s[1..]);
    }
  }

  lemma {:induction false} ProjectCountAppend(a: seq<Milestone>, b: seq<Milestone>)
    ensures ProjectCount(a + b) == ProjectCount(a) + ProjectCount(b)
  {
    if a == [] {
      assert a + b == b;
    } else {
      assert (a + b)[0] == a[0];
      assert (a + b)[1..] == a[1..] + b;
      ProjectCountAppend(a[1..], b);
    }
  }

  /** Inserting a milestone raises the project count by one exactly when it is a project. */
  lemma ProjectCountInsert(key: Key<Milestone>, s: seq<Milestone>, x: Milestone)
    ensures ProjectCount(Insert(key, s, x)) == ProjectCount(s) + if x.kind == "Project" then 1 else 0
  {
    var p := InsertPos(key, s, x);
    assert Insert(key, s, x) == s[..p] + [x] + s[p..];
    ProjectCountAppend(s[..p] + [x], s[p..]);
    ProjectCountAppend(s[..p], [x]);
    ProjectCountAppend(s[..p], s[p..]);
    assert s[..p] + s[p..] == s;
  }

  /** Sorting never changes the project count. */
  lemma {:induction false} ProjectCountSort(key: Key<Milestone>, s: seq<Milestone>)
    ensures ProjectCount(SortBy(key, s)) == ProjectCount(s)
  {
    if s != [] {
      var prefix := s[..|s| - 1];
      ProjectCountSort(key, prefix);
      ProjectCountInsert(key, SortBy(key, prefix), s[|s| - 1]);
      ProjectCountAppend(prefix, [s[|s| - 1]]);
      assert prefix + [s[|s| - 1]] == s;
    }
  }

  /**
   * What re-sorting after an append gives: the project count grows by one
   * exactly for a project, and a sorted list with a readable new year gets
   * the milestone inserted in place and stays sorted.
   */
  lemma AddedMilestone(s: seq<Milestone>, x: Milestone)
    ensures ProjectCount(SortByYear(s + [x])) == ProjectCount(s) + if x.kind == "Project" then 1 else 0
    ensures SortedBy(YearOf, s) && YearOf(x).Some? ==>
      SortByYear(s + [x]) == Insert(YearOf, s, x) && SortedBy(YearOf, SortByYear(s + [x]))
  {
    ProjectCountSort(YearOf, s + [x]);
    ProjectCountAppend(s, [x]);
    if SortedBy(YearOf, s) && YearOf(x).Some? {
      SortAfterAppend(YearOf, s, x);
      InsertKeepsSorted(YearOf, s, x);
    }
  }

  /** The page's state. */
  class JourneyPage {
    var milestones: seq<Milestone>
    var draft: Milestone
    var modalOpen: bool
    var skills: seq<string>
    var newSkill: string
    var skillInputOpen: bool

    /** The displayed journey is in year order. */
    predicate Valid()
      reads this
    {
      SortedBy(YearOf, milestones)
    }

    constructor ()
      ensures milestones == InitialMilestones && draft == BlankDraft && !modalOpen
      ensures skills == InitialSkills && newSkill == "" && !skillInputOpen
      ensures Valid()
    {
      milestones := InitialMilestones;
      draft := BlankDraft;
      modalOpen := false;
      skills := InitialSkills;
      newSkill := "";
      skillInputOpen := false;
      InitialMilestonesSorted();
    }

    /**
     * `handleAddMilestone`: without a year or a title nothing happens;
     * otherwise the draft joins the list, the list is re-sorted, the modal
     * closes and the draft is blank again.
     */
    method AddMilestone()
      modifies this
      ensures old(draft.year) == "" || old(draft.milestone) == "" ==>
        milestones == old(milestones) && draft == old(draft) && modalOpen == old(modalOpen)
      ensures old(draft.year) != "" && old(draft.milestone) != "" ==>
        milestones == SortByYear(old(milestones) + [old(draft)]) && !modalOpen && draft == BlankDraft
      ensures old(Valid()) && YearOf(old(draft)).Some? ==> Valid()
      ensures skills == old(skills) && newSkill == old(newSkill) && skillInputOpen == old(skillInputOpen)
    {
      var added := draft;
      if added.year == "" || added.milestone == "" {
        return;
      }
      AddedMilestone(milestones, added);
      var sorted := SortByYear(milestones + [added]);
      milestones := sorted;
      modalOpen := false;
      draft := BlankDraft;
    }

    /**
     * `handleAddSkill`: a skill whose text is not blank is stored trimmed,
     * then the input is cleared and closed; blank text changes nothing.
     */
    method AddSkill()
      modifies this
      ensures Trim(old(newSkill)) != "" ==>
        skills == old(skills) + [Trim(old(newSkill))] && newSkill == "" && !skillInputOpen
      ensures Trim(old(newSkill)) == "" ==>
        skills == old(skills) && newSkill == old(newSkill) && skillInputOpen == old(skillInputOpen)
      ensures milestones == old(milestones) && draft == old(draft) && modalOpen == old(modalOpen)
    {
      var skill := Trim(newSkill);
      if skill != "" {
        skills := skills + [skill];
        newSkill := "";
        skillInputOpen := false;
      }
    }
  }
}

=== FILE: student_requests.dfy ===
/**
 * The alumni's incoming student requests: the type filter, accepting or
 * declining a request (which removes it and raises an alert), and the icon
 * and colour chosen for a request type.
 */
module StudentRequests {
  import opened Js

  /** A request as the list shows it; `kind` is the source's `type`. */
  datatype Request = Request(id: nat, name: string, year: string, kind: string, goal: string)

  const InitialRequests: seq<Request> := [
    Request(1, "Rohan Das", "3rd Year", "Referral", "SDE @ Fintech"),
    Request(2, "Ananya Singh", "4th Year", "Mentorship", "AI Researcher"),
    Request(3, "Vikram Malhotra", "2nd Year", "Doubt Solving", "Backend Dev"),
    Request(4, "Sneha Gupta", "4th Year", "Portfolio Review", "Product Designer")
  ]

  /** The filter buttons, in order. */
  const FilterOptions: seq<string> := ["All", "Referral", "Mentorship", "Doubt Solving", "Portfolio Review"]

  /** The filter value that shows everything. */
  const AllTypes: string := "All"

  /** `filteredRequests`: everything for "All", otherwise the requests of exactly that type, in order. */
  function FilterByType(requests: seq<Request>, filterType: string): (r: seq<Request>)
    ensures filterType == AllTypes ==> r == requests
    ensures |r| <= |requests|
    ensures filterType != AllTypes ==> forall k :: 0 <= k < |r| ==> r[k] in requests && r[k].kind == filterType
    ensures filterType != AllTypes ==> forall k :: 0 <= k < |requests| && requests[k].kind == filterType ==> requests[k] in r
  {
    if filterType == AllTypes then requests
    else OfType(requests, filterType)
  }

  /** `requests.filter(r => r.type === t)`. */
  function OfType(requests: seq<Request>, t: string): (r: seq<Request>)
    ensures |r| <= |requests|
    ensures forall k :: 0 <= k < |r| ==> r[k] in requests && r[k].kind == t
    ensures forall k :: 0 <= k < |requests| && requests[k].kind == t ==> requests[k] in r
  {
    if requests == [] then []
    else
      var rest := OfType(requests[1..], t);
      if requests[0].kind == t then [requests[0]] + rest else rest
  }

  /** The type filter keeps order: it distributes over a concatenation. */
  lemma {:induction false} OfTypeAppend(a: seq<Request>, b: seq<Request>, t: string)
    ensures OfType(a + b, t) == OfType(a, t) + OfType(b, t)
  {
    if a == [] {
      assert a + b == b;
    } else {
      assert (a + b)[0] == a[0];
      assert (a + b)[1..] == a[1..] + b;
      OfTypeAppend(a[1..], b, t);
    }
  }

  /** Filtering twice by the same type is filtering once. */
  lemma {:induction false} FilterIdempotent(requests: seq<Request>, filterType: string)
    ensures FilterByType(FilterByType(requests, filterType), filterType) == FilterByType(requests, filterType)
  {
    if filterType != AllTypes {
      OfTypeOfType(requests, filterType);
    }
  }

  lemma {:induction false} OfTypeOfType(requests: seq<Request>, t: string)
    ensures OfType(OfType(requests, t), t) == OfType(requests, t)
  {
    if requests != [] {
      OfTypeOfType(requests[1..], t);
      var rest := OfType(requests[1..], t);
      if requests[0].kind == t {
        assert ([requests[0]] + rest)[0] == requests[0];
        assert ([requests[0]] + rest)[1..] == rest;
      }
    }
  }

  /** `requests.filter(r => r.id !== id)`. */
  function WithoutId(requests: seq<Request>, id: nat): (r: seq<Request>)
    ensures |r| <= |requests|
    ensures forall k :: 0 <= k < |r| ==> r[k] in requests && r[k].id != id
    ensures forall k :: 0 <= k < |requests| && requests[k].id != id ==> requests[k] in r
  {
    if requests == [] then []
    else
      var rest := WithoutId(requests[1..], id);
      if requests[0].id != id then [requests[0]] + rest else rest
  }

  /** Removal keeps the others' order: it distributes over a concatenation. */
  lemma {:induction false} WithoutIdAppend(a: seq<Request>, b: seq<Request>, id: nat)
    ensures WithoutId(a + b, id) == WithoutId(a, id) + WithoutId(b, id)
  {
    if a == [] {
      assert a + b == b;
    } else {
      assert (a + b)[0] == a[0];
      assert (a + b)[1..] == a[1..] + b;
      WithoutIdAppend(a[1..], b, id);
    }
  }

  /** No two requests share an id. */
  predicate DistinctIds(requests: seq<Request>) {
    forall i, j :: 0 <= i < j < |requests| ==> requests[i].id != requests[j].id
  }

  /** With distinct ids, removing a listed id drops exactly one request. */
  lemma {:induction false} WithoutIdDropsOne(requests: seq<Request>, id: nat)
    requires DistinctIds(requests)
    requires exists k :: 0 <= k < |requests| && requests[k].id == id
    ensures |WithoutId(requests, id)| == |requests| - 1
  {
    if requests[0].id == id {
      WithoutIdAbsent(requests[1..], id);
    } else {
      assert DistinctIds(requests[1..]);
      var k :| 0 <= k < |requests| && requests[k].id == id;
      assert requests[1..][k - 1].id == id;
      WithoutIdDropsOne(requests[1..], id);
    }
  }

  /** Removing an id nobody has changes nothing. */
  lemma {:induction false} WithoutIdAbsent(requests: seq<Request>, id: nat)
    requires forall k :: 0 <= k < |requests| ==> requests[k].id != id
    ensures WithoutId(requests, id) == requests
  {
    if requests != [] {
      WithoutIdAbsent(requests[1..], id);
      assert [requests[0]] + requests[1..] == requests;
    }
  }

  /** Removal keeps the ids distinct. */
  lemma {:induction false} WithoutIdKeepsDistinct(requests: seq<Request>, id: nat)
    requires DistinctIds(requests)
    ensures DistinctIds(WithoutId(requests, id))
  {
    if requests != [] {
      assert DistinctIds(requests[1..]);
      WithoutIdKeepsDistinct(requests[1..], id);
      var rest := WithoutId(requests[1..], id);
      if requests[0].id != id {
        assert forall k :: 0 <= k < |rest| ==> rest[k].id != requests[0].id;
        var r := [requests[0]] + rest;
        forall i, j | 0 <= i < j < |r|
          ensures r[i].id != r[j].id
        {
          if i == 0 {
            assert r[j] == rest[j - 1];
          } else {
            assert r[i] == rest[i - 1] && r[j] == rest[j - 1];
          }
        }
      }
    }
  }

  /** The alert shown after an action: `${action} request from Student ID: ${id}`. */
  function ActionAlert(action: string, id: nat): (text: string)
    ensures StartsWith(text, action)
    ensures EndsWith(text, NatToString(id))
  {
    var text := action + " request from Student ID: " + NatToString(id);
    assert text[..|action|] == action;
    text
  }

  /** The icons of the request types. */
  datatype Icon = Briefcase | BookOpen | Code | FileText | MessageSquare

  /** `getTypeIcon(type)`: one icon per known type, the message icon otherwise. */
  function TypeIcon(kind: string): (icon: Icon)
    ensures icon == Briefcase <==> kind == "Referral"
    ensures icon == BookOpen <==> kind == "Mentorship"
    ensures icon == Code <==> kind == "Doubt Solving"
    ensures icon == FileText <==> kind == "Portfolio Review"
    ensures icon == MessageSquare <==> kind !in FilterOptions[1..]
  {
    if kind == "Referral" then Briefcase
    else if kind == "Mentorship" then BookOpen
    else if kind == "Doubt Solving" then Code
    else if kind == "Portfolio Review" then FileText
    else MessageSquare
  }

  const ReferralColor: string := "bg-blue-50 text-blue-700 border-blue-100"
  const MentorshipColor: string := "bg-purple-50 text-purple-700 border-purple-100"
  const DoubtColor: string := "bg-orange-50 text-orange-700 border-orange-100"
  const PortfolioColor: string := "bg-pink-50 text-pink-700 border-pink-100"
  const DefaultColor: string := "bg-gray-50 text-gray-700"

  /** `getTypeColor(type)`: one badge colour per known type, grey otherwise. */
  function TypeColor(kind: string): (color: string)
    ensures kind == "Referral" ==> color == ReferralColor
    ensures kind == "Mentorship" ==> color == MentorshipColor
    ensures kind == "Doubt Solving" ==> color == DoubtColor
    ensures kind == "Portfolio Review" ==> color == PortfolioColor
    ensures color == DefaultColor <==> kind !in FilterOptions[1..]
  {
    assert ReferralColor[3] == 'b' && MentorshipColor[3] == 'p' && DoubtColor[3] == 'o';
    assert PortfolioColor[3] == 'p' && DefaultColor[3] == 'g';
    if kind == "Referral" then ReferralColor
    else if kind == "Mentorship" then MentorshipColor
    else if kind == "Doubt Solving" then DoubtColor
    else if kind == "Portfolio Review" then PortfolioColor
    else DefaultColor
  }

  /** A request gets the default icon exactly when it gets the default colour. */
  lemma DefaultsAgree(kind: string)
    ensures TypeIcon(kind) == MessageSquare <==> TypeColor(kind) == DefaultColor
  {
  }

  /** The request page's state: the list, the selected filter and the alerts raised. */
  class RequestsPage {
    var requests: seq<Request>
    var filterType: string
    var alerts: seq<string>

    /** No two listed requests share an id. */
    predicate Valid()
      reads this
    {
      DistinctIds(requests)
    }

    constructor ()
      ensures requests == InitialRequests && filterType == AllTypes && alerts == []
      ensures Valid()
    {
      requests := InitialRequests;
      filterType := AllTypes;
      alerts := [];
    }

    /** What the page lists. */
    function Filtered(): seq<Request>
      reads this
    {
      FilterByType(requests, filterType)
    }

    /** A filter button: only the filter changes, never the list. */
    method SetFilterType(t: string)
      modifies this
      ensures filterType == t && requests == old(requests) && alerts == old(alerts)
    {
      filterType := t;
    }

    /**
     * `handleAction(id, action)`: the request with that id goes, the others
     * keep their order, and the alert is raised.
     */
    method HandleAction(id: nat, action: string)
      modifies this
      ensures requests == WithoutId(old(requests), id)
      ensures old(Valid()) ==> Valid()
      ensures old(Valid()) && (exists k :: 0 <= k < |old(requests)| && old(requests)[k].id == id) ==>
        |requests| == |old(requests)| - 1
      ensures alerts == old(alerts) + [ActionAlert(action, id)]
      ensures filterType == old(filterType)
    {
      if Valid() {
        if exists k :: 0 <= k < |requests| && requests[k].id == id {
          WithoutIdDropsOne(requests, id);
        }
        WithoutIdKeepsDistinct(requests, id);
      }
      requests := WithoutId(requests, id);
      alerts := alerts + [ActionAlert(action, id)];
    }
  }
}

=== FILE: use_auth.dfy ===
/**
 * The `useLogin` and `useRegister` hooks. The HTTP call each makes is an
 * answer passed in: the server's data, or a failure with the server's message
 * (when there was a response) and the error's own message. The context's
 * `login(user, token)` is recorded in a `SessionContext` object.
 */
module UseAuth {
  import opened Js
  import AuthService

  /** The `user` object the server returns, reduced to what the hooks read. */
  datatype ClientUser = ClientUser(id: string, role: Option<string>)

  datatype LoginData = LoginData(user: ClientUser, token: string)

  datatype RegisterData = RegisterData(message: Option<string>, user: Option<ClientUser>, token: Option<string>)

  /** The outcome of an HTTP call. */
  datatype Call<T> = Answered(data: T) | Failed(responseMessage: Option<string>, message: string)

  datatype Session = Session(user: ClientUser, token: string)

  /** `{ success, role }` and `{ success, message }`. */
  datatype LoginResult = LoginResult(success: bool, role: Option<string>)
  datatype RegisterResult = RegisterResult(success: bool, message: Option<string>)

  const ProviderMissing: string := "useAuth hooks must be used within an AuthProvider"
  const RegistrationFailed: string := "Registration failed. Please try again."

  /** `useAuthContext()`: outside the provider there is no context and the hook throws. */
  function UseAuthContext<C>(context: Option<C>): (r: Result<C>)
    ensures context.None? <==> r == Thrown(ProviderMissing)
    ensures context.Some? ==> r == Ok(context.value)
  {
    if context.None? then Thrown(ProviderMissing) else Ok(context.value)
  }

  /** The account's role is set and differs from the requested one, ignoring case. */
  predicate RoleMismatch(accountRole: Option<string>, requestedRole: string) {
    Truthy(accountRole) && ToLower(accountRole.value) != ToLower(requestedRole)
  }

  /** The role check ignores case, and an account without a role passes it. */
  lemma RoleCheckIgnoresCase(accountRole: string, requestedRole: string)
    ensures !RoleMismatch(Some(ToLower(requestedRole)), requestedRole)
    ensures !RoleMismatch(None, requestedRole) && !RoleMismatch(Some(""), requestedRole)
    ensures RoleMismatch(Some(accountRole), requestedRole) ==> accountRole != requestedRole
  {
    ToLowerIsLower(requestedRole);
    ToLowerOfLower(ToLower(requestedRole));
  }

  /** The message of the error thrown on a role mismatch. */
  function Unauthorized(requestedRole: string): string {
    "Unauthorized: Account exists but is not registered as " + requestedRole
  }

  /** `err.response?.data?.message || err.message || fallback`. */
  function LoginErrorText(responseMessage: Option<string>, message: string): (text: string)
    ensures text != ""
    ensures Truthy(responseMessage) ==> text == responseMessage.value
    ensures !Truthy(responseMessage) && message != "" ==> text == message
  {
    if Truthy(responseMessage) then responseMessage.value
    else if message != "" then message
    else "Login failed"
  }

  /** `err.response?.data?.message || fallback`: the error's own message is not used. */
  function RegisterErrorText(responseMessage: Option<string>): (text: string)
    ensures text != ""
    ensures Truthy(responseMessage) ==> text == responseMessage.value
    ensures !Truthy(responseMessage) ==> text == RegistrationFailed
  {
    if Truthy(responseMessage) then responseMessage.value else RegistrationFailed
  }

  /** The provider's session: every `login(user, token)` call, in order. */
  class SessionContext {
    var logins: seq<Session>

    constructor ()
      ensures logins == []
    {
      logins := [];
    }

    method Login(user: ClientUser, token: string)
      modifies this
      ensures logins == old(logins) + [Session(user, token)]
    {
      logins := logins + [Session(user, token)];
    }
  }

  /** The state of `useLogin`. */
  class LoginHook {
    const context: SessionContext
    var loading: bool
    var error: Option<string>
    /** Every value `loading` has been set to, in order. */
    ghost var loadingHistory: seq<bool>

    /** The hook as created inside the provider. */
    constructor (context: SessionContext)
      ensures this.context == context && !loading && error.None? && loadingHistory == []
    {
      this.context := context;
      loading := false;
      error := None;
      loadingHistory := [];
    }

    /**
     * `performLogin(email, password, role)` once the call has settled: the
     * session starts only when the account's role matches the requested one.
     */
    method PerformLogin(email: string, password: string, role: string, answer: Call<LoginData>)
      returns (result: LoginResult)
      modifies this, context
      ensures !loading && loadingHistory == old(loadingHistory) + [true, false]
      ensures answer.Answered? && !RoleMismatch(answer.data.user.role, role) ==>
        result == LoginResult(true, Some(role)) && error.None?
        && context.logins == old(context.logins) + [Session(answer.data.user, answer.data.token)]
      ensures answer.Answered? && RoleMismatch(answer.data.user.role, role) ==>
        result == LoginResult(false, None) && error == Some(Unauthorized(role))
        && context.logins == old(context.logins)
      ensures answer.Failed? ==>
        result == LoginResult(false, None) && error == Some(LoginErrorText(answer.responseMessage, answer.message))
        && context.logins == old(context.logins)
    {
      loading := true;
      loadingHistory := loadingHistory + [true];
      error := None;
      match answer {
        case Failed(responseMessage, message) =>
          error := Some(LoginErrorText(responseMessage, message));
          result := LoginResult(false, None);
        case Answered(data) =>
          if RoleMismatch(data.user.role, role) {
            // the thrown Error has no response, so its own message is shown
            error := Some(LoginErrorText(None, Unauthorized(role)));
            result := LoginResult(false, None);
          } else {
            context.Login(data.user, data.token);
            result := LoginResult(true, Some(role));
          }
      }
      loading := false;
      loadingHistory := loadingHistory + [false];
    }
  }

  /** The state of `useRegister`. */
  class RegisterHook {
    const context: SessionContext
    var loading: bool
    var error: Option<string>
    /** Every body posted, in order. */
    var posted: seq<seq<(string, AuthService.Entry)>>
    ghost var loadingHistory: seq<bool>

    constructor (context: SessionContext)
      ensures this.context == context && !loading && error.None? && posted == [] && loadingHistory == []
    {
      this.context := context;
      loading := false;
      error := None;
      posted := [];
      loadingHistory := [];
    }

    /**
     * `performRegister(userData, role, file)` once the call has settled: the
     * session starts only when the answer holds both a token and a user.
     */
    method PerformRegister(userData: seq<(string, AuthService.JsValue)>, role: string,
                           file: Option<AuthService.FileRef>, answer: Call<RegisterData>)
      returns (result: RegisterResult)
      modifies this, context
      ensures !loading && loadingHistory == old(loadingHistory) + [true, false]
      ensures posted == old(posted) + [AuthService.SerialisedFields(userData) + [("role", AuthService.Text(ToLower(role)))]
                                       + AuthService.FileEntries(role, file)]
      ensures answer.Answered? ==>
        result == RegisterResult(true, answer.data.message) && error.None?
        && context.logins == old(context.logins)
             + (if Truthy(answer.data.token) && answer.data.user.Some?
                then [Session(answer.data.user.value, answer.data.token.value)] else [])
      ensures answer.Failed? ==>
        result == RegisterResult(false, None) && error == Some(RegisterErrorText(answer.responseMessage))
        && context.logins == old(context.logins)
    {
      loading := true;
      loadingHistory := loadingHistory + [true];
      error := None;
      var form := AuthService.RegisterForm(userData, role, file);
      posted := posted + [form.entries];
      match answer {
        case Failed(responseMessage, _) =>
          error := Some(RegisterErrorText(responseMessage));
          result := RegisterResult(false, None);
        case Answered(data) =>
          if Truthy(data.token) && data.user.Some? {
            context.Login(data.user.value, data.token.value);
          }
          result := RegisterResult(true, data.message);
      }
      loading := false;
      loadingHistory := loadingHistory + [false];
    }
  }
}

=== FILE: user_controller.dfy ===
/**
 * The `register` and `login` handlers and `generateToken`. The OCR engine,
 * bcrypt and the token signer are oracles passed in as `Services`; the user
 * collection is a `Collection` object.
 */
module UserController {
  import opened Js
  import opened UserModel
  import opened OcrService
  import opened Http

  /** The foreign calls the handlers make. */
  datatype Services = Services(
    recognize: string -> Recognition,
    hash: string -> string,
    compare: (string, string) -> bool,
    sign: SignRequest -> Option<string>)

  /**
   * The fields of a registration form; each uploaded image is given by the path
   * the upload middleware stored it under.
   */
  datatype RegisterRequest = RegisterRequest(
    name: Option<string>,
    email: Option<string>,
    password: Option<string>,
    role: Option<string>,
    rollNumber: Option<string>,
    graduationYear: Option<string>,
    workEmail: Option<string>,
    studentIdCardImage: Option<string>,
    idCardImage: Option<string>)

  datatype LoginRequest = LoginRequest(email: Option<string>, password: Option<string>)

  const MissingFields: string := "Name, email & password are required."
  const AdminRefused: string := "Admin cannot register publicly."
  const EmailInUse: string := "Email already registered."
  const RollNumberMissing: string := "Roll number is required."
  const StudentCardMissing: string := "Student ID Card image is required."
  const GraduationYearMissing: string := "Graduation year is required."
  const NoAlumniEvidence: string := "Provide a corporate work email OR upload your company ID card."
  const RegisterFailed: string := "Server error. Try again."

  /** Work-email domains that do not count as corporate. */
  const GenericDomains: seq<string> := ["gmail.com", "yahoo.com", "hotmail.com", "outlook.com"]

  /** How long an issued token stays valid. */
  const TokenLifetime: string := "7d"

  // ---------------------------------------------------------------- pure parts

  /** `generateToken(user)`: a token whose payload is the user's id and role. */
  function GenerateToken(sign: SignRequest -> Option<string>, u: User): Option<string> {
    sign(SignRequest(Claims(u.id, u.role), TokenLifetime))
  }

  /** A generated token verifies back to the user's id and role. */
  lemma GeneratedTokenCarriesUser(tokens: Tokens, u: User)
    requires SignVerifyAgree(tokens) && GenerateToken(tokens.sign, u).Some?
    ensures tokens.verify(GenerateToken(tokens.sign, u).value) == Some(Claims(u.id, u.role))
  {
    var req := SignRequest(Claims(u.id, u.role), TokenLifetime);
    assert tokens.sign(req).Some?;
  }

  /** Register's clean-up: `email.trim().toLowerCase()`. */
  function CleanEmail(email: string): (r: string)
    ensures IsLower(r) && |r| <= |email|
    ensures r != [] ==> !IsSpace(r[0]) && !IsSpace(r[|r| - 1])
  {
    var t := Trim(email);
    LowerCharKeepsSpaceAll(t);
    ToLower(t)
  }

  lemma LowerCharKeepsSpaceAll(t: string)
    ensures forall i :: 0 <= i < |t| ==> IsSpace(ToLower(t)[i]) == IsSpace(t[i])
  {
    forall i | 0 <= i < |t| { LowerCharKeepsSpace(t[i]); }
  }

  /** `workEmail?.trim().toLowerCase()`. */
  function CleanWorkEmail(workEmail: Option<string>): (r: Option<string>)
    ensures r.None? <==> workEmail.None?
  {
    if workEmail.None? then None else Some(CleanEmail(workEmail.value))
  }

  /** Login's clean-up: `email.toLowerCase().trim()`. */
  function LoginEmail(email: string): string {
    Trim(ToLower(email))
  }

  /** The two clean-ups agree, so a login finds the email that registration stored. */
  lemma LoginEmailIsCleanEmail(email: string)
    ensures LoginEmail(email) == CleanEmail(email)
  {
    TrimToLower(email);
  }

  /**
   * The alumni work-email test: a non-empty cleaned work email counts as
   * corporate unless its second '@'-separated piece is a generic domain. A
   * missing piece (no '@') is not in the list, so such an email counts.
   */
  predicate IsCorporateEmail(cleanedWorkEmail: Option<string>): (r: bool)
    ensures r ==> Truthy(cleanedWorkEmail)
  {
    Truthy(cleanedWorkEmail)
    && var domain := Piece(cleanedWorkEmail.value, '@', 1);
       domain.None? || domain.value !in GenericDomains
  }

  /** For an address with exactly one '@', corporate means the domain is not generic. */
  lemma CorporateIffDomainNotGeneric(local: string, domain: string)
    requires '@' !in local && '@' !in domain
    ensures IsCorporateEmail(Some(local + "@" + domain)) <==> domain !in GenericDomains
  {
    SplitFirst(local, '@', domain);
    SplitWithoutSep(domain, '@');
    assert local + "@" + domain == local + ['@'] + domain;
  }

  /** A work email without any '@' counts as corporate. */
  lemma NoAtSignIsCorporate(workEmail: string)
    requires workEmail != "" && '@' !in workEmail
    ensures IsCorporateEmail(Some(workEmail))
  {
    SplitWithoutSep(workEmail, '@');
  }

  /**
   * Only the piece between the first and the second '@' is looked at: a generic
   * domain followed by another '@' is generic, whatever comes after it.
   */
  lemma SecondAtSignHidesTail(local: string, domain: string, tail: string)
    requires '@' !in local && '@' !in domain && domain in GenericDomains
    ensures !IsCorporateEmail(Some(local + "@" + domain + "@" + tail))
  {
    SplitFirst(domain, '@', tail);
    SplitFirst(local, '@', domain + "@" + tail);
    assert local + "@" + domain + "@" + tail == local + ['@'] + (domain + ['@'] + tail);
  }

  /** Name, email and password are all present and non-empty. */
  predicate HasCredentials(req: RegisterRequest) {
    Truthy(req.name) && Truthy(req.email) && Truthy(req.password)
  }

  /** `role = "student"` when the field is absent. */
  function RequestedRole(req: RegisterRequest): string {
    req.role.GetOr("student")
  }

  /** Every check before `User.create` passes. */
  predicate PassesChecks(rows: seq<User>, req: RegisterRequest) {
    HasCredentials(req)
    && RequestedRole(req) != "admin"
    && !EmailTaken(rows, CleanEmail(req.email.value))
    && (RequestedRole(req) == "student" ==> Truthy(req.rollNumber) && req.studentIdCardImage.Some?)
    && (RequestedRole(req) == "alumni" ==>
          Truthy(req.graduationYear) && (IsCorporateEmail(CleanWorkEmail(req.workEmail)) || Truthy(req.idCardImage)))
  }

  /**
   * The verification status decided at sign-up: a student is verified when the
   * card matcher succeeds, an alumnus when the work email is corporate, anyone
   * else never.
   */
  predicate VerifiedAtSignup(req: RegisterRequest, recognize: string -> Recognition)
    requires HasCredentials(req)
  {
    if RequestedRole(req) == "student" then
      Truthy(req.rollNumber) && req.studentIdCardImage.Some?
      && VerifyStudentOcr(recognize, req.studentIdCardImage.value, req.name.value, req.rollNumber.value).Succeeded()
    else if RequestedRole(req) == "alumni" then IsCorporateEmail(CleanWorkEmail(req.workEmail))
    else false
  }

  /** The object handed to `User.create` once every check has passed. */
  function DraftOf(req: RegisterRequest, recognize: string -> Recognition): Draft
    requires HasCredentials(req)
  {
    var role := RequestedRole(req);
    Draft(req.name.value, CleanEmail(req.email.value), req.password.value, Some(role),
          req.rollNumber, req.graduationYear, CleanWorkEmail(req.workEmail),
          if role == "student" && req.studentIdCardImage.Some? then req.studentIdCardImage.value else "",
          if role == "alumni" && req.idCardImage.Some? then req.idCardImage.value else "",
          Some(VerifiedAtSignup(req, recognize)))
  }

  /** The success message of a registration. */
  function Welcome(isVerified: bool): string {
    if isVerified then "Registered & Verified!" else "Registered. Verification pending."
  }

  // ---------------------------------------------------------------- register

  /**
   * `register(req, res)`. Each check answers in the order the handler runs
   * them; once they pass, exactly one account is created, then a token is
   * issued. A failure to sign answers 500 although the account already exists.
   */
  method Register(db: Collection, req: RegisterRequest, svc: Services, newId: string) returns (reply: Reply)
    requires db.Valid() && IsStoredId(newId) && !db.HasId(newId)
    modifies db
    ensures db.Valid()
    ensures !PassesChecks(old(db.rows), req) ==> db.rows == old(db.rows) && db.clock == old(db.clock)
    ensures !HasCredentials(req) ==> reply == Reply(400, Message(MissingFields))
    ensures HasCredentials(req) && RequestedRole(req) == "admin" ==> reply == Reply(403, Message(AdminRefused))
    ensures HasCredentials(req) && RequestedRole(req) != "admin" && EmailTaken(old(db.rows), CleanEmail(req.email.value))
      ==> reply == Reply(400, Message(EmailInUse))
    ensures HasCredentials(req) && RequestedRole(req) == "student" && !EmailTaken(old(db.rows), CleanEmail(req.email.value))
      ==> (!Truthy(req.rollNumber) ==> reply == Reply(400, Message(RollNumberMissing)))
          && (Truthy(req.rollNumber) && req.studentIdCardImage.None? ==> reply == Reply(400, Message(StudentCardMissing)))
    ensures HasCredentials(req) && RequestedRole(req) == "alumni" && !EmailTaken(old(db.rows), CleanEmail(req.email.value))
      ==> (!Truthy(req.graduationYear) ==> reply == Reply(400, Message(GraduationYearMissing)))
          && ((Truthy(req.graduationYear) && !IsCorporateEmail(CleanWorkEmail(req.workEmail)) && !Truthy(req.idCardImage))
                ==> reply == Reply(400, Message(NoAlumniEvidence)))
    ensures PassesChecks(old(db.rows), req) ==>
      var d := DraftOf(req, svc.recognize);
      (Validate(d).Thrown? ==> reply == Reply(500, Message(RegisterFailed)) && db.rows == old(db.rows))
      && (Validate(d).Ok? ==>
            var u := NewRow(Validate(d).value, newId, old(db.clock)).(password := svc.hash(d.password));
            db.rows == old(db.rows) + [u]
            && reply == match GenerateToken(svc.sign, u)
                        case None => Reply(500, Message(RegisterFailed))
                        case Some(t) => Reply(201, Session(Welcome(u.isVerified),
                                                           SessionUser(u.id, u.name, None, u.role, u.isVerified), t)))
  {
    if !HasCredentials(req) {
      return Reply(400, Message(MissingFields));
    }
    var name, email, password := req.name.value, req.email.value, req.password.value;
    var role := RequestedRole(req);
    var cleanedEmail := CleanEmail(email);
    var cleanedWorkEmail := CleanWorkEmail(req.workEmail);

    if role == "admin" {
      return Reply(403, Message(AdminRefused));
    }
    if FindByEmail(db.rows, cleanedEmail).Some? {
      return Reply(400, Message(EmailInUse));
    }

    var isVerified := false;
    var studentIdCardUrl := "";
    var idCardUrl := "";

    if role == "student" {
      if !Truthy(req.rollNumber) {
        return Reply(400, Message(RollNumberMissing));
      }
      if req.studentIdCardImage.None? {
        return Reply(400, Message(StudentCardMissing));
      }
      studentIdCardUrl := req.studentIdCardImage.value;
      var ocrResult := VerifyStudentOcr(svc.recognize, studentIdCardUrl, name, req.rollNumber.value);
      if ocrResult.Succeeded() {
        isVerified := true;
      }
    }

    if role == "alumni" {
      if !Truthy(req.graduationYear) {
        return Reply(400, Message(GraduationYearMissing));
      }
      if req.idCardImage.Some? {
        idCardUrl := req.idCardImage.value;
      }
      var hasCorporateEmail := false;
      if Truthy(cleanedWorkEmail) {
        var emailDomain := Piece(cleanedWorkEmail.value, '@', 1);
        if emailDomain.None? || emailDomain.value !in GenericDomains {
          hasCorporateEmail := true;
        }
      }
      if !hasCorporateEmail && idCardUrl == "" {
        return Reply(400, Message(NoAlumniEvidence));
      }
      isVerified := hasCorporateEmail;
    }

    var draft := Draft(name, cleanedEmail, password, Some(role), req.rollNumber, req.graduationYear,
                       cleanedWorkEmail, studentIdCardUrl, idCardUrl, Some(isVerified));
    assert draft == DraftOf(req, svc.recognize);
    var created := db.Create(draft, newId, svc.hash);
    if created.Thrown? {
      return Reply(500, Message(RegisterFailed));
    }
    var user := created.value;
    var token := GenerateToken(svc.sign, user);
    if token.None? {
      return Reply(500, Message(RegisterFailed));
    }
    reply := Reply(201, Session(Welcome(user.isVerified),
                                SessionUser(user.id, user.name, None, user.role, user.isVerified), token.value));
  }

  // ---------------------------------------------------------------- properties of register

  /**
   * The account register creates: the cleaned email, the hashed password, a
   * role that is student or alumni (never admin), and the verification status
   * decided at sign-up.
   */
  lemma CreatedAccount(rows: seq<User>, req: RegisterRequest, recognize: string -> Recognition,
                       hash: string -> string, newId: string, clock: nat)
    requires PassesChecks(rows, req)
    requires Validate(DraftOf(req, recognize)).Ok?
    ensures var d := DraftOf(req, recognize);
      var u := NewRow(Validate(d).value, newId, clock).(password := hash(d.password));
      u.email == CleanEmail(req.email.value) && u.password == hash(req.password.value)
      && (u.role == "student" || u.role == "alumni")
      && u.isVerified == VerifiedAtSignup(req, recognize)
      && (u.role == "student" ==> u.studentIdCardUrl == req.studentIdCardImage.value && u.idCardUrl == "")
      && (u.role == "alumni" ==> u.studentIdCardUrl == "")
  {
  }

  /** A student whose card does not match is still registered, only unverified. */
  lemma FailedMatchStillRegisters(rows: seq<User>, req: RegisterRequest, recognize: string -> Recognition)
    requires PassesChecks(rows, req) && RequestedRole(req) == "student"
    requires CleanEmail(req.email.value) != ""
    requires !VerifyStudentOcr(recognize, req.studentIdCardImage.value, req.name.value, req.rollNumber.value).Succeeded()
    requires CastGraduationYear(req.graduationYear).Ok?
    ensures Validate(DraftOf(req, recognize)).Ok?
    ensures !Validate(DraftOf(req, recognize)).value.isVerified
  {
    var d := DraftOf(req, recognize);
    ValidateAccepts(d);
  }

  /**
   * An email made only of whitespace passes the presence check but cleans to
   * the empty text, which the schema refuses: the request ends in a 500.
   */
  lemma BlankEmailFailsCreate(req: RegisterRequest, recognize: string -> Recognition)
    requires HasCredentials(req) && Trim(req.email.value) == ""
    ensures Validate(DraftOf(req, recognize)).Thrown?
  {
  }

  /** An alumnus who registers with an ID card but no corporate email stays unverified. */
  lemma CardAloneLeavesAlumnusUnverified(req: RegisterRequest, recognize: string -> Recognition)
    requires HasCredentials(req) && RequestedRole(req) == "alumni"
    requires !IsCorporateEmail(CleanWorkEmail(req.workEmail))
    ensures DraftOf(req, recognize).isVerified == Some(false)
  {
  }

  /** The role that reaches the table is never "admin". */
  lemma NoPublicAdmin(rows: seq<User>, req: RegisterRequest, recognize: string -> Recognition)
    requires PassesChecks(rows, req) && Validate(DraftOf(req, recognize)).Ok?
    ensures Validate(DraftOf(req, recognize)).value.role != "admin"
  {
  }

  // ---------------------------------------------------------------- login

  /**
   * `login(req, res)`: look the user up by the cleaned email, compare the
   * password against the stored hash, and answer with the user and a token.
   */
  function Login(rows: seq<User>, req: LoginRequest, svc: Services): (reply: Reply)
    ensures !Truthy(req.email) || !Truthy(req.password) ==> reply == Reply(400, Message("Email and password are required."))
    ensures Truthy(req.email) && Truthy(req.password) && !EmailTaken(rows, LoginEmail(req.email.value))
      ==> reply == Reply(404, Message("User not found."))
    ensures Truthy(req.email) && Truthy(req.password) && EmailTaken(rows, LoginEmail(req.email.value)) ==>
      var u := FindByEmail(rows, LoginEmail(req.email.value)).value;
      (!svc.compare(req.password.value, u.password) ==> reply == Reply(400, Message("Invalid credentials.")))
      && (svc.compare(req.password.value, u.password) && GenerateToken(svc.sign, u).None?
          ==> reply == Reply(500, Message("Server error.")))
    ensures reply.status == 200 <==>
      Truthy(req.email) && Truthy(req.password)
      && (exists u :: u in rows && u.email == LoginEmail(req.email.value) && svc.compare(req.password.value, u.password))
      && var u := FindByEmail(rows, LoginEmail(req.email.value)).value;
         svc.compare(req.password.value, u.password) && GenerateToken(svc.sign, u).Some?
    ensures reply.status == 200 ==>
      reply.body.Session? && reply.body.message == "Login successful."
      && var u := FindByEmail(rows, LoginEmail(req.email.value)).value;
         reply.body.user == SessionUser(u.id, u.name, Some(u.email), u.role, u.isVerified)
         && Some(reply.body.token) == GenerateToken(svc.sign, u)
  {
    if !Truthy(req.email) || !Truthy(req.password) then Reply(400, Message("Email and password are required."))
    else match FindByEmail(rows, LoginEmail(req.email.value))
      case None => Reply(404, Message("User not found."))
      case Some(u) =>
        if !svc.compare(req.password.value, u.password) then Reply(400, Message("Invalid credentials."))
        else match GenerateToken(svc.sign, u)
          case None => Reply(500, Message("Server error."))
          case Some(token) =>
            Reply(200, Session("Login successful.", SessionUser(u.id, u.name, Some(u.email), u.role, u.isVerified), token))
  }

  /**
   * With unique emails, the account registered under some email answers a
   * login with that same email (in any case and spacing register accepted) and
   * the password whose hash it stores, provided bcrypt accepts its own hashes
   * and the token is signed.
   */
  lemma RegisteredUserLogsIn(rows: seq<User>, clock: nat, u: User, email: string, password: string, svc: Services)
    requires WellFormed(rows, clock) && u in rows
    requires email != "" && password != ""
    requires u.email == CleanEmail(email) && u.password == svc.hash(password)
    requires svc.compare(password, svc.hash(password))
    requires GenerateToken(svc.sign, u).Some?
    ensures Login(rows, LoginRequest(Some(email), Some(password)), svc)
      == Reply(200, Session("Login successful.", SessionUser(u.id, u.name, Some(u.email), u.role, u.isVerified),
                            GenerateToken(svc.sign, u).value))
  {
    LoginEmailIsCleanEmail(email);
    FindByEmailOfStored(rows, clock, u);
  }
}

=== FILE: user_model.dfy ===
/**
 * The `User` schema: which fields are required for which role, the role enum and
 * its default, the casts applied on create, the `isVerified` default, and the
 * pre-save hook that hashes the password only when it was modified. bcrypt is an
 * opaque `hash` function.
 */
module UserModel {
  import opened Js

  /** The values the `role` path accepts. */
  const Roles: seq<string> := ["student", "alumni", "admin"]

  const DefaultRole: string := "student"

  /** The hexadecimal digits as `ObjectId.toString()` writes them. */
  const HexDigits := "0123456789abcdef"

  /** A Mongo ObjectId in its 24-hex-digit text form, the only id text the model casts. */
  predicate IsObjectId(s: string) {
    |s| == 24 && forall i :: 0 <= i < |s| ==> IsDigit(s[i]) || 'a' <= s[i] <= 'f' || 'A' <= s[i] <= 'F'
  }

  /** The cast accepts 24 characters, each a hex digit once lower-cased. */
  lemma ObjectIdDigits(s: string)
    ensures IsObjectId(s) <==> |s| == 24 && forall i :: 0 <= i < |s| ==> LowerChar(s[i]) in HexDigits
  {
    if |s| == 24 && forall i :: 0 <= i < |s| ==> LowerChar(s[i]) in HexDigits {
      forall i | 0 <= i < |s|
        ensures IsDigit(s[i]) || 'a' <= s[i] <= 'f' || 'A' <= s[i] <= 'F'
      {
        assert LowerChar(s[i]) in HexDigits;
      }
    }
  }

  /**
   * An id as the database holds it: `ObjectId.toString()` writes the twelve
   * bytes as lower-case hex.
   */
  predicate IsStoredId(s: string) {
    IsObjectId(s) && IsLower(s)
  }

  /**
   * The cast reads hex digits in either case: text is an ObjectId exactly when
   * its lower-cased text is, and then that lower-cased text is the stored form.
   */
  lemma ObjectIdIgnoresCase(s: string)
    ensures IsObjectId(s) <==> IsObjectId(ToLower(s))
    ensures IsObjectId(s) ==> IsStoredId(ToLower(s))
  {
    ToLowerIsLower(s);
    var l := ToLower(s);
    if IsObjectId(l) {
      forall i | 0 <= i < |s|
        ensures IsDigit(s[i]) || 'a' <= s[i] <= 'f' || 'A' <= s[i] <= 'F'
      {
        assert l[i] == LowerChar(s[i]);
      }
    }
    if IsObjectId(s) {
      forall i | 0 <= i < |l|
        ensures IsDigit(l[i]) || 'a' <= l[i] <= 'f' || 'A' <= l[i] <= 'F'
      {
        assert l[i] == LowerChar(s[i]);
      }
    }
  }

  /** The object handed to `User.create`; a field left undefined is None. */
  datatype Draft = Draft(
    name: string,
    email: string,
    password: string,
    role: Option<string>,
    rollNumber: Option<string>,
    graduationYear: Option<string>,
    workEmail: Option<string>,
    studentIdCardUrl: string,
    idCardUrl: string,
    isVerified: Option<bool>)

  /** A stored user row. `password` holds the hash. */
  datatype User = User(
    id: string,
    name: string,
    email: string,
    password: string,
    role: string,
    rollNumber: Option<string>,
    graduationYear: Option<int>,
    workEmail: Option<string>,
    studentIdCardUrl: string,
    idCardUrl: string,
    isVerified: bool,
    createdAt: nat)

  /** A `required` string path is satisfied only by a present, non-empty string. */
  predicate Present(s: Option<string>) {
    Truthy(s)
  }

  /** The role after the schema default is applied. */
  function RoleOf(d: Draft): (role: string)
    ensures d.role.None? ==> role == DefaultRole
    ensures d.role.Some? ==> role == d.role.value
  {
    d.role.GetOr(DefaultRole)
  }

  /** `rollNumber` is required exactly for students. */
  predicate RollNumberRequired(role: string) { role == "student" }

  /** `graduationYear` is required exactly for alumni. */
  predicate GraduationYearRequired(role: string) { role == "alumni" }

  /**
   * The Number cast of `graduationYear`: undefined and "" become no value, other
   * text becomes its number, and text that is not a number is a cast error.
   */
  function CastGraduationYear(v: Option<string>): (r: Result<Option<int>>)
    ensures v.None? || v == Some("") ==> r == Ok(None)
    ensures r.Ok? && r.value.Some? ==> v.Some? && ToNumber(v.value) == r.value
  {
    if v.None? || v.value == "" then Ok(None)
    else match ToNumber(v.value)
      case None => Thrown("Cast to Number failed for value \"" + v.value + "\" at path \"graduationYear\"")
      case Some(n) => Ok(Some(n))
  }

  /** What the schema keeps of a draft once validation and casting succeed. */
  datatype Validated = Validated(
    name: string,
    email: string,
    password: string,
    role: string,
    rollNumber: Option<string>,
    graduationYear: Option<int>,
    workEmail: Option<string>,
    studentIdCardUrl: string,
    idCardUrl: string,
    isVerified: bool)

  /**
   * Document validation on create: casts, defaults, the enum and the required
   * rules. Any failure is thrown as a validation error.
   */
  function Validate(d: Draft): (r: Result<Validated>)
    ensures r.Ok? ==> r.value.name != "" && r.value.email != "" && r.value.password != ""
    ensures r.Ok? ==> r.value.role in Roles && r.value.role == RoleOf(d)
    ensures r.Ok? && RollNumberRequired(r.value.role) ==> Present(r.value.rollNumber)
    ensures r.Ok? && GraduationYearRequired(r.value.role) ==> r.value.graduationYear.Some?
    ensures r.Ok? ==> r.value.isVerified == (d.isVerified == Some(true))
    ensures r.Ok? ==> r.value.name == d.name && r.value.email == d.email && r.value.password == d.password
    ensures r.Ok? ==> r.value.rollNumber == d.rollNumber && r.value.workEmail == d.workEmail
    ensures r.Ok? ==> CastGraduationYear(d.graduationYear) == Ok(r.value.graduationYear)
    ensures r.Ok? ==> r.value.studentIdCardUrl == d.studentIdCardUrl && r.value.idCardUrl == d.idCardUrl
  {
    var role := RoleOf(d);
    var year := CastGraduationYear(d.graduationYear);
    if year.Thrown? then Thrown(year.message)
    else if d.name == "" then Thrown("Path `name` is required.")
    else if d.email == "" then Thrown("Path `email` is required.")
    else if d.password == "" then Thrown("Path `password` is required.")
    else if role !in Roles then Thrown("`" + role + "` is not a valid enum value for path `role`.")
    else if RollNumberRequired(role) && !Present(d.rollNumber) then Thrown("Path `rollNumber` is required.")
    else if GraduationYearRequired(role) && year.value.None? then Thrown("Path `graduationYear` is required.")
    else Ok(Validated(d.name, d.email, d.password, role, d.rollNumber, year.value, d.workEmail,
                      d.studentIdCardUrl, d.idCardUrl, d.isVerified.GetOr(false)))
  }

  /**
   * The converse of Validate's contract: a draft whose casts succeed and that has
   * every path its role requires is accepted, and an undefined role becomes "student".
   */
  lemma ValidateAccepts(d: Draft)
    requires CastGraduationYear(d.graduationYear).Ok?
    requires d.name != "" && d.email != "" && d.password != ""
    requires RoleOf(d) in Roles
    requires RollNumberRequired(RoleOf(d)) ==> Present(d.rollNumber)
    requires GraduationYearRequired(RoleOf(d)) ==> CastGraduationYear(d.graduationYear).value.Some?
    ensures Validate(d).Ok?
    ensures d.role.None? ==> Validate(d).value.role == "student"
    ensures d.isVerified.None? ==> !Validate(d).value.isVerified
  {
  }

  /** A student draft without a roll number is refused, whatever else it holds. */
  lemma StudentNeedsRollNumber(d: Draft)
    requires RoleOf(d) == "student" && !Present(d.rollNumber)
    ensures Validate(d).Thrown?
  {
  }

  /** An alumni draft without a graduation year is refused, whatever else it holds. */
  lemma AlumniNeedsGraduationYear(d: Draft)
    requires RoleOf(d) == "alumni" && (d.graduationYear.None? || d.graduationYear == Some(""))
    ensures Validate(d).Thrown?
  {
  }

  /** A role outside the enum is refused. */
  lemma RoleOutsideEnumRefused(d: Draft)
    requires d.role.Some? && d.role.value !in Roles
    ensures Validate(d).Thrown?
  {
  }

  /**
   * A user document as Mongoose holds it in memory: the row and whether its
   * password path has been modified since it was loaded.
   */
  class UserDocument {
    var row: User
    var passwordModified: bool

    /** A new document: every path, the password included, counts as modified. */
    constructor Create(row: User)
      ensures this.row == row && passwordModified
    {
      this.row := row;
      passwordModified := true;
    }

    /** A document loaded from the table: nothing is modified yet. */
    constructor Load(row: User)
      ensures this.row == row && !passwordModified
    {
      this.row := row;
      passwordModified := false;
    }

    /** `doc.isVerified = true`. */
    method MarkVerified()
      modifies this
      ensures row == old(row).(isVerified := true)
      ensures passwordModified == old(passwordModified)
    {
      row := row.(isVerified := true);
    }

    /**
     * The pre-save hook: the password is replaced by its hash only when it was
     * modified; every other path is kept.
     */
    method PreSave(hash: string -> string)
      modifies this
      ensures old(passwordModified) ==> row == old(row).(password := hash(old(row).password))
      ensures !old(passwordModified) ==> row == old(row)
      ensures !passwordModified
    {
      if passwordModified {
        row := row.(password := hash(row.password));
      }
      passwordModified := false;
    }
  }

  // ---------------------------------------------------------------- the collection

  /** A stored row satisfies every rule the schema checks on save. */
  predicate Conforms(u: User) {
    u.name != "" && u.email != "" && u.role in Roles
    && (RollNumberRequired(u.role) ==> Present(u.rollNumber))
    && (GraduationYearRequired(u.role) ==> u.graduationYear.Some?)
  }

  /** The row `create` inserts for a validated draft, before the pre-save hook runs. */
  function NewRow(v: Validated, id: string, createdAt: nat): User
  {
    User(id, v.name, v.email, v.password, v.role, v.rollNumber, v.graduationYear, v.workEmail,
         v.studentIdCardUrl, v.idCardUrl, v.isVerified, createdAt)
  }

  /** Some row has this email: what `findOne({ email })` finds. */
  predicate EmailTaken(rows: seq<User>, email: string) {
    exists i :: 0 <= i < |rows| && rows[i].email == email
  }

  /** The first row with this email, or None when there is none. */
  function FindByEmail(rows: seq<User>, email: string): (r: Option<User>)
    ensures r.Some? ==> r.value in rows && r.value.email == email
    ensures r.None? <==> !EmailTaken(rows, email)
  {
    if rows == [] then None
    else if rows[0].email == email then Some(rows[0])
    else
      var r := FindByEmail(rows[1..], email);
      assert EmailTaken(rows[1..], email) ==> EmailTaken(rows, email) by {
        if EmailTaken(rows[1..], email) {
          var i :| 0 <= i < |rows[1..]| && rows[1..][i].email == email;
          assert rows[i + 1].email == email;
        }
      }
      r
  }

  /** With unique emails, looking up a stored user's email finds that user. */
  lemma FindByEmailOfStored(rows: seq<User>, clock: nat, u: User)
    requires WellFormed(rows, clock) && u in rows
    ensures FindByEmail(rows, u.email) == Some(u)
  {
    var i :| 0 <= i < |rows| && rows[i] == u;
    assert EmailTaken(rows, u.email) by { assert rows[i].email == u.email; }
    var found := FindByEmail(rows, u.email);
    var j :| 0 <= j < |rows| && rows[j] == found.value;
    assert rows[j].email == rows[i].email;
    assert i == j;
  }

  /** The position of the row with this id, or None when there is none. */
  function IndexOfId(rows: seq<User>, id: string): (r: Option<nat>)
    ensures r.Some? ==> r.value < |rows| && rows[r.value].id == id
    ensures r.None? ==> forall i :: 0 <= i < |rows| ==> rows[i].id != id
  {
    if rows == [] then None
    else if rows[0].id == id then Some(0)
    else match IndexOfId(rows[1..], id)
      case None => None
      case Some(k) => Some(k + 1)
  }

  /**
   * `findById(id)`: text that is not an ObjectId cannot be cast and throws; a
   * well-formed id, in either case, gives the row holding that id, if any.
   */
  function FindById(rows: seq<User>, id: string): (r: Result<Option<User>>)
    ensures !IsObjectId(id) ==> r.Thrown?
    ensures IsObjectId(id) ==> r.Ok?
    ensures r.Ok? && r.value.Some? ==> r.value.value in rows && r.value.value.id == ToLower(id)
    ensures r.Ok? && r.value.None? ==> forall i :: 0 <= i < |rows| ==> rows[i].id != ToLower(id)
  {
    if !IsObjectId(id) then Thrown("Cast to ObjectId failed for value \"" + id + "\" at path \"_id\"")
    else match IndexOfId(rows, ToLower(id))
      case None => Ok(None)
      case Some(k) => Ok(Some(rows[k]))
  }

  /** Any spelling of a stored id, upper- or lower-case, finds its row. */
  lemma FindByIdIgnoresCase(rows: seq<User>, clock: nat, k: nat, id: string)
    requires WellFormed(rows, clock) && k < |rows|
    requires ToLower(id) == rows[k].id
    ensures FindById(rows, id) == Ok(Some(rows[k]))
  {
    ObjectIdIgnoresCase(id);
    var j := IndexOfId(rows, ToLower(id)).value;
    assert j == k;
  }

  /** Ids and emails are unique, rows conform, and `createdAt` grows in insertion order. */
  predicate WellFormed(rows: seq<User>, clock: nat) {
    (forall i :: 0 <= i < |rows| ==> Conforms(rows[i]) && IsStoredId(rows[i].id) && rows[i].createdAt < clock)
    && (forall i, j :: 0 <= i < j < |rows| ==>
          rows[i].id != rows[j].id && rows[i].email != rows[j].email && rows[i].createdAt < rows[j].createdAt)
  }

  /** The rows without the first one that has this id. */
  function RemoveId(rows: seq<User>, id: string): (r: seq<User>)
    ensures |r| == |rows| - (if exists i :: 0 <= i < |rows| && rows[i].id == id then 1 else 0)
    ensures forall u :: u in r ==> u in rows
    ensures forall u :: u in rows && u.id != id ==> u in r
  {
    match IndexOfId(rows, id)
    case None => rows
    case Some(k) => rows[..k] + rows[k + 1..]
  }

  /** Two tables with the same ids position by position locate every id alike. */
  lemma {:induction false} IndexOfIdSameIds(a: seq<User>, b: seq<User>, id: string)
    requires |a| == |b| && forall i :: 0 <= i < |a| ==> a[i].id == b[i].id
    ensures IndexOfId(a, id) == IndexOfId(b, id)
  {
    if a != [] {
      IndexOfIdSameIds(a[1..], b[1..], id);
    }
  }

  /** Dropping the row at `k` keeps the table well formed and loses only that row. */
  lemma RemoveAtKeeps(rows: seq<User>, clock: nat, k: nat)
    requires WellFormed(rows, clock) && k < |rows|
    ensures WellFormed(rows[..k] + rows[k + 1..], clock)
    ensures forall u :: u in rows[..k] + rows[k + 1..] <==> u in rows && u.id != rows[k].id
  {
    RemoveAtWellFormed(rows, clock, k);
    RemoveAtMembers(rows, clock, k);
  }

  lemma RemoveAtWellFormed(rows: seq<User>, clock: nat, k: nat)
    requires WellFormed(rows, clock) && k < |rows|
    ensures WellFormed(rows[..k] + rows[k + 1..], clock)
  {
    RemoveAtLayout(rows, k);
  }

  lemma RemoveAtMembers(rows: seq<User>, clock: nat, k: nat)
    requires WellFormed(rows, clock) && k < |rows|
    ensures forall u :: u in rows[..k] + rows[k + 1..] <==> u in rows && u.id != rows[k].id
  {
    var rest := rows[..k] + rows[k + 1..];
    RemoveAtLayout(rows, k);
    forall u | u in rows && u.id != rows[k].id
      ensures u in rest
    {
      var i :| 0 <= i < |rows| && rows[i] == u;
      assert rest[if i < k then i else i - 1] == u;
    }
  }

  /** Where each remaining row sits once the row at `k` is dropped. */
  lemma RemoveAtLayout(rows: seq<User>, k: nat)
    requires k < |rows|
    ensures forall i :: 0 <= i < k ==> (rows[..k] + rows[k + 1..])[i] == rows[i]
    ensures forall i :: k < i < |rows| ==> (rows[..k] + rows[k + 1..])[i - 1] == rows[i]
  {
  }

  /** Appending a conforming row with a fresh id, a fresh email and the current clock keeps the table well formed. */
  lemma AppendKeeps(rows: seq<User>, clock: nat, u: User)
    requires WellFormed(rows, clock)
    requires Conforms(u) && IsStoredId(u.id) && u.createdAt == clock
    requires forall i :: 0 <= i < |rows| ==> rows[i].id != u.id
    requires !EmailTaken(rows, u.email)
    ensures WellFormed(rows + [u], clock + 1)
  {
    var s := rows + [u];
    assert forall i :: 0 <= i < |rows| ==> s[i] == rows[i];
    assert s[|rows|] == u;
  }

  /** A validated draft makes a conforming row, whatever the stored password becomes. */
  lemma NewRowConforms(d: Draft, id: string, createdAt: nat, password: string)
    requires Validate(d).Ok?
    ensures Conforms(NewRow(Validate(d).value, id, createdAt).(password := password))
  {
  }

  /**
   * The `users` collection: its rows in insertion order and the clock that
   * stamps `createdAt`.
   */
  class Collection {
    var rows: seq<User>
    var clock: nat

    predicate Valid()
      reads this
    {
      WellFormed(rows, clock)
    }

    predicate HasId(id: string)
      reads this
    {
      exists i :: 0 <= i < |rows| && rows[i].id == id
    }

    constructor ()
      ensures Valid() && rows == []
    {
      rows := [];
      clock := 0;
    }

    /**
     * `User.create(draft)`: validation, then the pre-save hook on the new
     * document, then the insert, which the unique index on `email` refuses for
     * an email already stored.
     */
    method Create(d: Draft, newId: string, hash: string -> string) returns (r: Result<User>)
      requires Valid() && IsStoredId(newId) && !HasId(newId)
      modifies this
      ensures Valid()
      ensures Validate(d).Thrown? ==> r == Thrown(Validate(d).message)
      ensures Validate(d).Ok? && EmailTaken(old(rows), d.email) ==> r.Thrown?
      ensures Validate(d).Ok? && !EmailTaken(old(rows), d.email) ==>
        r == Ok(NewRow(Validate(d).value, newId, old(clock)).(password := hash(d.password)))
      ensures r.Thrown? ==> rows == old(rows) && clock == old(clock)
      ensures r.Ok? ==> rows == old(rows) + [r.value] && clock == old(clock) + 1
    {
      var v := Validate(d);
      if v.Thrown? {
        return Thrown(v.message);
      }
      var row := NewRow(v.value, newId, clock).(password := hash(d.password));
      var doc := new UserDocument.Create(NewRow(v.value, newId, clock));
      doc.PreSave(hash);
      assert doc.row == row && row.email == d.email;
      if FindByEmail(rows, doc.row.email).Some? {
        return Thrown("E11000 duplicate key error collection: users index: email_1");
      }
      NewRowConforms(d, newId, clock, hash(d.password));
      Insert(doc.row);
      r := Ok(row);
    }

    /** The insert itself: the row is stamped with the clock, which then moves on. */
    method Insert(u: User)
      requires Valid() && Conforms(u) && IsStoredId(u.id) && !HasId(u.id)
      requires !EmailTaken(rows, u.email) && u.createdAt == clock
      modifies this
      ensures Valid()
      ensures rows == old(rows) + [u] && clock == old(clock) + 1
    {
      AppendKeeps(rows, clock, u);
      rows := rows + [u];
      clock := clock + 1;
    }

    /** `findByIdAndDelete(id)`: removes the row holding that id, in either case, if there is one. */
    method DeleteById(id: string) returns (r: Result<bool>)
      requires Valid()
      modifies this
      ensures Valid() && clock == old(clock)
      ensures !IsObjectId(id) ==> r.Thrown? && rows == old(rows)
      ensures IsObjectId(id) ==> r.Ok?
      ensures r.Ok? ==> forall u :: u in rows <==> u in old(rows) && u.id != ToLower(id)
      ensures r.Ok? ==> |rows| == |old(rows)| - (if r.value then 1 else 0)
      ensures r.Ok? ==> (r.value <==> old(HasId(ToLower(id))))
      ensures r.Ok? && !r.value ==> rows == old(rows)
      ensures r.Ok? ==> rows == RemoveId(old(rows), ToLower(id))
    {
      if !IsObjectId(id) {
        return Thrown("Cast to ObjectId failed for value \"" + id + "\" at path \"_id\"");
      }
      match IndexOfId(rows, ToLower(id))
      case None =>
        r := Ok(false);
      case Some(k) =>
        RemoveAtKeeps(rows, clock, k);
        rows := rows[..k] + rows[k + 1..];
        r := Ok(true);
    }

    /**
     * `doc.save()` for a document loaded from this collection: the pre-save hook
     * runs and the row with the document's id is replaced.
     */
    method Save(doc: UserDocument, k: nat, hash: string -> string)
      requires Valid() && k < |rows|
      requires doc.row.id == rows[k].id && doc.row.email == rows[k].email && doc.row.createdAt == rows[k].createdAt
      requires Conforms(doc.row)
      modifies this, doc
      ensures Valid() && clock == old(clock) && !doc.passwordModified
      ensures old(doc.passwordModified) ==> doc.row == old(doc.row).(password := hash(old(doc.row).password))
      ensures !old(doc.passwordModified) ==> doc.row == old(doc.row)
      ensures rows == old(rows)[k := doc.row]
    {
      doc.PreSave(hash);
      rows := rows[k := doc.row];
    }
  }
}

=== FILE: workshop_creator.dfy ===
/**
 * The alumni's workshop creator: the agenda, whose items are objects that an
 * edit changes in place, the tags, the two one-click templates, the session
 * settings, the AI fill, and the agenda's total duration. Durations are kept
 * as the text the number inputs hold; the initial numbers are their decimal
 * text, which `parseInt` reads the same way.
 */
module WorkshopCreator {
  import opened Js

  /** One agenda step; `kind` is the source's `type`. */
  class AgendaItem {
    var title: string
    var kind: string
    var duration: string

    constructor (title: string, kind: string, duration: string)
      ensures this.title == title && this.kind == kind && this.duration == duration
    {
      this.title, this.kind, this.duration := title, kind, duration;
    }
  }

  /** An agenda step as a value, for templates and specifications. */
  datatype Step = Step(title: string, kind: string, duration: string)

  datatype Template = Template(title: string, level: string, tags: seq<string>, agenda: seq<Step>)

  const Templates: seq<Template> := [
    Template("Resume Mastery", "Beginner", ["Career", "Soft Skills"],
             [Step("ATS Secrets", "Lecture", "30"), Step("Live Reviews", "Hands-on", "60")]),
    Template("System Design 101", "Intermediate", ["Architecture", "Backend"],
             [Step("Scaling Basics", "Lecture", "45"), Step("Design Twitter", "Hands-on", "60")])
  ]

  const InitialAgenda: seq<Step> := [Step("Introduction & Welcome", "Lecture", "15"), Step("Core Concepts Deep Dive", "Lecture", "45")]
  const NewStep: Step := Step("", "Lecture", "30")
  const InitialSettings: map<string, bool> := map["recordSession" := true, "issueCertificate" := true, "enableQnA" := true]
  const AiTags: seq<string> := ["Development", "Career Growth", "Upskilling"]
  const TitleFirst: string := "Please enter a title first!"

  // ---------------------------------------------------------------- durations

  /** `parseInt(duration || 0)`: an empty input counts as 0; text that is not a number is NaN. */
  function Minutes(duration: string): (m: Option<int>)
    ensures duration == "" ==> m == Some(0)
    ensures duration != "" ==> m == ParseInt(duration)
  {
    if duration == "" then Some(0) else ParseInt(duration)
  }

  /** `xs.reduce((acc, x) => acc + f(x), 0)`: one NaN term makes the whole sum NaN. */
  function Total<T>(f: T -> Option<int>, xs: seq<T>): (total: Option<int>)
    ensures total.Some? <==> forall i :: 0 <= i < |xs| ==> f(xs[i]).Some?
  {
    if xs == [] then Some(0)
    else match (f(xs[0]), Total(f, xs[1..]))
      case (Some(m), Some(t)) => Some(m + t)
      case _ => None
  }

  /** One more term adds its value to a sum that is a number. */
  lemma {:induction false} TotalAppend<T>(f: T -> Option<int>, xs: seq<T>, x: T)
    requires Total(f, xs).Some? && f(x).Some?
    ensures Total(f, xs + [x]) == Some(Total(f, xs).value + f(x).value)
  {
    if xs == [] {
      assert [x][1..] == [];
    } else {
      assert (xs + [x])[0] == xs[0];
      assert (xs + [x])[1..] == xs[1..] + [x];
      TotalAppend(f, xs[1..], x);
    }
  }

  /** The agenda's total in minutes. */
  function TotalMinutes(durations: seq<string>): Option<int> {
    Total(Minutes, durations)
  }

  /** JavaScript's `%`: the remainder takes the sign of the dividend. */
  function JsRemainder(a: int, b: int): (r: int)
    requires b > 0
    ensures a >= 0 ==> 0 <= r < b
    ensures a < 0 ==> -b < r <= 0
    ensures a >= 0 ==> r == a % b
  {
    if a >= 0 then a % b else -((-a) % b)
  }

  /** `Math.floor(total / 60)` and `total % 60`. */
  function HoursAndMinutes(total: int): (hm: (int, int))
    ensures total >= 0 ==> hm.0 * 60 + hm.1 == total && 0 <= hm.1 < 60 && hm.0 >= 0
  {
    (total / 60, JsRemainder(total, 60))
  }

  /** A negative total (a negative duration typed in) is shown as floor hours and truncated minutes, which do not add back up. */
  lemma NegativeTotalDoesNotAddUp()
    ensures HoursAndMinutes(-5) == (-1, -5)
    ensures HoursAndMinutes(-5).0 * 60 + HoursAndMinutes(-5).1 != -5
  {
  }

  // ---------------------------------------------------------------- settings labels

  /** `key.replace(/([A-Z])/g, ' $1')`: a space before every capital letter. */
  function SpaceBeforeCapitals(s: string): (r: string)
    ensures r != [] ==> !IsUpper(r[0])
    ensures |r| >= |s|
    ensures s != [] ==> r != [] && r[|r| - 1] == s[|s| - 1] && (!IsUpper(s[0]) ==> r[0] == s[0])
  {
    if s == [] then []
    else (if IsUpper(s[0]) then [' ', s[0]] else [s[0]]) + SpaceBeforeCapitals(s[1..])
  }

  /** Removes each space that stands right before a capital letter. */
  function JoinCapitals(r: string): string {
    if r == [] then []
    else if |r| >= 2 && r[0] == ' ' && IsUpper(r[1]) then JoinCapitals(r[1..])
    else [r[0]] + JoinCapitals(r[1..])
  }

  /** The inserted spaces are exactly the ones before capitals: removing them gives the key back. */
  lemma {:induction false} JoinCapitalsInverts(s: string)
    ensures JoinCapitals(SpaceBeforeCapitals(s)) == s
  {
    if s != [] {
      JoinCapitalsInverts(s[1..]);
      var rest := SpaceBeforeCapitals(s[1..]);
      if IsUpper(s[0]) {
        assert SpaceBeforeCapitals(s) == [' ', s[0]] + rest;
        assert ([' ', s[0]] + rest)[1..] == [s[0]] + rest;
        assert ([s[0]] + rest)[1..] == rest;
      } else {
        assert SpaceBeforeCapitals(s) == [s[0]] + rest;
        assert ([s[0]] + rest)[1..] == rest;
      }
    }
  }

  /** The label a setting is shown with: spaced at the capitals, then trimmed. */
  function SettingLabel(key: string): (text: string)
    ensures key != [] && !IsSpace(key[0]) && !IsUpper(key[0]) && !IsSpace(key[|key| - 1]) ==>
      text == SpaceBeforeCapitals(key) && JoinCapitals(text) == key
  {
    var spaced := SpaceBeforeCapitals(key);
    JoinCapitalsInverts(key);
    assert spaced != [] && !IsSpace(spaced[0]) && !IsSpace(spaced[|spaced| - 1]) ==> TrimStart(spaced) == spaced && TrimEnd(spaced) == spaced;
    Trim(spaced)
  }

  // ---------------------------------------------------------------- the form

  function AiShortDesc(title: string): string {
    "Master " + title + " in this comprehensive workshop."
  }

  const AiIntro: string := "Join us for an intensive session on "
  const AiSyllabus: string := ". We will cover everything from the basics to advanced patterns. \n\nWhat you will learn:\n• Core principles\n• Industry best practices\n• Real-world applications\n\nPerfect for "
  const AiClosing: string := " developers looking to upskill."

  function AiDescription(title: string, level: string): string {
    AiIntro + title + AiSyllabus + level + AiClosing
  }

  class Creator {
    var title: string
    var shortDesc: string
    var description: string
    var level: string
    var tags: seq<string>
    var agenda: seq<AgendaItem>
    var settings: map<string, bool>
    var aiLoading: bool
    /** The text of the tag input box. */
    var tagInput: string
    /** Every alert shown, in order. */
    var alerts: seq<string>

    /** No agenda item appears twice. */
    predicate Valid()
      reads this
    {
      forall i, j :: 0 <= i < j < |agenda| ==> agenda[i] != agenda[j]
    }

    /** The agenda as values. */
    function Steps(): (steps: seq<Step>)
      reads this, agenda
      ensures |steps| == |agenda|
    {
      seq(|agenda|, i reads this, agenda requires 0 <= i < |agenda| => Step(agenda[i].title, agenda[i].kind, agenda[i].duration))
    }

    function Durations(): (ds: seq<string>)
      reads this, agenda
      ensures |ds| == |agenda| && forall i :: 0 <= i < |ds| ==> ds[i] == agenda[i].duration
    {
      seq(|agenda|, i reads this, agenda requires 0 <= i < |agenda| => agenda[i].duration)
    }

    constructor ()
      ensures Valid() && Steps() == InitialAgenda && fresh(agenda)
      ensures title == "" && shortDesc == "" && description == "" && level == "Beginner" && tags == []
      ensures settings == InitialSettings && !aiLoading && tagInput == "" && alerts == []
    {
      var first := new AgendaItem("Introduction & Welcome", "Lecture", "15");
      var second := new AgendaItem("Core Concepts Deep Dive", "Lecture", "45");
      title, shortDesc, description, level, tags := "", "", "", "Beginner", [];
      agenda := [first, second];
      settings := InitialSettings;
      aiLoading, tagInput, alerts := false, "", [];
    }

    /**
     * `handleAgendaChange(index, field, value)`: the array is copied but the
     * item object is shared, so the step itself changes in place.
     */
    method AgendaChange(index: nat, field: string, value: string)
      requires Valid() && index < |agenda| && field in {"title", "type", "duration"}
      modifies agenda[index]
      ensures Valid() && agenda == old(agenda)
      ensures Steps()[index] == (var s := old(Steps()[index]);
        if field == "title" then s.(title := value) else if field == "type" then s.(kind := value) else s.(duration := value))
      ensures forall j :: 0 <= j < |agenda| && j != index ==> Steps()[j] == old(Steps()[j])
    {
      var item := agenda[index];
      if field == "title" {
        item.title := value;
      } else if field == "type" {
        item.kind := value;
      } else {
        item.duration := value;
      }
    }

    /** `addAgendaStep`: a new 30-minute lecture with no title goes at the end. */
    method AddAgendaStep()
      requires Valid()
      modifies this
      ensures Valid() && Steps() == old(Steps()) + [NewStep]
      ensures |agenda| == |old(agenda)| + 1 && agenda[..|old(agenda)|] == old(agenda) && fresh(agenda[|agenda| - 1])
      ensures title == old(title) && shortDesc == old(shortDesc) && description == old(description) && level == old(level)
      ensures tags == old(tags) && settings == old(settings) && aiLoading == old(aiLoading)
      ensures tagInput == old(tagInput) && alerts == old(alerts)
    {
      var item := new AgendaItem("", "Lecture", "30");
      agenda := agenda + [item];
    }

    /** `removeAgendaStep(index)`: only that step goes; the others keep their order. */
    method RemoveAgendaStep(index: nat)
      requires Valid()
      modifies this
      ensures Valid() && agenda == RemoveIndex(old(agenda), index)
      ensures title == old(title) && shortDesc == old(shortDesc) && description == old(description) && level == old(level)
      ensures tags == old(tags) && settings == old(settings) && aiLoading == old(aiLoading)
      ensures tagInput == old(tagInput) && alerts == old(alerts)
    {
      agenda := RemoveIndex(agenda, index);
      assert forall i :: 0 <= i < |agenda| ==> agenda[i] == old(agenda)[if i < index then i else i + 1];
    }

    /** `handleTagKeyDown`: Enter with text in the box appends it, duplicates included, and clears the box. */
    method TagKeyDown(key: string)
      modifies this
      ensures key == "Enter" && old(tagInput) != "" ==> tags == old(tags) + [old(tagInput)] && tagInput == ""
      ensures !(key == "Enter" && old(tagInput) != "") ==> tags == old(tags) && tagInput == old(tagInput)
      ensures title == old(title) && shortDesc == old(shortDesc) && description == old(description) && level == old(level)
      ensures agenda == old(agenda) && settings == old(settings) && aiLoading == old(aiLoading) && alerts == old(alerts)
    {
      if key == "Enter" && tagInput != "" {
        tags := tags + [tagInput];
        tagInput := "";
      }
    }

    /** `removeTag(tag)`: every equal tag goes. */
    method RemoveTag(tag: string)
      modifies this
      ensures tags == RemoveAll(old(tags), tag)
      ensures title == old(title) && shortDesc == old(shortDesc) && description == old(description) && level == old(level)
      ensures agenda == old(agenda) && settings == old(settings) && aiLoading == old(aiLoading)
      ensures tagInput == old(tagInput) && alerts == old(alerts)
    {
      tags := RemoveAll(tags, tag);
    }

    /** `applyTemplate(t)`: title, level, tags and agenda are replaced, nothing else. */
    method ApplyTemplate(k: nat)
      requires k < |Templates|
      modifies this
      ensures Valid() && Steps() == Templates[k].agenda && fresh(agenda)
      ensures title == Templates[k].title && level == Templates[k].level && tags == Templates[k].tags
      ensures shortDesc == old(shortDesc) && description == old(description) && settings == old(settings)
      ensures aiLoading == old(aiLoading) && tagInput == old(tagInput) && alerts == old(alerts)
    {
      var t := Templates[k];
      var first := new AgendaItem(t.agenda[0].title, t.agenda[0].kind, t.agenda[0].duration);
      var second := new AgendaItem(t.agenda[1].title, t.agenda[1].kind, t.agenda[1].duration);
      title, level, tags := t.title, t.level, t.tags;
      agenda := [first, second];
    }

    /** The settings switch: only the clicked setting flips. */
    method ToggleSetting(key: string)
      requires key in settings
      modifies this
      ensures settings == old(settings)[key := !old(settings)[key]]
      ensures title == old(title) && shortDesc == old(shortDesc) && description == old(description) && level == old(level)
      ensures tags == old(tags) && agenda == old(agenda) && aiLoading == old(aiLoading)
      ensures tagInput == old(tagInput) && alerts == old(alerts)
    {
      settings := settings[key := !settings[key]];
    }

    /**
     * `handleAiGenerate` once its delay has passed: without a title it only
     * alerts; otherwise it fills the short and long descriptions and the tags.
     */
    method AiGenerate()
      requires !aiLoading
      modifies this
      ensures !aiLoading && title == old(title) && level == old(level) && agenda == old(agenda)
      ensures settings == old(settings) && tagInput == old(tagInput)
      ensures old(title) == "" ==>
        (alerts == old(alerts) + [TitleFirst] && shortDesc == old(shortDesc) && description == old(description) && tags == old(tags))
      ensures old(title) != "" ==>
        (alerts == old(alerts) && shortDesc == AiShortDesc(title) && description == AiDescription(title, level) && tags == AiTags)
    {
      if title == "" {
        alerts := alerts + [TitleFirst];
      } else {
        aiLoading := true;
        shortDesc := AiShortDesc(title);
        description := AiDescription(title, level);
        tags := AiTags;
        aiLoading := false;
      }
    }
  }

  /** A new step's default duration reads as 30 minutes. */
  lemma NewStepThirtyMinutes()
    ensures Minutes(NewStep.duration) == Some(30)
  {
    assert NatToString(30) == "30";
    ParseIntOfNatToString(30);
  }

  /** A new step adds 30 minutes to a total that is a number. */
  lemma AddStepAddsThirty(durations: seq<string>)
    requires TotalMinutes(durations).Some?
    ensures TotalMinutes(durations + [NewStep.duration]) == Some(TotalMinutes(durations).value + 30)
  {
    NewStepThirtyMinutes();
    TotalAppend(Minutes, durations, NewStep.duration);
  }
}

=== FILE: workshop_manager.dfy ===
/**
 * The alumni's workshop manager: the registration and revenue totals, the tab
 * filter, the November calendar, the meeting code, and the page state that
 * creating, deleting and picking a day change. The random numbers, today's
 * date and the confirmation dialog's answer are parameters.
 */
module WorkshopManager {
  import opened Js

  datatype Workshop = Workshop(id: string, title: string, date: string, time: string,
                               attendees: int, status: string, mode: string, price: int)

  /** The workshops the page starts with. */
  const InitialData: seq<Workshop> := [
    Workshop("WS-001", "System Design for Beginners", "2025-11-21", "14:00", 45, "Live", "Online", 0),
    Workshop("WS-002", "Resume Review Session", "2025-11-25", "18:00", 12, "Scheduled", "Online", 499)
  ]

  /** The keys of the creation form. */
  const FormFields: set<string> := {"title", "description", "date", "time", "mode", "price", "seats"}

  /** The creation form as the page resets it; the number 50 in `seats` is held as the text "50". */
  const BlankForm: map<string, string> :=
    map["title" := "", "description" := "", "date" := "", "time" := "10:00", "mode" := "Online", "price" := "", "seats" := "50"]

  // ---------------------------------------------------------------- statistics

  /** The sum of attendees. */
  function Registrations(ws: seq<Workshop>): int {
    if ws == [] then 0 else ws[0].attendees + Registrations(ws[1..])
  }

  /** The sum of attendees times price. */
  function Revenue(ws: seq<Workshop>): int {
    if ws == [] then 0 else ws[0].attendees * ws[0].price + Revenue(ws[1..])
  }

  /** Both totals add up over a concatenation. */
  lemma {:induction false} TotalsAppend(a: seq<Workshop>, b: seq<Workshop>)
    ensures Registrations(a + b) == Registrations(a) + Registrations(b)
    ensures Revenue(a + b) == Revenue(a) + Revenue(b)
  {
    if a == [] {
      assert a + b == b;
    } else {
      assert (a + b)[0] == a[0];
      assert (a + b)[1..] == a[1..] + b;
      TotalsAppend(a[1..], b);
    }
  }

  // ---------------------------------------------------------------- creation

  /** `Number(price) || 0`: text that is not a number, and zero, give 0. */
  function PriceOf(text: string): (price: int)
    ensures Trim(text) == "" ==> price == 0
    ensures ToNumber(text).None? ==> price == 0
    ensures ToNumber(text).Some? ==> price == ToNumber(text).value
  {
    ToNumber(text).GetOr(0)
  }

  /** The workshop the form describes, with id `WS-` and the random number. */
  function NewWorkshop(form: map<string, string>, randomId: nat): (w: Workshop)
    requires FormFields <= form.Keys
    ensures w.attendees == 0 && w.status == "Scheduled" && w.price == PriceOf(form["price"])
    ensures w.title == form["title"] && w.date == form["date"] && w.time == form["time"] && w.mode == form["mode"]
    ensures w.id == "WS-" + NatToString(randomId)
  {
    Workshop("WS-" + NatToString(randomId), form["title"], form["date"], form["time"], 0, "Scheduled", form["mode"], PriceOf(form["price"]))
  }

  /** A new workshop has no attendees, so creating one changes neither total. */
  lemma CreateKeepsTotals(ws: seq<Workshop>, form: map<string, string>, randomId: nat)
    requires FormFields <= form.Keys
    ensures Registrations(ws + [NewWorkshop(form, randomId)]) == Registrations(ws)
    ensures Revenue(ws + [NewWorkshop(form, randomId)]) == Revenue(ws)
  {
    var w := NewWorkshop(form, randomId);
    assert [w][1..] == [];
    assert Registrations([w]) == 0 && Revenue([w]) == 0;
    TotalsAppend(ws, [w]);
  }

  // ---------------------------------------------------------------- deletion

  /** `workshops.filter(w => w.id !== id)`. */
  function WithoutId(ws: seq<Workshop>, id: string): (r: seq<Workshop>)
    ensures |r| <= |ws|
    ensures forall w :: w in r <==> w in ws && w.id != id
    ensures r == Filter((w: Workshop) => w.id != id, ws)
  {
    if ws == [] then []
    else if ws[0].id == id then WithoutId(ws[1..], id)
    else [ws[0]] + WithoutId(ws[1..], id)
  }

  /** With no negative attendance, cancelling never raises the registration total. */
  lemma {:induction false} WithoutIdLowersRegistrations(ws: seq<Workshop>, id: string)
    requires forall k :: 0 <= k < |ws| ==> ws[k].attendees >= 0
    ensures Registrations(WithoutId(ws, id)) <= Registrations(ws)
  {
    if ws != [] {
      WithoutIdLowersRegistrations(ws[1..], id);
    }
  }

  // ---------------------------------------------------------------- tabs

  /** JavaScript's `<` on strings: character by character, a proper prefix first (code points stand in for UTF-16 code units). */
  predicate StringLess(a: string, b: string) {
    if a == [] then b != []
    else if b == [] then false
    else if a[0] != b[0] then a[0] < b[0]
    else StringLess(a[1..], b[1..])
  }

  /** Whether a tab shows a workshop: by date against today, by draft status, or always. */
  predicate OnTab(w: Workshop, tab: string, today: string) {
    if tab == "upcoming" then !StringLess(w.date, today)
    else if tab == "past" then StringLess(w.date, today)
    else if tab == "drafts" then w.status == "Draft"
    else true
  }

  /** The list a tab renders: the workshops on that tab, in list order. */
  function Displayed(ws: seq<Workshop>, tab: string, today: string): (r: seq<Workshop>)
    ensures |r| <= |ws|
    ensures forall w :: w in r <==> w in ws && OnTab(w, tab, today)
    ensures r == Filter((w: Workshop) => OnTab(w, tab, today), ws)
  {
    if ws == [] then []
    else if OnTab(ws[0], tab, today) then [ws[0]] + Displayed(ws[1..], tab, today)
    else Displayed(ws[1..], tab, today)
  }

  /** The upcoming and past tabs partition the list: every workshop is on exactly one of them. */
  lemma {:induction false} UpcomingPastPartition(ws: seq<Workshop>, today: string)
    ensures |Displayed(ws, "upcoming", today)| + |Displayed(ws, "past", today)| == |ws|
    ensures forall w :: w in ws ==> (w in Displayed(ws, "upcoming", today) <==> w !in Displayed(ws, "past", today))
  {
    if ws != [] {
      UpcomingPastPartition(ws[1..], today);
    }
  }

  /** A tab other than the three named ones shows every workshop, in order. */
  lemma {:induction false} OtherTabShowsAll(ws: seq<Workshop>, tab: string, today: string)
    requires tab != "upcoming" && tab != "past" && tab != "drafts"
    ensures Displayed(ws, tab, today) == ws
  {
    if ws != [] {
      OtherTabShowsAll(ws[1..], tab, today);
    }
  }

  /** No workshop the page holds is a draft, so the drafts tab is always empty. */
  lemma {:induction false} DraftsTabEmpty(ws: seq<Workshop>, today: string)
    requires forall k :: 0 <= k < |ws| ==> ws[k].status != "Draft"
    ensures Displayed(ws, "drafts", today) == []
  {
    if ws != [] {
      DraftsTabEmpty(ws[1..], today);
    }
  }

  // ---------------------------------------------------------------- calendar and codes

  /** The day's two-digit text, as the calendar pads it. */
  function DayText(day: nat): (t: string)
    ensures day < 100 ==> |t| == 2
  {
    assert 10 <= day < 100 ==> |NatToString(day / 10)| == 1;
    PadStart2(NatToString(day))
  }

  /** The date a day click puts in the form: `2025-11-` and the padded day. */
  function DayDate(day: nat): (date: string)
    ensures |date| == 8 + |DayText(day)|
    ensures date[..8] == "2025-11-" && date[8..] == DayText(day)
    ensures EndsWith(date, "-" + DayText(day))
  {
    var date := "2025-11-" + DayText(day);
    assert date[|date| - |"-" + DayText(day)|..] == "-" + DayText(day);
    date
  }

  /** The day part of a day-click date reads back as the day. */
  lemma DayDateReadsBack(day: nat)
    requires 1 <= day < 100
    ensures |DayDate(day)| == 10
    ensures forall i :: 8 <= i < 10 ==> IsDigit(DayDate(day)[i])
    ensures DigitsValue(DayDate(day)[8..]) == day
  {
    var t := DayText(day);
    if day < 10 {
      assert t == ['0', DigitChar(day)];
      assert t[..1] == ['0'];
      assert DigitsValue(t) == 10 * DigitsValue(['0']) + day;
      assert ['0'][..0] == [];
    } else {
      DigitsValueOfNatToString(day);
    }
  }

  /** The calendar marks a day when some workshop's date ends with `-` and the padded day. */
  predicate HasEvent(ws: seq<Workshop>, day: nat) {
    exists k :: 0 <= k < |ws| && EndsWith(ws[k].date, "-" + DayText(day))
  }

  /** `WK-`, the id's piece after the first `-` ("undefined" when it has none), `-` and 1000 plus the random part. */
  function MeetingCode(id: string, random: nat): (code: string)
    requires random < 9000
    ensures StartsWith(code, "WK-")
    ensures EndsWith(code, "-" + NatToString(1000 + random))
    ensures |NatToString(1000 + random)| == 4
  {
    var part := match Piece(id, '-', 1) case Some(p) => p case None => "undefined";
    FourDigits(1000 + random);
    var code := "WK-" + part + "-" + NatToString(1000 + random);
    assert code[..3] == "WK-";
    assert code[|code| - 5..] == "-" + NatToString(1000 + random);
    code
  }

  /** A created workshop `WS-n` gets the code `WK-n-` and four digits. */
  lemma MeetingCodeOfCreated(n: nat, random: nat)
    requires random < 9000
    ensures MeetingCode("WS-" + NatToString(n), random) == "WK-" + NatToString(n) + "-" + NatToString(1000 + random)
  {
    var digits := NatToString(n);
    assert '-' !in digits;
    assert "WS-" + digits == "WS" + ['-'] + digits;
    SplitFirst("WS", '-', digits);
    SplitWithoutSep(digits, '-');
  }

  // ---------------------------------------------------------------- page state

  class WorkshopPage {
    var workshops: seq<Workshop>
    var activeTab: string
    var modalOpen: bool
    var form: map<string, string>

    /** The form keeps its keys, and the page never holds a draft. */
    predicate Valid()
      reads this
    {
      FormFields <= form.Keys && forall k :: 0 <= k < |workshops| ==> workshops[k].status != "Draft"
    }

    constructor ()
      ensures Valid()
      ensures workshops == InitialData && activeTab == "upcoming" && !modalOpen && form == BlankForm
    {
      workshops := InitialData;
      activeTab := "upcoming";
      modalOpen := false;
      form := BlankForm;
    }

    method SelectTab(tab: string)
      requires Valid()
      modifies this
      ensures Valid()
      ensures activeTab == tab && workshops == old(workshops) && modalOpen == old(modalOpen) && form == old(form)
    {
      activeTab := tab;
    }

    /** `handleInputChange`: the named field takes the value. */
    method InputChange(name: string, value: string)
      requires Valid()
      modifies this
      ensures Valid()
      ensures form == old(form)[name := value]
      ensures workshops == old(workshops) && activeTab == old(activeTab) && modalOpen == old(modalOpen)
    {
      form := form[name := value];
    }

    /** `handleDayClick(day)`: the form's date becomes that November day and the modal opens. */
    method DayClick(day: nat)
      requires Valid()
      modifies this
      ensures Valid()
      ensures form == old(form)["date" := DayDate(day)] && modalOpen
      ensures workshops == old(workshops) && activeTab == old(activeTab)
    {
      form := form["date" := DayDate(day)];
      modalOpen := true;
    }

    /** The "Create Workshop" button: the modal opens with today's date. */
    method OpenCreate(today: string)
      requires Valid()
      modifies this
      ensures Valid()
      ensures form == old(form)["date" := today] && modalOpen
      ensures workshops == old(workshops) && activeTab == old(activeTab)
    {
      modalOpen := true;
      form := form["date" := today];
    }

    /** The form's `required` inputs, title, date and time, all hold text. */
    predicate Submittable()
      reads this
    {
      "title" in form && "date" in form && "time" in form
      && form["title"] != "" && form["date"] != "" && form["time"] != ""
    }

    /**
     * Submitting the creation form: while a required input is empty the browser
     * does not submit and nothing changes; otherwise `handleCreateWorkshop`
     * appends one workshop, closes the modal and resets the form.
     */
    method Create(randomId: nat)
      requires Valid() && randomId < 10000
      modifies this
      ensures Valid()
      ensures !old(Submittable()) ==> unchanged(this)
      ensures old(Submittable()) ==>
        workshops == old(workshops) + [NewWorkshop(old(form), randomId)]
        && !modalOpen && form == BlankForm && activeTab == old(activeTab)
    {
      if !Submittable() {
        return;
      }
      var w := NewWorkshop(form, randomId);
      workshops := workshops + [w];
      modalOpen := false;
      form := BlankForm;
    }

    /** `handleDelete(id)`: on confirmation every workshop with that id goes. */
    method Delete(id: string, confirmed: bool)
      requires Valid()
      modifies this
      ensures Valid()
      ensures workshops == if confirmed then WithoutId(old(workshops), id) else old(workshops)
      ensures activeTab == old(activeTab) && modalOpen == old(modalOpen) && form == old(form)
    {
      if confirmed {
        workshops := WithoutId(workshops, id);
      }
    }
  }

  /** A workshop created right after clicking a day marks that day on the calendar. */
  lemma CreatedDayIsMarked(ws: seq<Workshop>, form: map<string, string>, day: nat, randomId: nat)
    requires FormFields <= form.Keys
    ensures HasEvent(ws + [NewWorkshop(form["date" := DayDate(day)], randomId)], day)
  {
    var all := ws + [NewWorkshop(form["date" := DayDate(day)], randomId)];
    assert all[|ws|].date == DayDate(day);
  }
}
